=== FILE: README.md ===
# Freesound client core, modelled in Dafny

This project models the logic layer of a React/TypeScript client for the
Freesound sound-search API (joemsak/freesound-api-react-ts). Time, storage,
the network and callbacks are taken out of it. What is left is sequential
and clock-driven, and it is written here as pure functions over immutable
state, with the clock passed in as `now`:

- the sliding-window **rate limiter** that every API request goes through
  (`RateLimiter`);
- the two-level **time-to-live cache** of sounds and result pages, mirrored
  to browser storage (`SoundCache`);
- **cursor walking** over the server's chain of result pages (`Chain`). It
  is used by the paginated-search hook (`PaginatedSearch`) and by the search
  screen (`SearchScreen`), which chooses between walking from the page on
  show and searching afresh;
- the pure parts of the **API client** (`Freesound`):
  - endpoint templates and placeholder substitution;
  - request-URI assembly;
  - the classification of a finished request by status code, where 304
    follows section 15.4.5 of RFC 9110 and 429 follows section 4 of
    RFC 6585;
  - the caching headers (sections 8.8.2 and 8.8.3 of RFC 9110);
  - the cursor helpers, the authorization header and the argument checks
    of the searches;
- the **page-number window** of the pagination bar, in both copies: the
  shared helper and the bar's own loop version (`PageNumbers`);
- small state machines:
  - favourites (`Favorites`);
  - the current-track register (`AudioPlayer`);
  - the reducer shared by the cache-first hook and the sound-detail screen
    (`Reducer`), with those two effects (`CachedSearch`, `SoundDetail`);
- small string functions:
  - the error-message classifier (`ErrorHandler`);
  - the search-URL builder (`SearchUrl`);
  - the document title (`DocumentTitle`);
  - the GitHub-Pages redirect rewrite at start-up (`SpaRedirect`).

Supporting modules:

- `Base` holds `Option` and sequence helpers.
- `Domain` holds sounds, pages, cursors, response bodies and thrown values.
- `Text` holds JavaScript's `toLowerCase` (ASCII letters), `trim`, `split`,
  `join`, `replace`, `String(n)` and `parseInt`.
- `Percent` holds `encodeURIComponent` and the form serializer of
  `URLSearchParams`, with decoders.
- `Query` assembles and parses query strings.

A server is a chain of pages. Page `i` links to its neighbours by cursors,
and a cursor carries the chain position that the server answers its URL
with. A request can fail at any position. Every React effect is modelled
from the moment it starts until every callback it started has fired.

Where the code does not do what its own comments announce, the model
follows the code:

- The limiter's header comment (src/utils/rateLimiter.ts:3) promises a
  limit of 2000 requests a day, and lines 38-43 test for it. The test runs
  on the list already pruned to the trailing minute (lines 29-31), which
  holds fewer than 59 entries, so it never refuses. `CanMakeRequest`
  states this.
- The search screen's comment at src/screens/FreesoundSearch.tsx:130
  speaks of navigating from the current page, but the screen does not
  check which query the page on show belongs to (finding 5 below).

## Model

| member | source | states |
|---|---|---|
| RateLimiter.JsRem | src/utils/rateLimiter.ts:39 | JavaScript's `%`: the remainder is smaller than the divisor in absolute value, has the sign of the dividend, and differs from it by a multiple of the divisor |
| RateLimiter.DayStart | src/utils/rateLimiter.ts:39 | for a non-negative clock, the start of the day is at most `now` and less than a day before it |
| RateLimiter.KeepRecent | src/utils/rateLimiter.ts:29-31 | the filter keeps exactly the timestamps younger than the span, and never lengthens the list |
| RateLimiter.KeepRecentAppend | src/utils/rateLimiter.ts:29-31 | filtering a list with one more element is filtering the old list and then that element |
| RateLimiter.KeepRecentSorted | src/utils/rateLimiter.ts:79-81 | filtering keeps a sorted list sorted |
| RateLimiter.KeepRecentCountsWindow | src/utils/rateLimiter.ts:29-31 | with no future timestamp, the length of the pruned list is the number of requests in the trailing minute |
| RateLimiter.CanMakeRequest | src/utils/rateLimiter.ts:25-46 | the list is pruned to the trailing minute, and the verdict is yes exactly when fewer than 59 remain; the per-day test never changes the verdict |
| RateLimiter.DelayUntilNext | src/utils/rateLimiter.ts:51-69 | the delay is 0 for an empty list or an oldest entry a minute old. Otherwise it is what remains of one spacing interval after the oldest entry, so it never exceeds 60000/59 ms once the oldest entry is in the past |
| RateLimiter.Record | src/utils/rateLimiter.ts:74-82 | `now` becomes the last entry, and exactly the entries younger than two minutes survive |
| RateLimiter.RecordSorted | src/utils/rateLimiter.ts:74-82 | under a clock that never goes backwards the list stays sorted, so its first entry is the oldest |
| RateLimiter.SleepUntil | src/utils/rateLimiter.ts:95-100 | the loop sleeps exactly when `canMakeRequest` refuses and the delay is positive, and then it wakes at a later time |
| RateLimiter.DrainQueue | src/utils/rateLimiter.ts:94-107 | the loop is first-in first-out: what it sends is a prefix of the queue and the rest stays queued, and it is asleep exactly when something is left |
| RateLimiter.Drain | src/utils/rateLimiter.ts:87-110 | the requests sent start their timers in queue order, with the delays computed when they were queued; the flag is set exactly while the loop sleeps, and nothing is invoked directly |
| RateLimiter.ProcessQueue | src/utils/rateLimiter.ts:87-110 | a no-op while the loop is running or the queue is empty; otherwise each request that leaves the queue gets exactly one timer |
| RateLimiter.ExecuteRequest | src/utils/rateLimiter.ts:115-144 | when allowed, the request is recorded once and invoked at once, and the queue is untouched; when refused, nothing is invoked, and a running loop leaves the request queued last with the delay computed now |
| RateLimiter.Dispatch | src/utils/rateLimiter.ts:102-106 | the head of the queue leaves without a check; `now` is recorded and the head's timer starts |
| RateLimiter.Wake | src/utils/rateLimiter.ts:95-107 | a loop that is not due changes nothing; once due, it sends the head of the queue before checking again |
| RateLimiter.FireTimer | src/utils/rateLimiter.ts:133-137 | a due timer records `now` and invokes its request, and leaves the queue alone |
| RateLimiter.QueuedRequestRecordedTwice | src/utils/rateLimiter.ts:102-137 | a queued request is recorded when the loop sends it and again when its timer fires |
| RateLimiter.GetRequestCount | src/utils/rateLimiter.ts:149-155 | the list is pruned, and the count is the number of requests in the trailing minute |
| RateLimiter.Reset | src/utils/rateLimiter.ts:160-163 | both lists are emptied; the processing flag, a sleeping loop and pending timers are kept |
| RateLimiter.BurstRunsAll | src/utils/rateLimiter.ts:126-128 | 59 requests issued at once on a fresh limiter all run at once |
| RateLimiter.RefusedButSent | src/utils/rateLimiter.ts:94-107 | a request that `canMakeRequest` refuses, but whose delay is 0, is still sent at once, with a timer due at once |
| RateLimiter.LoopSendsRefused | src/utils/rateLimiter.ts:94-107 | the loop alone shifts off and records a queued request that `canMakeRequest` refuses, when the delay it computes is 0, and does not sleep |
| RateLimiter.FloodStep | src/utils/rateLimiter.ts:115-144 | after 59 requests at time 0, every further request at time 5000 runs at 5000, and the same situation holds again |
| RateLimiter.CapExceeded | src/utils/rateLimiter.ts:94-137 | a reachable history in which 60 requests run within one minute |
| RateLimiter.RunKeepsCap | src/utils/rateLimiter.ts:34-36 | invoking a request while the trailing minute has room keeps every minute at or below 59 |
| RateLimiter.PacedDrain | src/utils/rateLimiter.ts:94-107 | the corrected loop is first-in first-out, sleeps exactly when something is left, and keeps every minute capped |
| RateLimiter.PacedExecute | src/utils/rateLimiter.ts:126-141 | a corrected request runs at once when the trailing minute has room; otherwise a sleeping loop gets it queued last; every minute stays capped |
| RateLimiter.PacedWake | src/utils/rateLimiter.ts:95-100 | the corrected loop checks again after waking; every minute stays capped |
| RateLimiter.PacedCapHolds | src/utils/rateLimiter.ts:25-46 | under a clock that never goes backwards, no sequence of requests and wake-ups lets more than 59 requests run in any minute |
| SoundCache.Save | src/contexts/SoundCacheContext.tsx:62-72 | the stored object has exactly the keys of the map |
| SoundCache.WithSounds | src/contexts/SoundCacheContext.tsx:119-121 | replacing the sound map writes it to storage and leaves the page map and its mirror alone |
| SoundCache.WithSearches | src/contexts/SoundCacheContext.tsx:123-125 | replacing the page map writes it to storage and leaves the sound map and its mirror alone |
| SoundCache.SearchKeyShared | src/contexts/SoundCacheContext.tsx:211-213 | two searches share a key exactly when the pages are equal and the queries agree after lower-casing and trimming |
| SoundCache.SearchKeyNormalised | src/contexts/SoundCacheContext.tsx:211-213 | a query and its lower-cased, trimmed form share every key |
| SoundCache.GetSound | src/contexts/SoundCacheContext.tsx:156-173 | a sound is served exactly when its entry is younger than five minutes, and then nothing changes; an expired entry is evicted; a missing id changes nothing |
| SoundCache.GetSearchResults | src/contexts/SoundCacheContext.tsx:215-233 | the same, for pages under the normalised key |
| SoundCache.HasAgreesWithGet | src/contexts/SoundCacheContext.tsx:198-209 | `hasSound` answers what `getSound` answers; a read never touches the page map, and an eviction removes exactly one entry |
| SoundCache.Strip | src/contexts/SoundCacheContext.tsx:183-185 | a cached sound has no headers and keeps its id and name |
| SoundCache.SetThenGet | src/contexts/SoundCacheContext.tsx:175-196 | a stored sound is served, without headers, for five minutes, with the validators from its headers; every other entry is unchanged and storage keeps mirroring the maps |
| SoundCache.SetSounds | src/contexts/SoundCacheContext.tsx:260-262 | caching a page's sounds leaves the page map and its mirror alone |
| SoundCache.SetSoundsStamps | src/contexts/SoundCacheContext.tsx:260-262 | after the loop, every sound of the page is cached and stamped `now` |
| SoundCache.SetSoundsOthers | src/contexts/SoundCacheContext.tsx:260-262 | ids not on the page keep their entries, and no other id appears |
| SoundCache.SetSoundsLast | src/contexts/SoundCacheContext.tsx:260-262 | the last copy of an id on the page is the one cached |
| SoundCache.StripPage | src/contexts/SoundCacheContext.tsx:245-246 | a cached page has no headers and keeps its results and count |
| SoundCache.SearchResultsFanOut | src/contexts/SoundCacheContext.tsx:235-263 | for five minutes after a page is stored, it is served under its key and every sound on it is served by id |
| SoundCache.KeepLive | src/contexts/SoundCacheContext.tsx:131-150 | the sweep's filter keeps exactly the entries younger than five minutes, unchanged |
| SoundCache.Sweep | src/contexts/SoundCacheContext.tsx:128-154 | the sweep keeps storage mirroring the maps |
| SoundCache.SweepKeepsServed | src/contexts/SoundCacheContext.tsx:128-154 | the sweep keeps exactly what a read would serve at the same moment, so it changes no answer |
| SoundCache.Clear | src/contexts/SoundCacheContext.tsx:265-270 | both maps are empty, and storage mirrors them |
| SoundCache.ClearForgets | src/contexts/SoundCacheContext.tsx:265-270 | after clearing, no sound and no page is served |
| SoundCache.Load | src/contexts/SoundCacheContext.tsx:34-60 | loading keeps only stored keys; a missing key, a parse failure or a `null` entry gives the empty map and no rewrite |
| SoundCache.LoadFilters | src/contexts/SoundCacheContext.tsx:74-100 | one `null` entry empties the whole cache without a rewrite; otherwise loading keeps exactly the entries with a truthy timestamp, data and age under five minutes, and rewrites storage exactly when it dropped one |
| SoundCache.SaveLoad | src/contexts/SoundCacheContext.tsx:34-112 | saving and loading within five minutes, with no entry stamped 0, gives back every key with its data, store time and validators, each marked as read back; the result equals the map exactly when every entry already was read back, because JSON drops the page's cursor functions |
| SoundCache.ZeroStampDropped | src/contexts/SoundCacheContext.tsx:43-47 | an entry stamped at time 0 is dropped on loading |
| SoundCache.Mount | src/contexts/SoundCacheContext.tsx:115-125 | once the provider mounts, storage mirrors both maps, and every entry in them is marked as read back |
| SoundCache.MountedSearchHit | src/contexts/SoundCacheContext.tsx:74-100 | a live page stored alone is, after mounting, a hit on its key, served as stored and marked as read back |
| Chain.Fetch | src/services/freesound.ts:293-299 | a cursor's request succeeds exactly for an existing position that does not fail, and then answers that page |
| Chain.WalkForward | src/hooks/usePaginatedSearch.ts:41-62 | the forward walk makes at most `target - counter` hops; when it ends without error, its counter has advanced by the hops and it has either reached the target or run out of `next` cursors |
| Chain.WalkForwardLands | src/hooks/usePaginatedSearch.ts:41-62 | on a well-linked, reliable chain, the walk stops at the target page, or at the last page when the chain is shorter, making one hop per page |
| Chain.FromFirstPage | src/screens/FreesoundSearch.tsx:74-97 | from page 1, the walk makes at most `target - 1` hops and stops at page `min(target, length)` |
| Chain.WalkToward | src/screens/FreesoundSearch.tsx:139-179 | the walk from the page on show makes at most the page distance in hops, and exactly that many when it arrives |
| Chain.WalkTowardArrives | src/screens/FreesoundSearch.tsx:139-179 | on a well-linked, reliable chain, walking towards an existing page in the right direction arrives at exactly that page |
| Chain.WalkTowardPastEnd | src/screens/FreesoundSearch.tsx:151-178 | walking forward past the end of the chain gives up at the last page |
| PaginatedSearch.Commit | src/hooks/usePaginatedSearch.ts:57-60 | committing a page shows it under the target page number, ends loading and keeps the error text; for the next five minutes a read of the key and the target serves the page without its headers |
| PaginatedSearch.NavigateToPage | src/hooks/usePaginatedSearch.ts:35-73 | makes at most `target - 1` hops and always ends loading; a failed hop sets the error and stores nothing; success stores the page on show under the target |
| PaginatedSearch.NavigateIsWalk | src/hooks/usePaginatedSearch.ts:35-73 | committing page 1 directly, without a walk, gives the same result a walk from page 1 would |
| PaginatedSearch.Begin | src/hooks/usePaginatedSearch.ts:75-88 | the page number is taken over first; a hit is shown at once; a miss starts loading and clears the error |
| PaginatedSearch.Run | src/hooks/usePaginatedSearch.ts:75-100 | a hit sends no request, and no request is sent only on a hit; loading always ends; at most `page` requests are sent; an error leaves the cache as the read left it |
| PaginatedSearch.RunOnSoundChain | src/hooks/usePaginatedSearch.ts:75-100 | on a well-linked, reliable chain, a miss shows the page the walk lands on without error, after one request per page reached, stored under the requested page |
| PaginatedSearch.RunStoresShownPage | src/hooks/usePaginatedSearch.ts:57-69 | a run that sent requests and ended without error stores the page on show under the requested page |
| PaginatedSearch.RevisitIsServedFromCache | src/hooks/usePaginatedSearch.ts:79-84 | running again within five minutes sends no request and shows the stored copy |
| PaginatedSearch.ShortChainStoredUnderTarget | src/hooks/usePaginatedSearch.ts:57-60 | when the chain is shorter than the requested page, its last page is stored under the requested page number |
| SearchScreen.SearchOptions | src/screens/FreesoundSearch.tsx:69-72 | the option names need no escaping |
| SearchScreen.SearchRequest | src/screens/FreesoundSearch.tsx:67-72 | the first request is a GET of the text search for the query, with page size 10 and the fields the results list shows |
| SearchScreen.PerformSearch | src/screens/FreesoundSearch.tsx:33-104 | a blank query only sets the error; no request is sent exactly for a blank query or a hit; otherwise loading ends on the requested page, at most `page` requests are sent, and a page of the searched query is shown unless an error ended the run |
| SearchScreen.PerformSearchOnSoundChain | src/screens/FreesoundSearch.tsx:48-103 | on a miss and a well-linked, reliable chain, the search shows the page the forward walk lands on without error, after one request per page, stored under the requested page |
| SearchScreen.CacheHitShown | src/screens/FreesoundSearch.tsx:40-46 | a hit is shown for the requested page with no request; it lacks its cursor functions exactly when its entry was read back from storage |
| SearchScreen.PerformSearchBare | src/screens/FreesoundSearch.tsx:33-104 | a page shown without a request lacks its cursor functions exactly when it is a hit read back from storage; a page the search fetched has them |
| SearchScreen.Settle | src/screens/FreesoundSearch.tsx:134-186 | every run ends on the requested page; without a walk it is a fresh search; it throws exactly when it walks from a page read back from storage that has a cursor in the walking direction |
| SearchScreen.UrlChanged | src/screens/FreesoundSearch.tsx:119-189 | an empty URL query changes nothing; otherwise the query box takes the URL's query and the screen ends on the URL's page; the effect throws exactly when it may walk from a page read back from storage that has a cursor in the walking direction |
| SearchScreen.UrlChangedSameQuery | src/screens/FreesoundSearch.tsx:131-134 | corrected: a page of another query, or one read back from storage, is never walked from, so the run is a fresh search; the effect never throws |
| SearchScreen.FarPageSearchesAfresh | src/screens/FreesoundSearch.tsx:131-134 | a page more than three away, the page on show, or an empty screen leads to a fresh search |
| SearchScreen.WalkIgnoresCache | src/screens/FreesoundSearch.tsx:143-149 | a walk that would arrive throws exactly when the page on show was read back from storage; otherwise it does not read the cache, and the cache only gains the page reached |
| SearchScreen.WalkFallsBack | src/screens/FreesoundSearch.tsx:158-178 | a walk that gives up, and did not throw on its first hop, hands over to a fresh search for the requested page, which adds its requests to the hops already made |
| SearchScreen.SameQueryShowsRequestedPage | src/screens/FreesoundSearch.tsx:119-189 | corrected: given sound chains and a truthful cache, the effect never throws and the screen ends up showing the requested page of the requested query |
| SearchScreen.FreshShowsRequestedPage | src/screens/FreesoundSearch.tsx:33-104 | a fresh search with a truthful cache shows the requested page of the query |
| SearchScreen.WalkShowsRequestedPage | src/screens/FreesoundSearch.tsx:134-181 | a walk from a page of the same query that keeps its cursor functions does not throw and arrives at the requested page |
| SearchScreen.ReadBack | src/screens/FreesoundSearch.tsx:18-19 | the `q` and `page` parameters the screen writes are read back as written |
| SearchScreen.NavigateTo | src/screens/FreesoundSearch.tsx:191-199 | a page is accepted exactly when nothing is loading and it is another page, at least 1, and at most the total page count; the URL it sets reads back as the query and that page |
| SearchScreen.NavigationRoundTrip | src/screens/FreesoundSearch.tsx:191-199 | the URL set for a page, written out and parsed back, gives the same query and page |
| SearchScreen.HandleSearch | src/screens/FreesoundSearch.tsx:106-116 | a blank query box only sets the error; otherwise the URL gets the trimmed query and page 1 |
| SearchScreen.TwoQueriesAreSound | src/screens/FreesoundSearch.tsx:131-134 | the two-query scenario meets every assumption of the same-query property: sound chains, a screen showing page 3 of "cats", and an empty, truthful cache |
| SearchScreen.OtherQueryWalkedThrough | src/screens/FreesoundSearch.tsx:131-134 | as written, searching "dogs" from page 3 of "cats" walks back through the "cats" chain and shows a "cats" page as the "dogs" results |
| SearchScreen.OtherQueryStored | src/screens/FreesoundSearch.tsx:146 | as written, the same step leaves the first "cats" page served under the "dogs" key for five minutes |
| SearchScreen.SameQuerySearchesDogs | src/screens/FreesoundSearch.tsx:131-134 | corrected, the same step shows the "dogs" page |
| SearchScreen.RestoredPageShown | src/screens/FreesoundSearch.tsx:40-46 | reopening the screen on a query and page stored less than five minutes ago shows the stored page at once, with no request, as a copy without its cursor functions |
| SearchScreen.RestoredPageCrashes | src/screens/FreesoundSearch.tsx:151-153 | as written, moving on to the next page from that copy, when it has a `next` cursor, makes the effect throw |
| SearchScreen.RestoredPageSearchedAfresh | src/screens/FreesoundSearch.tsx:131-134 | corrected, the same step searches the next page afresh and does not throw |
| Freesound.WordRun | src/services/freesound.ts:144 | the run of word characters at a position is maximal |
| Freesound.FindPlaceholder | src/services/freesound.ts:144 | finds the leftmost match of `<[\w_]+>` at or after a position, or reports that there is none |
| Freesound.ReplacePlaceholder | src/services/freesound.ts:144 | a text without a placeholder is unchanged |
| Freesound.MakeUri | src/services/freesound.ts:141-147 | every URI starts with the API base |
| Freesound.LeftoverArgs | src/services/freesound.ts:141-147 | arguments left over once no placeholder remains change nothing |
| Freesound.ExtraArgIgnored | src/services/freesound.ts:141-147 | once its only placeholder is filled, a template ignores a second argument |
| Freesound.ReplaceAfter | src/services/freesound.ts:144 | with no `<` before it, the first placeholder gives way to the argument |
| Freesound.SoundUri | src/services/freesound.ts:401-409 | a sound's URI is the base, `/sounds/`, the id and `/` |
| Freesound.AnalysisFilterDropped | src/services/freesound.ts:456-465 | the descriptor filter passed as a second argument never reaches the analysis URI |
| Freesound.Lookup | src/services/freesound.ts:183-187 | a key is found exactly when some parameter has that name |
| Freesound.SetParam | src/services/freesound.ts:168 | setting a key gives it the value and leaves every other key as it was; an existing key keeps its place and a new key goes last |
| Freesound.WithFormat | src/services/freesound.ts:167-168 | every request asks for `format=json` |
| Freesound.RequestUriParses | src/services/freesound.ts:182-190 | everything after the appended `?` parses back to the parameters, `format=json` included |
| Freesound.SecondQuestionMark | src/services/freesound.ts:188-190 | a URI that already has a query gets a second `?` |
| Freesound.Kept | src/services/freesound.ts:214-216 | a header is kept exactly when it was sent with a non-empty value, unchanged |
| Freesound.ClassifyCases | src/services/freesound.ts:173-247 | success runs exactly for 200, 201 and 202 with a body that parses and that the request's wrapper accepts: a search or cursor hop (`Collection`) accepts only an object, `getSound` (`SoundObjectImpl`) any JSON; 304 and every other status except 429 pass the raw request to the error callback; 429 raises an error with status 429 and the server's `detail` if it sent one; a body that does not parse, or that `Collection` rejects, raises a parse-failure error |
| Freesound.DeliveredHeaders | src/services/freesound.ts:208-221 | headers are attached only to an object, and then exactly the ones sent with a non-empty value; every wrapped delivery (search, cursor hop, `getSound`) carries them |
| Freesound.ClassifyShown | src/utils/errorHandler.ts:4-22 | through the screens' error text, a failed 401 or 400 shows its fixed text, another status but 429 shows the server's `detail` or the fallback, and a rate-limit or parse failure always shows the fallback |
| Freesound.NextOrPrev | src/services/freesound.ts:293-299 | an absent cursor is reported without a request |
| Freesound.CursorRequest | src/services/freesound.ts:293-307 | following a cursor requests its URL with `?format=json` appended |
| Freesound.GetItem | src/services/freesound.ts:309-311 | the `i`-th result exists exactly for an index inside the page |
| Freesound.SetToken | src/services/freesound.ts:347-349 | the header is the scheme prefix followed by the token |
| Freesound.CheckOauth | src/services/freesound.ts:270-274 | the only error is "OAuth authentication required" |
| Freesound.OauthCheck | src/services/freesound.ts:270-274 | an OAuth header always passes; a plain token header passes exactly when the token contains `Bearer` |
| Freesound.Search | src/services/freesound.ts:324-344 | a search is a GET or, with an analysis file, a POST |
| Freesound.TextOptions | src/services/freesound.ts:383 | the query option is the query, or a space for the empty query; every other option is as given |
| Freesound.TextSearch | src/services/freesound.ts:377-385 | a text search never throws |
| Freesound.TextSearchQuery | src/services/freesound.ts:377-385 | without an analysis file, a text search is a GET of the text-search endpoint whose query parameter is the query, or a space |
| Freesound.ContentSearch | src/services/freesound.ts:387-392 | throws exactly when neither `target` nor `analysis_file` is given |
| Freesound.CombinedSearch | src/services/freesound.ts:394-399 | throws exactly when none of `query`, `target` and `analysis_file` is given |
| PageNumbers.Run | src/utils/pagination.ts:8-10 | a loop pushes the numbers `lo..hi` in ascending order |
| PageNumbers.CalculatePageNumbers | src/utils/pagination.ts:4-36 | a short list is exactly `1..total`; a long one has seven slots, from page 1 to the last page |
| PageNumbers.LongWindow | src/utils/pagination.ts:12-32 | the seven slots of each of the three long layouts |
| PageNumbers.WindowGapsInside | src/utils/pagination.ts:18-31 | the marker is never first, never last and never doubled |
| PageNumbers.WindowOrdered | src/utils/pagination.ts:7-32 | for a short list, or from six pages on, the numbers rise strictly and name existing pages |
| PageNumbers.WindowGapsHidePages | src/utils/pagination.ts:12-32 | from seven pages on, each marker stands for at least one hidden page |
| PageNumbers.CurrentShown | src/utils/pagination.ts:7-32 | an existing current page is always in the window |
| PageNumbers.TotalPages | src/components/Pagination.tsx:19 | the fewest pages of ten that hold the results |
| PageNumbers.GetPageNumbers | src/components/Pagination.tsx:21-54 | the bar's loop copy computes exactly what the shared helper computes for a window of seven |
| PageNumbers.PushRange | src/components/Pagination.tsx:26-28 | the loop appends the run `lo..hi` |
| PageNumbers.Href | src/components/Pagination.tsx:95 | a link target starts with `/?q=` |
| PageNumbers.HrefParses | src/components/Pagination.tsx:95 | a link target parses back to the query and the printed page |
| PageNumbers.LinkFor | src/components/Pagination.tsx:80-110 | a marker becomes the ellipsis; a number becomes a link to that page, active exactly on the current page |
| PageNumbers.Links | src/components/Pagination.tsx:80-110 | one control per window slot, in order |
| PageNumbers.RenderShape | src/components/Pagination.tsx:56-126 | the bar is hidden exactly when there are no results; Previous appears exactly with a `previous` cursor and targets the page before; Next appears exactly with a `next` cursor and targets the page after; between them is one control per slot |
| PageNumbers.ClickTargets | src/components/Pagination.tsx:65-125 | a click asks for a page only while nothing is loading, never for the active page, and the arrows ask for the neighbours |
| PageNumbers.BarControl | src/components/Pagination.tsx:80-110 | each control of the bar: a link is active exactly on the current page, and the arrows point at its neighbours |
| Favorites.LoadFavorites | src/contexts/FavoritesContext.tsx:18-29 | a stored array is taken as it is; anything else reads as the empty list |
| Favorites.Add | src/contexts/FavoritesContext.tsx:39-46 | the id ends up present; a present id leaves the list as it was; an absent one is appended |
| Favorites.Remove | src/contexts/FavoritesContext.tsx:48-50 | the id is gone and every other id's presence is unchanged |
| Favorites.Toggle | src/contexts/FavoritesContext.tsx:52-60 | the id's presence flips and every other id's is unchanged |
| Favorites.AddToggle | src/contexts/FavoritesContext.tsx:39-64 | adding is idempotent; toggling is removing a present id or adding an absent one |
| Favorites.RemoveIsFilter | src/contexts/FavoritesContext.tsx:48-50 | removal keeps the order of the other ids, distributing over concatenation |
| Favorites.ToggleTwice | src/contexts/FavoritesContext.tsx:52-60 | toggling an absent id twice restores the list; a present id ends up once, at the end |
| Favorites.NoDuplicatesKept | src/contexts/FavoritesContext.tsx:39-60 | adding, removing and toggling keep a list free of duplicates |
| Favorites.LoadKeepsDuplicates | src/contexts/FavoritesContext.tsx:23 | a stored array with a repeated id loads with the repetition |
| Favorites.Mount | src/contexts/FavoritesContext.tsx:32-37 | after mounting, the list is what was loaded and storage mirrors it |
| Favorites.Apply | src/contexts/FavoritesContext.tsx:35-68 | after every operation storage mirrors the list; clearing empties it; otherwise only the id operated on changes presence, in the way the operation says |
| Favorites.ReloadAfterApply | src/contexts/FavoritesContext.tsx:35-37 | reloading after any operation finds the list as it was |
| Favorites.OperationsKeepNoDuplicates | src/contexts/FavoritesContext.tsx:39-68 | no sequence of operations on a list without duplicates creates one |
| AudioPlayer.Register | src/contexts/AudioPlayerContext.tsx:26-39 | the element becomes current with its track; a different current element is paused; registering the same element pauses nothing |
| AudioPlayer.Unregister | src/contexts/AudioPlayerContext.tsx:41-47 | the current track is cleared only while the element is still current; otherwise nothing changes |
| AudioPlayer.PauseCurrent | src/contexts/AudioPlayerContext.tsx:54-58 | afterwards nothing is playing as current; no other element is touched |
| AudioPlayer.OnlyOneTrackPlays | src/contexts/AudioPlayerContext.tsx:26-58 | registering and starting an element keeps "only the current element plays"; so do pausing and unregistering an element that is not playing |
| AudioPlayer.RegisterUnregister | src/contexts/AudioPlayerContext.tsx:33-47 | an unregister undoes its own registration, but does nothing after another element has registered |
| AudioPlayer.RegisteredPlaying | src/contexts/AudioPlayerContext.tsx:50-52 | `isPlaying` holds for the element just registered exactly when it was already playing, and for no other element |
| Reducer.Reduce | src/hooks/useCachedSearch.ts:35-50 | the data actions show the payload without loading or error; an error ends loading and keeps the data; a loading change clears the error; reset starts over; an unknown action does nothing |
| Reducer.ReduceFacts | src/screens/SoundDetail.tsx:28-43 | every action is idempotent and keeps "no error while loading" |
| Reducer.ReduceAllSettled | src/hooks/useCachedSearch.ts:35-50 | any sequence of actions keeps "no error while loading" |
| CachedSearch.Initial | src/hooks/useCachedSearch.ts:74-81 | the initial data is the cached page, and loading holds exactly when there is none |
| CachedSearch.Message | src/hooks/useCachedSearch.ts:124 | an `Error` shows its message; anything else shows "An error occurred" |
| CachedSearch.Effect | src/hooks/useCachedSearch.ts:83-131 | a hit sends no request, and no request is sent only on a hit; nothing is dispatched exactly when the hit equals the data on show; success and error each end loading; an error keeps the data |
| CachedSearch.EffectIsDispatch | src/hooks/useCachedSearch.ts:96-125 | the state the effect leaves is the reducer applied to the actions it dispatched, in order |
| CachedSearch.MountedHitIsQuiet | src/hooks/useCachedSearch.ts:74-93 | after a mount from the cache, the first run dispatches nothing and sends no request |
| CachedSearch.SuccessSettles | src/hooks/useCachedSearch.ts:108-117 | after a successful search, the next run is served from the cache, and the run after that dispatches nothing |
| SoundDetail.ParseId | src/screens/SoundDetail.tsx:84-93 | a missing parameter is rejected; otherwise the id is `parseInt` of the parameter |
| SoundDetail.ParseIdPrinted | src/screens/SoundDetail.tsx:57-60 | a printed id is read back as itself; the empty parameter is rejected |
| SoundDetail.Initial | src/screens/SoundDetail.tsx:53-63 | an invalid id shows the invalid-id error; otherwise the data is the cached sound, with no error, and loading holds exactly when the sound is not cached |
| SoundDetail.DetailTitle | src/screens/SoundDetail.tsx:66 | the title is never empty: the sound's name when it is non-empty; with no sound or an empty name, "Loading..." while loading and "Sound Details" otherwise |
| SoundDetail.Cleanup | src/screens/SoundDetail.tsx:125-127 | the cleanup sets the shared flag and closes its run |
| SoundDetail.Load | src/screens/SoundDetail.tsx:95-123 | a hit is shown at once with no request; a miss resets to loading and sends exactly one request for the id |
| SoundDetail.Deliver | src/screens/SoundDetail.tsx:111-122 | an answer that is not dropped shows the sound and stores it, or shows the error text and keeps the sound; a dropped one changes nothing |
| SoundDetail.EffectAsWritten | src/screens/SoundDetail.tsx:77-128 | an unchanged id does nothing; an id that does not parse leaves the state alone |
| SoundDetail.MountAsWritten | src/screens/SoundDetail.tsx:50 | as written, the mount sends no request, whatever the cache holds |
| SoundDetail.RerunAsWritten | src/screens/SoundDetail.tsx:79-82 | a re-run with the same id only runs the cleanup |
| SoundDetail.RespondAsWritten | src/screens/SoundDetail.tsx:112-118 | an answer is dropped exactly when the shared flag is set |
| SoundDetail.Effect | src/screens/SoundDetail.tsx:77-128 | corrected: every run loads the id it was rendered with; an id that does not parse shows the invalid-id state |
| SoundDetail.Respond | src/screens/SoundDetail.tsx:112-118 | corrected: an answer is dropped exactly when the run that sent it has been cleaned up |
| SoundDetail.EffectFaithful | src/screens/SoundDetail.tsx:77-128 | corrected: a run on a screen with every earlier run closed leaves the screen faithful to the route |
| SoundDetail.MountFaithful | src/screens/SoundDetail.tsx:53-128 | corrected: mounting gives a screen faithful to the route |
| SoundDetail.RerunFaithful | src/screens/SoundDetail.tsx:125-128 | corrected: every later run, for any route parameter, keeps the screen faithful |
| SoundDetail.RespondFaithful | src/screens/SoundDetail.tsx:109-123 | corrected: every answer the server can give keeps the screen faithful |
| SoundDetail.MountLoads | src/screens/SoundDetail.tsx:105-116 | corrected: a mount on an uncached id sends one request; its answer is shown, and then served from the cache for five minutes |
| SoundDetail.UncachedMountStuck | src/screens/SoundDetail.tsx:50 | as written, a mount on an uncached id shows "Loading..." with nothing in flight, and a re-render leaves it so |
| SoundDetail.StaleAnswerShown | src/screens/SoundDetail.tsx:95 | as written, a late answer for sound 1 is shown under the route of sound 2 |
| SoundDetail.StaleAnswerDropped | src/screens/SoundDetail.tsx:112-118 | corrected, the same events leave sound 2 on show |
| SoundDetail.SameIdRerunDrops | src/screens/SoundDetail.tsx:79-82 | as written, a re-run for an unchanged id while a request is in flight drops every answer |
| SoundDetail.EvictionStrandsLoad | src/screens/SoundDetail.tsx:98-128 | as written, when a read evicts an expired entry, the effect runs again with the same id, and the screen stays loading with nothing in flight |
| SoundDetail.EvictionReloads | src/screens/SoundDetail.tsx:98-128 | corrected, the same events send a second request whose answer is shown |
| SoundDetail.SecondRun | src/screens/SoundDetail.tsx:106-127 | corrected: a second run for an id that still misses sends a new request, and only its answer is shown |
| SoundDetail.InvalidRouteKeepsSound | src/screens/SoundDetail.tsx:89-93 | as written, a route that does not parse keeps the previous sound on show; corrected, the invalid-id state is shown |
| ErrorHandler.ExtractErrorMessage | src/utils/errorHandler.ts:4-22 | 401 and 400 have fixed texts whatever the body; another status shows "API Error: " and the body's `detail`, or the fallback when there is no `detail`; anything that is not a request object shows the fallback |
| ErrorHandler.DetailRecovered | src/utils/errorHandler.ts:12-19 | a message with the detail prefix comes exactly from a request that is neither 400 nor 401 and has a `detail`, and the text after the prefix is that `detail` |
| SearchUrl.SearchParams | src/utils/url.ts:5-11 | `q` is present exactly for a non-empty query, and `page` exactly past page 1; `q` comes first and `page` last |
| SearchUrl.BuildSearchUrl | src/utils/url.ts:4-13 | the address starts with `/?` and the rest parses back to the parameters; it is just `/?` exactly for an empty query on page 1 or below |
| SearchUrl.BuildSearchUrlReadBack | src/utils/url.ts:4-13 | the search screen reads the address back as the query, and as the page from page 1 on |
| SearchUrl.SecondPageExample | src/utils/url.ts:4-13 | ("test", 2) gives "/?q=test&page=2" |
| SearchUrl.FirstPageExample | src/utils/url.ts:4-13 | ("test", 1) gives "/?q=test" |
| SearchUrl.EmptyExample | src/utils/url.ts:4-13 | ("", 1) gives "/?" |
| DocumentTitle.Format | src/hooks/useDocumentTitle.ts:9 | the title always ends with "Freesound API"; it is exactly that for an empty screen title and starts with the screen title otherwise |
| DocumentTitle.FormatRoundTrip | src/hooks/useDocumentTitle.ts:9 | the screen title can be read back, so distinct screen titles give distinct document titles |
| DocumentTitle.Step | src/hooks/useDocumentTitle.ts:6-15 | a new title runs the old cleanup and then writes the new title; the same title does nothing; unmounting writes the base title |
| DocumentTitle.StepsShow | src/hooks/useDocumentTitle.ts:6-15 | across any renders and unmounts, the document shows the mounted screen's title (the base title after an unmount) and always ends with "Freesound API" |
| SpaRedirect.Redirect | src/main.tsx:10-12 | the redirect of the spa-github-pages scheme keeps the base path and the fragment, and moves the rest of the route into a query string that starts with `?/` |
| SpaRedirect.RestoreAsWritten | src/main.tsx:12-20 | as written, the rewrite happens exactly when the path contains `/?/`, and the new address starts with `/` and keeps the fragment |
| SpaRedirect.RestoreAsWrittenDropsFirstSegment | src/main.tsx:15-18 | when it happens, the first path segment goes, the query string loses its `?`, and `?` and the query are added only when the query is non-empty |
| SpaRedirect.BrowserPathNeverRestored | src/main.tsx:14 | a path as a browser reports it never contains `?`, so the rewrite as written never happens |
| SpaRedirect.RedirectNotRestoredAsWritten | src/main.tsx:14 | the address the 404 redirect produces is left unrestored |
| SpaRedirect.UnescapeEscape | src/main.tsx:15-16 | `~and~` turns back into the `&` it stands for, provided the text had no `~` of its own |
| SpaRedirect.Restore | src/main.tsx:12-20 | corrected: the rewrite happens exactly when the query string starts with `?/`; the address keeps the base path and the fragment |
| SpaRedirect.RestoreRedirect | src/main.tsx:12-20 | corrected: the rewrite gives back the address the browser was first asked for, provided the route and its query held no `~` |
| Text.Trim | src/contexts/SoundCacheContext.tsx:212 | the result neither starts nor ends with white space, and it is empty exactly when the input is all white space |
| Text.TrimLower | src/contexts/SoundCacheContext.tsx:212 | lower-casing and trimming commute |
| Text.Split | src/main.tsx:15 | at least one piece, none holding the separator, and joining them gives the text back |
| Text.SplitJoin | src/main.tsx:15 | splitting undoes joining when no piece holds the separator |
| Text.IntToStringInjective | src/contexts/SoundCacheContext.tsx:212 | distinct integers print differently |
| Text.ParseInt | src/screens/SoundDetail.tsx:89-90 | `parseInt` gives `NaN` exactly when no digit follows the white space, the sign and the prefix |
| Text.ParseIntToString | src/screens/FreesoundSearch.tsx:19 | printing an integer and reading it back in base 10 gives the integer |
| Text.ParseIntToStringAuto | src/screens/SoundDetail.tsx:89 | without a radix, a printed integer still reads back as itself |
| Percent.Encode | src/services/freesound.ts:185 | encoded text is drawn from the safe characters, `%` and `+`, and is empty exactly when the input is |
| Percent.EncodeNoDelimiters | src/services/freesound.ts:185 | encoded text holds no `&`, `=`, `#`, `?` or space |
| Percent.EncodeSafe | src/utils/url.ts:5-12 | a text of safe characters only is written as it is |
| Percent.DecodeEncode | src/services/freesound.ts:185 | decoding inverts encoding, in both styles |
| Percent.EncodeInjective | src/utils/url.ts:12 | distinct texts never share an encoding |
| Query.Assemble | src/services/freesound.ts:182-190 | the assembled query string is empty exactly when there are no parameters |
| Query.ParseAssemble | src/services/freesound.ts:182-190 | parsing an assembled query string gives every parameter back, in order |
| Base.Without | src/contexts/FavoritesContext.tsx:49 | the filter drops every copy of the value and keeps every other element |
| Base.WithoutAppend | src/contexts/FavoritesContext.tsx:49 | the filter distributes over concatenation |
| Base.WithoutNoDuplicates | src/contexts/FavoritesContext.tsx:49 | the filter keeps a list free of duplicates |

## Left out

- Clocks and timers: the current time is a parameter (`now`). A
  `setTimeout` or an awaited timer becomes a recorded wake-up time, which
  a later step acts on. The elapsed time during a walk is not modelled.
  Each effect run uses one `now`.
- The network: `XMLHttpRequest`, its transport and its asynchrony. A
  server is a chain of pages with failing positions, and a finished
  request is a `Response` value.
- Storage: `localStorage`, `JSON.parse` and `JSON.stringify`. Storage is a
  value that keeps the data members of each entry. A page read back from it
  has lost its `nextPage` and `previousPage` functions, which the model
  records as the entry's `restored` flag; calling one is modelled as the
  effect throwing (the `Crashed` outcome of `SearchScreen.Settle`). What happens after the
  throw is not modelled. A quota error on writing is not modelled.
- React:
  - the order of renders and batched updates;
  - `useEffect` dependency arrays, except where a changed dependency
    re-runs an effect (`SoundDetail.Rerun`, `SoundDetail.RerunAsWritten`);
  - object identity, which is compared by value (`===` on pages in
    `useCachedSearch`).
- The 404 page that writes the moved route into the query string is not
  part of the repository. `SpaRedirect.Redirect` models it after the
  spa-github-pages scheme that main.tsx refers to.
- OAuth code exchange, login and logout URLs, `me`, `getUser`, `getPack`
  and the other `SoundObject` methods. Only the URI of `getAnalysis` is
  modelled. The POST body (`makeFD` and FormData) is kept as a list of
  parameters, and its encoding is not modelled.
- The Cache-Control header is kept as received; nothing in the code reads
  it.
- Floating point: only the limiter's spacing delay is a `real`.
  `toFixed`, display formatting and player time sync are not modelled.
- `FavoritesSidebar`, the older `components/FreesoundSearch.tsx` and
  `components/SoundDetail.tsx`, the Home, TagSearch and UserProfile
  screens, and the presentational components. They repeat the modelled
  patterns or only render.
- `buildUserUrl` and `buildTagUrl`: the tests import them, but
  `src/utils/url.ts` does not define them.
- Stale-walk suppression in the paginated-search hook and the search
  screen: the code has none. A superseded walk commits in the model as it
  does in the code.
- SearchScreen.PerformSearch and SearchScreen.UrlChanged take the page as
  an integer. A `page` parameter that is not a number makes `parseInt`
  give NaN (src/screens/FreesoundSearch.tsx:19). The code then searches
  under the cache key `query:NaN`, shows page 1, and the bar and the
  "Next" link are built from NaN. The model does not carry NaN pages.
- Freesound.ReplacePlaceholder inserts its argument verbatim.
  `String.prototype.replace` expands `$$`, `$&`, `` $` `` and `$'` in a
  replacement string. Within the model the arguments are printed ids,
  which hold no `$`, and the analysis filter, which never reaches a
  placeholder (`AnalysisFilterDropped`); `getUser`, which passes a user
  name, is not modelled.
- `Text.Lower` lower-cases ASCII letters only. Full Unicode case mapping
  is not modelled.
- `PageNumbers.WindowOrdered` holds from six pages on. With fewer pages
  and a window narrower than five, the hard-coded layout repeats or
  overshoots pages, which the code allows.

## Findings

| source | as written | input that shows it | evidently intended | confidence | as-written member | corrected member |
|---|---|---|---|---|---|---|
| src/utils/rateLimiter.ts:94-137 | A queued request's delay is the rest of one spacing interval after the oldest timestamp, which is 0 once that timestamp is over 1017 ms old. After sleeping, the loop sends without checking again, and the timer records the request a second time. | 59 requests at time 0, then one at time 5000: 60 requests run within one minute, and each further request at 5000 adds one more | no minute holds more than 59 requests | not executed | RateLimiter.CapExceeded | RateLimiter.PacedCapHolds |
| src/main.tsx:14 | The rewrite is guarded by `pathname.includes('/?/')`, but a pathname never holds `?` | Location("/freesound-api-react-ts/", "?/sound/123", ""), the address the 404 redirect produces for /freesound-api-react-ts/sound/123 | test whether the query string starts with `?/`, and restore the route from it | not executed | SpaRedirect.RedirectNotRestoredAsWritten | SpaRedirect.RestoreRedirect |
| src/screens/SoundDetail.tsx:50 | `previousSoundIdRef` starts out holding the mount's id, so the first run of the effect returns early | mounting on id "7" with an empty cache: loading, with no request ever sent | the first run loads the id | not executed | SoundDetail.UncachedMountStuck | SoundDetail.MountLoads |
| src/screens/SoundDetail.tsx:95 | One shared `cancelledRef` is cleared by every run, so an older run's answer passes the check | show sound 2 (cached), move to 1 (not cached), move back to 2; then the answer for 1 arrives and is shown under route 2 | drop answers of runs that have been cleaned up | not executed | SoundDetail.StaleAnswerShown | SoundDetail.StaleAnswerDropped |
| src/screens/FreesoundSearch.tsx:131-134 | The screen decides to walk from the page on show without checking which query that page belongs to | on page 3 of "cats", search "dogs": it walks back through "cats" and stores page 1 of "cats" under "dogs" | walk only from a page of the requested query | not executed | SearchScreen.OtherQueryWalkedThrough | SearchScreen.SameQueryShowsRequestedPage |
| src/screens/FreesoundSearch.tsx:151-153 | The effect walks from the page on show by calling its `nextPage` or `previousPage` function. A page served from the cache after a reload was read back from storage, where `JSON.stringify` had dropped those functions, so the call throws a TypeError that nothing catches | reload `/?q=cats&page=2` less than five minutes after viewing it (page 2 is shown from the cache), then click Next | walk only from a page that still has its cursor functions, otherwise search afresh | not executed | SearchScreen.RestoredPageCrashes | SearchScreen.SameQueryShowsRequestedPage |
| src/screens/SoundDetail.tsx:98-128 | A read that evicts an expired entry changes the cache, and that re-runs the effect for the same id; the cleanup sets the flag, the re-run returns early, and the answer is dropped | show sound 1, then move to sound 2, whose entry has expired: loading, with nothing in flight | the re-run loads again, and its answer is shown | not executed | SoundDetail.EvictionStrandsLoad | SoundDetail.EvictionReloads |
| src/screens/SoundDetail.tsx:89-93 | After the id is remembered, a route that does not parse returns early and leaves the previous sound on show | show sound 2, then move to the route "abc" | show the invalid-id state | not executed | SoundDetail.InvalidRouteKeepsSound | SoundDetail.Effect |

=== FILE: AudioPlayer.dfy ===
/** The audio-player register: which audio element is the current one, the
    track shown for it, and the pausing of the previous element when
    another registers. Elements are identities; which of them are playing
    is part of the state. */
module AudioPlayer {
  import opened Base

  /** An audio element, by identity. */
  type Element = nat

  datatype TrackInfo = TrackInfo(src: string, name: string, username: Option<string>, waveformUrl: Option<string>)

  datatype Track = Track(info: TrackInfo, element: Element)

  /** The element ref, the current track, and the elements that are not
      paused. */
  datatype Player = Player(current: Option<Element>, track: Option<Track>, playing: set<Element>)

  /** Initially nothing is current. */
  const Idle: Player := Player(None, None, {})

  /** The track shown belongs to the current element. */
  predicate Consistent(p: Player) {
    && (p.track.Some? <==> p.current.Some?)
    && (p.track.Some? ==> p.track.value.element == p.current.value)
  }

  /** `registerAudio(e, info)`: a different current element that is
      playing is paused; then `e` is current, with `info` as its track. */
  function Register(p: Player, e: Element, info: TrackInfo): (r: Player)
    ensures r.current == Some(e) && r.track == Some(Track(info, e))
    ensures Consistent(r)
    ensures p.current.Some? && p.current.value != e ==> r.playing == p.playing - {p.current.value}
    ensures p.current.None? || p.current.value == e ==> r.playing == p.playing
  {
    var playing :=
      if p.current.Some? && p.current.value != e && p.current.value in p.playing
      then p.playing - {p.current.value} else p.playing;
    Player(Some(e), Some(Track(info, e)), playing)
  }

  /** The function `registerAudio(e, ...)` returns: it clears the current
      track only while `e` is still the current element. */
  function Unregister(p: Player, e: Element): (r: Player)
    ensures p.current == Some(e) ==> r.current.None? && r.track.None?
    ensures p.current != Some(e) ==> r == p
    ensures r.playing == p.playing
  {
    if p.current == Some(e) then p.(current := None, track := None) else p
  }

  /** `isPlaying(e)`. */
  predicate IsPlaying(p: Player, e: Element) {
    p.current == Some(e) && e in p.playing
  }

  /** `pauseCurrent`: pause the current element if it is playing. */
  function PauseCurrent(p: Player): (r: Player)
    ensures r.current == p.current && r.track == p.track
    ensures forall e :: !IsPlaying(r, e)
    ensures forall e :: p.current != Some(e) ==> (e in r.playing <==> e in p.playing)
  {
    if p.current.Some? && p.current.value in p.playing then p.(playing := p.playing - {p.current.value}) else p
  }

  /** The user starts or pauses an element (outside the register). */
  function Start(p: Player, e: Element): Player { p.(playing := p.playing + {e}) }

  /** At most the current element plays. */
  predicate OnlyCurrentPlays(p: Player) {
    forall e :: e in p.playing ==> p.current == Some(e)
  }

  /** Registering an element and then starting it keeps "at most the current
      element plays": the previous one is paused on the way. Unregistering
      and pausing keep it too, as long as the element unregistered is not
      playing. */
  lemma OnlyOneTrackPlays(p: Player, e: Element, info: TrackInfo)
    requires OnlyCurrentPlays(p)
    ensures OnlyCurrentPlays(Start(Register(p, e, info), e))
    ensures OnlyCurrentPlays(PauseCurrent(p))
    ensures e !in p.playing ==> OnlyCurrentPlays(Unregister(p, e))
  {
    var r := Start(Register(p, e, info), e);
    forall x | x in r.playing ensures r.current == Some(x) {
      if x != e {
        assert x in p.playing && p.current == Some(x);
      }
    }
  }

  /** Register/unregister pairs: an element's unregister undoes its own
      registration, but after another element registers it does nothing. */
  lemma RegisterUnregister(p: Player, e: Element, f: Element, info: TrackInfo, other: TrackInfo)
    requires e != f
    ensures Unregister(Register(p, e, info), e).current.None?
    ensures Unregister(Register(Register(p, e, info), f, other), e).current == Some(f)
    ensures Unregister(Register(Register(p, e, info), f, other), e).track == Some(Track(other, f))
  {
  }

  /** `isPlaying` holds for the element just registered exactly when it
      was already playing. */
  lemma RegisteredPlaying(p: Player, e: Element, info: TrackInfo)
    ensures IsPlaying(Register(p, e, info), e) <==> e in p.playing
    ensures forall x :: x != e ==> !IsPlaying(Register(p, e, info), x)
  {
  }
}

=== FILE: Base.dfy ===
/** Small shared vocabulary: an optional value, and the few sequence helpers
    several components use (membership counting, removal of one value). */
module Base {

  /** The conventional Some/None datatype; stands for JavaScript's
      `undefined`/`null` alternatives. */
  datatype Option<+T> = None | Some(value: T) {
    function GetOr(default: T): T {
      match this
      case Some(v) => v
      case None => default
    }
  }

  function MaxReal(a: real, b: real): (r: real)
    ensures r >= a && r >= b && (r == a || r == b)
  {
    if a >= b then a else b
  }

  /** Every element of `s` except those equal to `x`, in order
      (JavaScript's `s.filter(e => e !== x)`). */
  function Without<T(==)>(s: seq<T>, x: T): (r: seq<T>)
    ensures x !in r
    ensures |r| <= |s|
    ensures forall i :: 0 <= i < |r| ==> r[i] in s && r[i] != x
    ensures forall i :: 0 <= i < |s| && s[i] != x ==> s[i] in r
  {
    if |s| == 0 then []
    else if s[0] == x then Without(s[1..], x)
    else [s[0]] + Without(s[1..], x)
  }

  /** No value occurs twice. */
  predicate NoDuplicates<T(==)>(s: seq<T>) {
    forall i, j :: 0 <= i < j < |s| ==> s[i] != s[j]
  }

  /** Removing a value that is absent changes nothing. */
  lemma {:induction false} WithoutAbsent<T>(s: seq<T>, x: T)
    requires x !in s
    ensures Without(s, x) == s
  {
    if |s| > 0 {
      assert s[0] != x;
      assert x !in s[1..];
      WithoutAbsent(s[1..], x);
    }
  }

  /** Removal distributes over concatenation. */
  lemma {:induction false} WithoutAppend<T>(a: seq<T>, b: seq<T>, x: T)
    ensures Without(a + b, x) == Without(a, x) + Without(b, x)
  {
    if |a| == 0 {
      assert a + b == b;
    } else {
      assert (a + b)[0] == a[0];
      assert (a + b)[1..] == a[1..] + b;
      WithoutAppend(a[1..], b, x);
    }
  }

  /** Removal keeps a duplicate-free sequence duplicate-free. */
  lemma {:induction false} WithoutNoDuplicates<T>(s: seq<T>, x: T)
    requires NoDuplicates(s)
    ensures NoDuplicates(Without(s, x))
  {
    if |s| > 0 {
      assert NoDuplicates(s[1..]) by {
        forall i, j | 0 <= i < j < |s[1..]| ensures s[1..][i] != s[1..][j] {
          assert s[1..][i] == s[i + 1] && s[1..][j] == s[j + 1];
        }
      }
      WithoutNoDuplicates(s[1..], x);
      var rest := Without(s[1..], x);
      if s[0] != x {
        assert s[0] !in s[1..] by {
          forall k | 0 <= k < |s[1..]| ensures s[1..][k] != s[0] {
            assert s[1..][k] == s[k + 1];
          }
        }
        assert s[0] !in rest;
        var r := [s[0]] + rest;
        forall i, j | 0 <= i < j < |r| ensures r[i] != r[j] {
          if i == 0 {
            assert r[j] == rest[j - 1];
            assert r[j] in rest;
          } else {
            assert r[i] == rest[i - 1] && r[j] == rest[j - 1];
          }
        }
      }
    }
  }
}

=== FILE: CachedSearch.dfy ===
/** `useCachedSearch`: the shared reducer (module `Reducer`), a state read
    from the cache when the hook mounts, and the cache-first effect. One run
    of the effect is modelled until the search it starts has answered; the
    answer is a parameter. Pages are compared by value where the source
    compares object identity. */
module CachedSearch {
  import opened Base
  import opened Domain
  import opened SoundCache
  import opened Chain
  import opened Reducer

  const GenericErrorMessage: string := "An error occurred"

  /** The lazy initial state: the cached page if there is one, and loading
      exactly when there is none. The read may evict an expired entry. */
  function Initial(c: Cache, key: string, page: int, now: int): (r: (State<Page>, Cache))
    ensures r.0.data == GetSearchResults(c, key, page, now).0 && r.1 == GetSearchResults(c, key, page, now).1
    ensures r.0.loading <==> r.0.data.None?
    ensures r.0.error.None? && Settled(r.0)
  {
    var (cached, c1) := GetSearchResults(c, key, page, now);
    (State(cached, cached.None?, None), c1)
  }

  /** The error text: the message of an `Error`, a fixed text otherwise. */
  function Message(e: Thrown): (m: string)
    ensures e.Raised? ==> m == e.message
    ensures !e.Raised? ==> m == GenericErrorMessage
  {
    if e.Raised? then e.message else GenericErrorMessage
  }

  /** One run of the effect: the new state and cache, how many searches it
      started, the actions it dispatched, the page handed to `onSuccess`
      and the error handed to `onError`. */
  datatype Run = Run(state: State<Page>, cache: Cache, requests: nat, dispatched: seq<Action<Page>>,
                     succeeded: Option<Page>, failed: Option<Thrown>)

  /** The effect: a cached page equal to the one shown is only reported; a
      different cached page is shown; a miss starts loading and one search,
      whose page is shown and stored (with its sounds), or whose error is
      shown. */
  function Effect(s: State<Page>, c: Cache, key: string, page: int, answer: Fetched, now: int): (r: Run)
    ensures r.requests == 0 <==> GetSearchResults(c, key, page, now).0.Some?
    ensures r.requests <= 1
    ensures r.requests == 0 ==>
      && r.succeeded == GetSearchResults(c, key, page, now).0
      && r.failed.None?
      && r.cache == GetSearchResults(c, key, page, now).1
    ensures r.dispatched == [] <==> GetSearchResults(c, key, page, now).0.Some? && GetSearchResults(c, key, page, now).0 == s.data
    ensures r.succeeded.Some? <==> r.failed.None?
    ensures r.failed.Some? ==>
      && r.state.data == s.data
      && r.state.error == Some(Message(r.failed.value))
      && r.cache == GetSearchResults(c, key, page, now).1
    ensures r.succeeded.Some? && r.dispatched != [] ==>
      r.state.data == r.succeeded && r.state.error.None? && !r.state.loading
  {
    var (cached, c1) := GetSearchResults(c, key, page, now);
    if cached.Some? && cached == s.data then Run(s, c1, 0, [], cached, None)
    else if cached.Some? then Run(Reduce(s, SetCachedData(cached.value)), c1, 0, [SetCachedData(cached.value)], cached, None)
    else
      var s1 := Reduce(s, SetLoading(true));
      match answer
      case Got(p) =>
        var c2 := SetSearchResults(c1, key, page, p, now);
        Run(Reduce(s1, SetApiData(p)), SetSounds(c2, p.results, now), 1, [SetLoading(true), SetApiData(p)], Some(p), None)
      case Failure(e) =>
        Run(Reduce(s1, SetError(Message(e))), c1, 1, [SetLoading(true), SetError(Message(e))], None, Some(e))
  }

  /** The state the effect leaves is what the reducer makes of the actions
      it dispatched, in order. */
  lemma EffectIsDispatch(s: State<Page>, c: Cache, key: string, page: int, answer: Fetched, now: int)
    ensures var r := Effect(s, c, key, page, answer, now); r.state == ReduceAll(s, r.dispatched)
  {
    var r := Effect(s, c, key, page, answer, now);
    if |r.dispatched| == 1 {
      ReduceAllShort(s, r.dispatched[0], Unknown);
    } else if |r.dispatched| == 2 {
      ReduceAllShort(s, r.dispatched[0], r.dispatched[1]);
    } else {
      ReduceAllShort(s, Unknown, Unknown);
    }
  }

  /** A state read from the cache at mount time is left alone by the first
      run of the effect against the same cache: nothing is dispatched and
      no search starts. */
  lemma MountedHitIsQuiet(c: Cache, key: string, page: int, now: int)
    requires GetSearchResults(c, key, page, now).0.Some?
    ensures var (s, c1) := Initial(c, key, page, now);
      var r := Effect(s, c1, key, page, Failure(Opaque), now);
      r.requests == 0 && r.dispatched == [] && r.state == s
  {
  }

  /** After a search has answered, the effect runs again (the data changed)
      within five minutes: it starts no search and shows the stored copy,
      and the run after that dispatches nothing. */
  lemma SuccessSettles(s: State<Page>, c: Cache, key: string, page: int, p: Page, now: int, later: int, answer: Fetched)
    requires GetSearchResults(c, key, page, now).0.None?
    requires now <= later && later - now < ExpiryMs
    ensures var r1 := Effect(s, c, key, page, Got(p), now);
      var r2 := Effect(r1.state, r1.cache, key, page, answer, later);
      var r3 := Effect(r2.state, r2.cache, key, page, answer, later);
      && r2.requests == 0 && r2.state.data == Some(StripPage(p))
      && r3.requests == 0 && r3.dispatched == []
  {
    var c1 := GetSearchResults(c, key, page, now).1;
    var c2 := SetSearchResults(c1, key, page, p, now);
    SearchResultsFanOut(c1, key, page, p, now, later);
    var r1 := Effect(s, c, key, page, Got(p), now);
    assert r1.cache == SetSounds(c2, p.results, now);
    assert r1.cache.searches == c2.searches;
    var k := SearchKey(key, page);
    assert k in r1.cache.searches && r1.cache.searches[k] == c2.searches[k];
  }
}

=== FILE: Chain.dfy ===
/** Cursor walking. The server's answer to one query is a chain of result
    pages linked by `next`/`previous` cursors; the client reaches page `n`
    by fetching page 1 and following cursors. Both walks of the screens are
    here: the forward walk from page 1 towards a target page, and the walk
    from the page on show towards a nearby page in one fixed direction. */
module Chain {
  import opened Base
  import opened Domain

  /** The server as the walks see it: the chain of pages for the query, and
      the chain positions whose requests fail, with the error each failure
      hands to the callback. */
  datatype Server = Server(pages: seq<Page>, failures: map<nat, Thrown>)

  datatype Fetched = Got(page: Page) | Failure(err: Thrown)

  /** Requesting chain position `target` (a cursor's URL). A position past
      the end is answered with an error as well. */
  function Fetch(s: Server, target: nat): (f: Fetched)
    ensures f.Got? <==> target !in s.failures && target < |s.pages|
    ensures f.Got? ==> f.page == s.pages[target]
  {
    if target in s.failures then Failure(s.failures[target])
    else if target < |s.pages| then Got(s.pages[target])
    else Failure(Opaque)
  }

  /** Page `i` (0-based) has a `next` cursor exactly when a page follows it
      and a `previous` cursor exactly when one precedes it, and the cursors
      lead to those neighbours. */
  predicate WellLinked(pages: seq<Page>) {
    forall i :: 0 <= i < |pages| ==>
      && (pages[i].next.Some? <==> i + 1 < |pages|)
      && (pages[i].next.Some? ==> pages[i].next.value.target == i + 1)
      && (pages[i].previous.Some? <==> i > 0)
      && (pages[i].previous.Some? ==> pages[i].previous.value.target == i - 1)
  }

  /** No request for a page of the chain fails. */
  predicate Reliable(s: Server) {
    forall t :: t in s.failures ==> t >= |s.pages|
  }

  // ---------------------------------------------------------------------
  // Forward walk from page 1
  // ---------------------------------------------------------------------

  /** How a forward walk ends: at a page, with the counter it had there, or
      with the error of a failed hop. Either way, the number of hops made. */
  datatype Walked = Reached(page: Page, counter: int, hops: nat) | Broke(err: Thrown, hops: nat)

  /** `navigateForward`: while the counter is below the target and the page
      has a `next` cursor, count one more page and follow the cursor. */
  function WalkForward(s: Server, data: Page, counter: int, target: int): (w: Walked)
    ensures w.hops <= if counter < target then target - counter else 0
    ensures w.Reached? ==> w.counter == counter + w.hops
    ensures w.Reached? ==> w.counter >= target || w.page.next.None?
    decreases target - counter
  {
    if counter < target && data.next.Some? then
      match Fetch(s, data.next.value.target)
      case Failure(e) => Broke(e, 1)
      case Got(p) =>
        match WalkForward(s, p, counter + 1, target)
        case Reached(q, n, h) => Reached(q, n, h + 1)
        case Broke(e, h) => Broke(e, h + 1)
    else Reached(data, counter, 0)
  }

  /** The page the forward walk stops at, from page `i + 1` of a sound
      chain: the target page, or the last page when the chain is shorter. */
  function Landing(i: int, target: int, length: int): int {
    if target <= i + 1 then i else if target <= length then target - 1 else length - 1
  }

  /** On a well-linked, reliable chain the walk from page `i + 1` stops at
      position `Landing(i, target, |pages|)`, one hop per page. */
  lemma {:induction false} WalkForwardLands(s: Server, i: nat, target: int)
    requires WellLinked(s.pages) && Reliable(s)
    requires i < |s.pages|
    ensures var j := Landing(i, target, |s.pages|);
      && i <= j < |s.pages|
      && WalkForward(s, s.pages[i], i + 1, target) == Reached(s.pages[j], j + 1, j - i)
    decreases target - i
  {
    if i + 1 < target && i + 1 < |s.pages| {
      assert s.pages[i].next.Some? && s.pages[i].next.value.target == i + 1;
      assert i + 1 !in s.failures;
      WalkForwardLands(s, i + 1, target);
    }
  }

  /** From page 1 the walk asks for at most `target - 1` hops, and on a
      well-linked, reliable chain it stops at page `min(target, |pages|)`
      (page 1 for a target below 2). */
  lemma FromFirstPage(s: Server, target: int)
    requires WellLinked(s.pages) && Reliable(s) && |s.pages| > 0
    ensures WalkForward(s, s.pages[0], 1, target).hops <= if target > 1 then target - 1 else 0
    ensures var j := if target <= 1 then 0 else if target <= |s.pages| then target - 1 else |s.pages| - 1;
      WalkForward(s, s.pages[0], 1, target) == Reached(s.pages[j], j + 1, j)
  {
    WalkForwardLands(s, 0, target);
  }

  // ---------------------------------------------------------------------
  // Walk from the page on show
  // ---------------------------------------------------------------------

  datatype Direction = Forward | Backward

  /** How the short walk ends: at the target page, or by giving up (a
      missing cursor or a failed hop), after some hops. */
  datatype Stepped = Arrived(page: Page, hops: nat) | GaveUp(hops: nat)

  /** The cursor a walk in `dir` follows. */
  function CursorOf(p: Page, dir: Direction): Option<Cursor> {
    if dir == Forward then p.next else p.previous
  }

  /** `navigate`: stop when the counter equals the target; otherwise follow
      the cursor of the fixed direction, moving the counter by one, and give
      up when the cursor is missing or the hop fails. */
  function WalkToward(s: Server, data: Page, counter: int, target: int, dir: Direction): (w: Stepped)
    requires dir == Forward ==> counter <= target
    requires dir == Backward ==> counter >= target
    ensures w.hops <= if dir == Forward then target - counter else counter - target
    ensures w.Arrived? ==> w.hops == (if dir == Forward then target - counter else counter - target)
    decreases if dir == Forward then target - counter else counter - target
  {
    if counter == target then Arrived(data, 0)
    else
      match CursorOf(data, dir)
      case None => GaveUp(0)
      case Some(cur) =>
        match Fetch(s, cur.target)
        case Failure(_) => GaveUp(1)
        case Got(p) =>
          var next := if dir == Forward then counter + 1 else counter - 1;
          match WalkToward(s, p, next, target, dir)
          case Arrived(q, h) => Arrived(q, h + 1)
          case GaveUp(h) => GaveUp(h + 1)
  }

  /** On a well-linked, reliable chain, walking towards an existing page
      from a page whose cursors are those of page `i + 1` reaches exactly
      that page (the starting page itself when it is the target), one hop
      per page. */
  lemma {:induction false} WalkTowardArrives(s: Server, data: Page, i: nat, target: int, dir: Direction)
    requires WellLinked(s.pages) && Reliable(s)
    requires i < |s.pages| && 1 <= target <= |s.pages|
    requires data.next == s.pages[i].next && data.previous == s.pages[i].previous
    requires dir == Forward ==> i + 1 <= target
    requires dir == Backward ==> i + 1 >= target
    ensures WalkToward(s, data, i + 1, target, dir) ==
      Arrived(if i + 1 == target then data else s.pages[target - 1],
              if dir == Forward then target - i - 1 else i + 1 - target)
    decreases if dir == Forward then target - i else i - target
  {
    if i + 1 != target {
      if dir == Forward {
        assert s.pages[i].next.value.target == i + 1;
        assert i + 1 !in s.failures;
        WalkTowardArrives(s, s.pages[i + 1], i + 1, target, dir);
      } else {
        assert s.pages[i].previous.value.target == i - 1;
        assert i - 1 !in s.failures;
        WalkTowardArrives(s, s.pages[i - 1], i - 1, target, dir);
      }
    }
  }

  /** Walking forward past the end of the chain gives up at the last page. */
  lemma {:induction false} WalkTowardPastEnd(s: Server, i: nat, target: int)
    requires WellLinked(s.pages) && Reliable(s)
    requires i < |s.pages| < target
    ensures WalkToward(s, s.pages[i], i + 1, target, Forward) == GaveUp(|s.pages| - 1 - i)
    decreases |s.pages| - i
  {
    if i + 1 < |s.pages| {
      assert s.pages[i].next.value.target == i + 1;
      assert i + 1 !in s.failures;
      WalkTowardPastEnd(s, i + 1, target);
    }
  }
}

=== FILE: DocumentTitle.dfy ===
/** `useDocumentTitle`: the browser tab's title while a screen is shown,
    and the reset when it goes away. */
module DocumentTitle {
  import opened Base
  import opened Text

  const BaseTitle: string := "Freesound API"
  const Separator: string := " - "

  /** The title written for a screen title: the base title alone for an
      empty one, the screen title and the base title otherwise. */
  function Format(title: string): (r: string)
    ensures EndsWith(r, BaseTitle)
    ensures r == BaseTitle <==> title == ""
    ensures title != "" ==> StartsWith(r, title)
  {
    var r := if title == "" then BaseTitle else title + Separator + BaseTitle;
    assert r[|r| - |BaseTitle|..] == BaseTitle;
    assert title != "" ==> r[..|title|] == title;
    r
  }

  /** The screen title read back from the document title. */
  function Unformat(doc: string): (title: string)
    ensures |title| <= |doc|
  {
    if |doc| <= |Separator + BaseTitle| then "" else doc[..|doc| - |Separator + BaseTitle|]
  }

  /** Reading the title back recovers the screen title, so distinct screen
      titles give distinct document titles. */
  lemma FormatRoundTrip(title: string, other: string)
    ensures Unformat(Format(title)) == title
    ensures Format(title) == Format(other) ==> title == other
  {
    if title != "" {
      assert Format(title)[..|title|] == title;
    }
    if other != "" {
      assert Format(other)[..|other|] == other;
    }
  }

  /** What happens to the hook: a render with a screen title, or the
      component going away. */
  datatype Event = Render(title: string) | Unmount

  /** The document title and the title the running effect was set up with.
      A render with a new title runs the old cleanup (which writes the
      base title) and then the effect; a render with the same title does
      nothing; unmounting runs the cleanup. */
  function Step(doc: string, mounted: Option<string>, e: Event): (r: (string, Option<string>))
    ensures e.Render? ==> r.1 == Some(e.title) && r.0 == (if mounted == Some(e.title) then doc else Format(e.title))
    ensures e.Unmount? ==> r.1.None? && r.0 == (if mounted.Some? then BaseTitle else doc)
  {
    match e
    case Render(t) => if mounted == Some(t) then (doc, mounted) else (Format(t), Some(t))
    case Unmount => if mounted.Some? then (BaseTitle, None) else (doc, None)
  }

  /** The document shows the mounted screen's title, and the base title
      when no screen is mounted. */
  predicate Shows(doc: string, mounted: Option<string>) {
    doc == if mounted.Some? then Format(mounted.value) else BaseTitle
  }

  function Steps(doc: string, mounted: Option<string>, es: seq<Event>): (r: (string, Option<string>))
    decreases |es|
  {
    if |es| == 0 then (doc, mounted)
    else
      var (d, m) := Step(doc, mounted, es[0]);
      Steps(d, m, es[1..])
  }

  /** Along any sequence of renders and unmounts from a document that
      shows the mounted title: the document shows the title of the last
      render, or the base title after an unmount, and it always ends with
      the base title. */
  lemma {:induction false} StepsShow(doc: string, mounted: Option<string>, es: seq<Event>)
    requires Shows(doc, mounted)
    ensures var (d, m) := Steps(doc, mounted, es);
      && Shows(d, m) && EndsWith(d, BaseTitle)
      && (|es| > 0 && es[|es| - 1].Unmount? ==> d == BaseTitle && m.None?)
      && (|es| > 0 && es[|es| - 1].Render? ==> d == Format(es[|es| - 1].title))
    decreases |es|
  {
    if |es| == 0 {
      assert EndsWith(BaseTitle, BaseTitle);
    } else {
      var (d1, m1) := Step(doc, mounted, es[0]);
      StepsShow(d1, m1, es[1..]);
      if |es| == 1 {
        assert es[1..] == [];
      } else {
        assert es[1..][|es[1..]| - 1] == es[|es| - 1];
      }
    }
  }
}

=== FILE: Domain.dfy ===
/** The records the client and the screens pass around: sounds, result
    pages with their cursors, the response headers the client attaches, and
    the values an error callback can receive. Sound and page payloads are
    opaque except for the fields the application logic reads. */
module Domain {
  import opened Base

  /** The `__headers` object the client attaches to a parsed response: only
      the headers the server sent with a non-empty value are present. */
  datatype Headers = Headers(etag: Option<string>, lastModified: Option<string>, cacheControl: Option<string>)

  /** A sound record. `headers` is the `__headers` field of a freshly
      fetched sound; the cache strips it. */
  datatype Sound = Sound(id: int, name: string, headers: Option<Headers>)

  /** A `next`/`previous` link of a result page. `url` is the absolute URL
      the client requests; `target` is the position, in the server's chain of
      pages for the query, of the page the server answers that URL with. */
  datatype Cursor = Cursor(url: string, target: nat)

  /** One page of search results (`SoundCollection`). */
  datatype Page = Page(
    count: nat,
    results: seq<Sound>,
    next: Option<Cursor>,
    previous: Option<Cursor>,
    headers: Option<Headers>)

  /** The shape of a parsed JSON document, as far as the code inspects it:
      `null`, some other non-object value, or an object whose `detail`
      member is rendered as text (absent when the object has none). */
  datatype Json = JsonNull | JsonScalar | JsonObject(detail: Option<string>)

  /** A response body: the empty text, text that is not JSON, or JSON. */
  datatype Body = EmptyText | Unparsable | Parsed(value: Json) {
    /** `JSON.parse(text || '{}').detail` when it is truthy, with every
        failure (a parse error, reading a member of `null`) swallowed. The
        empty text reads as `{}` and the empty string is falsy. */
    function Detail(): (d: Option<string>)
      ensures d.Some? <==> Parsed? && value.JsonObject? && value.detail.Some? && value.detail.value != ""
      ensures d.Some? ==> d.value == value.detail.value
    {
      match this
      case Parsed(JsonObject(Some(text))) => if text != "" then Some(text) else None
      case _ => None
    }
  }

  /** What an error callback receives: the raw request object, an `Error`
      (with the `status` the client sets on rate-limit errors), or anything
      else. */
  datatype Thrown =
    | Xhr(status: int, body: Body)
    | Raised(message: string, errorStatus: Option<int>)
    | Opaque
}

=== FILE: ErrorHandler.dfy ===
/** `extractErrorMessage`: the text the screens show for a failed request. */
module ErrorHandler {
  import opened Base
  import opened Text
  import opened Domain

  // The two messages are written as two literals each so that their first
  // characters are visible to the verifier.
  const AuthenticationMessage: string :=
    "Authentication failed."
    + " The API requires a valid OAuth2 token. Please check your credentials or authenticate via OAuth2."
  const InvalidRequestMessage: string := "Invalid request." + " Please check your API credentials."
  const DetailPrefix: string := "API Error: "

  /** Only a raw request object is inspected: 401 and 400 have fixed texts
      whatever the body says, any other status shows the body's `detail`,
      and everything else falls back to `fallback`. This contract is the
      table of cases; `DetailRecovered` reads a message back to the request
      it came from, and `Freesound.ClassifyShown` states which text a
      failed request ends as. */
  function ExtractErrorMessage(err: Thrown, fallback: string): (r: string)
    ensures err.Xhr? && err.status == 401 ==> r == AuthenticationMessage
    ensures err.Xhr? && err.status == 400 ==> r == InvalidRequestMessage
    ensures !err.Xhr? ==> r == fallback
    ensures r != fallback ==> err.Xhr?
    ensures err.Xhr? && err.status != 401 && err.status != 400 ==>
      (err.body.Detail().Some? ==> r == DetailPrefix + err.body.Detail().value)
      && (err.body.Detail().None? ==> r == fallback)
  {
    match err
    case Xhr(status, body) =>
      if status == 401 then AuthenticationMessage
      else if status == 400 then InvalidRequestMessage
      else
        (match body.Detail()
         case Some(d) => DetailPrefix + d
         case None => fallback)
    case _ => fallback
  }

  /** Reading the message back: when the fallback text does not itself start
      with the detail prefix, a message that does start with it came from a
      request whose status is neither 400 nor 401, and the text after the
      prefix is exactly the server's `detail`. */
  lemma DetailRecovered(err: Thrown, fallback: string)
    requires !StartsWith(fallback, DetailPrefix)
    ensures var r := ExtractErrorMessage(err, fallback);
      StartsWith(r, DetailPrefix) <==>
        err.Xhr? && err.status != 401 && err.status != 400 && err.body.Detail().Some?
    ensures var r := ExtractErrorMessage(err, fallback);
      StartsWith(r, DetailPrefix) ==> r[|DetailPrefix|..] == err.body.Detail().value
  {
    var r := ExtractErrorMessage(err, fallback);
    if err.Xhr? && err.status != 401 && err.status != 400 && err.body.Detail().Some? {
      assert r == DetailPrefix + err.body.Detail().value;
      assert r[..|DetailPrefix|] == DetailPrefix;
    } else if err.Xhr? && err.status == 401 {
      assert r[1] == 'u' && DetailPrefix[1] == 'P';
    } else if err.Xhr? && err.status == 400 {
      assert r[0] == 'I' && DetailPrefix[0] == 'A';
    }
  }
}

=== FILE: Favorites.dfy ===
/** The favourites list: sound ids in the order they were added, mirrored
    to storage after every change. */
module Favorites {
  import opened Base

  const FavoritesKey: string := "freesound_favorites"

  /** What storage holds under the key, as `JSON.parse` sees it: nothing,
      the empty string, unparsable text, an array of ids, or some other
      JSON value. */
  datatype Stored = Missing | Blank | Malformed | IdArray(ids: seq<int>) | NotArray

  /** `loadFavoritesFromStorage`: a stored array is taken as it is, without
      removing duplicates; everything else reads as the empty list. */
  function LoadFavorites(v: Stored): (r: seq<int>)
    ensures v.IdArray? ==> r == v.ids
    ensures !v.IdArray? ==> r == []
  {
    match v
    case IdArray(ids) => ids
    case _ => []
  }

  /** `addFavorite`: append the id unless it is already there. */
  function Add(s: seq<int>, id: int): (r: seq<int>)
    ensures id in r
    ensures id in s ==> r == s
    ensures id !in s ==> r == s + [id]
  {
    if id !in s then s + [id] else s
  }

  /** `removeFavorite`: keep every other id, in order. */
  function Remove(s: seq<int>, id: int): (r: seq<int>)
    ensures id !in r
    ensures forall x :: x != id ==> (x in r <==> x in s)
  {
    Without(s, id)
  }

  /** `toggleFavorite`: remove a present id, append an absent one. */
  function Toggle(s: seq<int>, id: int): (r: seq<int>)
    ensures id in r <==> id !in s
    ensures forall x :: x != id ==> (x in r <==> x in s)
  {
    if id in s then Without(s, id) else s + [id]
  }

  /** `isFavorite`. */
  predicate IsFavorite(s: seq<int>, id: int) {
    id in s
  }

  /** Adding is idempotent, and toggling is adding an absent id or
      removing a present one. */
  lemma AddToggle(s: seq<int>, id: int)
    ensures Add(Add(s, id), id) == Add(s, id)
    ensures Toggle(s, id) == if IsFavorite(s, id) then Remove(s, id) else Add(s, id)
  {
  }

  /** Removal is the filter: it keeps a kept id in place and drops the
      removed one, and it distributes over concatenation, which together
      fix its result. */
  lemma RemoveIsFilter(a: seq<int>, b: seq<int>, id: int, y: int)
    ensures Remove(a + b, id) == Remove(a, id) + Remove(b, id)
    ensures Remove([y], id) == if y == id then [] else [y]
  {
    WithoutAppend(a, b, id);
  }

  /** Toggling an absent id twice restores the list; toggling a present id
      twice leaves a single copy of it, at the end. */
  lemma ToggleTwice(s: seq<int>, id: int)
    ensures id !in s ==> Toggle(Toggle(s, id), id) == s
    ensures id in s ==> Toggle(Toggle(s, id), id) == Without(s, id) + [id]
  {
    if id !in s {
      WithoutAppend(s, [id], id);
      WithoutAbsent(s, id);
    }
  }

  /** Every operation keeps a duplicate-free list duplicate-free. */
  lemma NoDuplicatesKept(s: seq<int>, id: int)
    requires NoDuplicates(s)
    ensures NoDuplicates(Add(s, id)) && NoDuplicates(Remove(s, id)) && NoDuplicates(Toggle(s, id))
  {
    WithoutNoDuplicates(s, id);
    if id !in s {
      AppendAbsent(s, id);
    }
  }

  lemma AppendAbsent(s: seq<int>, id: int)
    requires NoDuplicates(s) && id !in s
    ensures NoDuplicates(s + [id])
  {
    var r := s + [id];
    forall i, j | 0 <= i < j < |r| ensures r[i] != r[j] {
      if j == |s| {
        assert r[i] == s[i];
      } else {
        assert r[i] == s[i] && r[j] == s[j];
      }
    }
  }

  /** A stored array with a repeated id loads with the repetition. */
  lemma LoadKeepsDuplicates()
    ensures LoadFavorites(IdArray([1, 1])) == [1, 1]
    ensures !NoDuplicates(LoadFavorites(IdArray([1, 1])))
  {
    var s := LoadFavorites(IdArray([1, 1]));
    assert s[0] == s[1];
  }

  // ---------------------------------------------------------------------
  // The provider
  // ---------------------------------------------------------------------

  datatype Op = AddOp(id: int) | RemoveOp(id: int) | ToggleOp(id: int) | ClearOp

  /** The list and what storage holds under `FavoritesKey`. */
  datatype Provider = Provider(favorites: seq<int>, stored: Stored)

  /** Storage holds the list: the effect writes it after every change. */
  predicate Mirrored(p: Provider) {
    p.stored == IdArray(p.favorites)
  }

  /** Mounting: the list is loaded, and the effect writes it back. */
  function Mount(v: Stored): (p: Provider)
    ensures Mirrored(p)
    ensures p.favorites == LoadFavorites(v)
  {
    Provider(LoadFavorites(v), IdArray(LoadFavorites(v)))
  }

  /** One operation, followed by the effect that saves the list. */
  function Apply(p: Provider, op: Op): (r: Provider)
    ensures Mirrored(r)
    ensures op.ClearOp? ==> r.favorites == []
    ensures !op.ClearOp? ==> (IsFavorite(r.favorites, op.id) <==>
      (op.AddOp? || (op.ToggleOp? && !IsFavorite(p.favorites, op.id))))
    ensures !op.ClearOp? ==> forall x :: x != op.id ==> (IsFavorite(r.favorites, x) <==> IsFavorite(p.favorites, x))
  {
    var list := match op
      case AddOp(id) => Add(p.favorites, id)
      case RemoveOp(id) => Remove(p.favorites, id)
      case ToggleOp(id) => Toggle(p.favorites, id)
      case ClearOp => [];
    Provider(list, IdArray(list))
  }

  /** What a reload after any operation finds is the list as it was. */
  lemma ReloadAfterApply(p: Provider, op: Op)
    ensures Mount(Apply(p, op).stored).favorites == Apply(p, op).favorites
  {
  }

  /** Starting from a duplicate-free list, no sequence of operations
      creates a duplicate. */
  lemma {:induction false} OperationsKeepNoDuplicates(p: Provider, ops: seq<Op>)
    requires NoDuplicates(p.favorites)
    ensures NoDuplicates(ApplyAll(p, ops).favorites)
    decreases |ops|
  {
    if |ops| > 0 {
      var q := Apply(p, ops[0]);
      if !ops[0].ClearOp? {
        NoDuplicatesKept(p.favorites, ops[0].id);
      }
      OperationsKeepNoDuplicates(q, ops[1..]);
    }
  }

  function ApplyAll(p: Provider, ops: seq<Op>): (r: Provider)
    ensures |ops| > 0 ==> Mirrored(r)
    decreases |ops|
  {
    if |ops| == 0 then p else ApplyAll(Apply(p, ops[0]), ops[1..])
  }
}

=== FILE: Freesound.dfy ===
/** The pure parts of the Freesound client: endpoint templates and their
    placeholder substitution, request-URI assembly, the classification of
    a finished request by status code, the cursor helpers of a result page,
    the authorization header, and the argument checks of the searches. */
module Freesound {
  import opened Base
  import opened Text
  import opened Percent
  import opened Query
  import opened Domain
  import opened ErrorHandler

  // ---------------------------------------------------------------------
  // Endpoint templates and `makeUri`
  // ---------------------------------------------------------------------

  const BaseUri: string := "https://freesound.org/apiv2"
  const SoundToken: string := "<sound_id>"
  const TextSearchPath: string := "/search/text/"
  const ContentSearchPath: string := "/search/content/"
  const CombinedSearchPath: string := "/sounds/search/combined/"
  const SoundPath: string := "/sounds/" + SoundToken + "/"
  const SoundAnalysisPath: string := "/sounds/" + SoundToken + "/analysis/"

  /** The characters of the pattern's `[\w_]` class. */
  predicate IsWordChar(c: char) {
    IsAsciiAlnum(c) || c == '_'
  }

  /** The length of the run of word characters starting at `i`. */
  function WordRun(s: string, i: nat): (n: nat)
    requires i <= |s|
    ensures i + n <= |s|
    ensures forall k :: i <= k < i + n ==> IsWordChar(s[k])
    ensures i + n == |s| || !IsWordChar(s[i + n])
    decreases |s| - i
  {
    if i < |s| && IsWordChar(s[i]) then 1 + WordRun(s, i + 1) else 0
  }

  /** The pattern `<[\w_]+>` matches at `i`. Since `>` is no word
      character, it matches exactly when the longest run of word characters
      after the `<` is non-empty and followed by `>`. */
  predicate PlaceholderAt(s: string, i: int) {
    && 0 <= i < |s|
    && s[i] == '<'
    && var n := WordRun(s, i + 1);
       n >= 1 && i + 1 + n < |s| && s[i + 1 + n] == '>'
  }

  /** One past the `>` of the placeholder at `i`. */
  function PlaceholderEnd(s: string, i: int): (e: nat)
    requires PlaceholderAt(s, i)
    ensures i < e <= |s|
  {
    i + 2 + WordRun(s, i + 1)
  }

  predicate NoPlaceholder(s: string) {
    forall k :: 0 <= k < |s| ==> !PlaceholderAt(s, k)
  }

  /** The leftmost match at or after `from`. */
  function FindPlaceholder(s: string, from: nat): (r: Option<nat>)
    requires from <= |s|
    ensures r.Some? ==> from <= r.value && PlaceholderAt(s, r.value)
    ensures r.Some? ==> forall k :: from <= k < r.value ==> !PlaceholderAt(s, k)
    ensures r.None? ==> forall k :: from <= k < |s| ==> !PlaceholderAt(s, k)
    decreases |s| - from
  {
    if from == |s| then None
    else if PlaceholderAt(s, from) then Some(from)
    else FindPlaceholder(s, from + 1)
  }

  /** `s.replace(/<[\w_]+>/, arg)` for an `arg` without `$`: the leftmost
      placeholder, if any, gives way to `arg`. The `$` patterns that
      `replace` expands in a replacement string are not modelled. */
  function ReplacePlaceholder(s: string, arg: string): (r: string)
    ensures NoPlaceholder(s) ==> r == s
  {
    match FindPlaceholder(s, 0)
    case None => s
    case Some(i) => s[..i] + arg + s[PlaceholderEnd(s, i)..]
  }

  /** The loop of `makeUri`: each argument in turn fills the leftmost
      remaining placeholder. */
  function Substitute(s: string, args: seq<string>): (r: string)
    ensures |args| == 0 ==> r == s
    decreases |args|
  {
    if |args| == 0 then s else Substitute(ReplacePlaceholder(s, args[0]), args[1..])
  }

  /** `makeUri(uri, args)`. */
  function MakeUri(uri: string, args: seq<string>): (r: string)
    ensures StartsWith(r, BaseUri)
  {
    BaseUri + Substitute(uri, args)
  }

  /** Arguments left over once no placeholder remains change nothing. */
  lemma {:induction false} LeftoverArgs(uri: string, args: seq<string>, extra: seq<string>)
    requires NoPlaceholder(Substitute(uri, args))
    ensures MakeUri(uri, args + extra) == MakeUri(uri, args)
    decreases |args|
  {
    if |args| == 0 {
      assert args + extra == extra;
      NoPlaceholderStays(uri, extra);
    } else {
      SubstituteStep(uri, args, extra);
      LeftoverArgs(ReplacePlaceholder(uri, args[0]), args[1..], extra);
    }
  }

  lemma SubstituteStep(uri: string, args: seq<string>, extra: seq<string>)
    requires |args| > 0
    ensures Substitute(uri, args + extra) == Substitute(ReplacePlaceholder(uri, args[0]), args[1..] + extra)
  {
    assert (args + extra)[1..] == args[1..] + extra;
  }

  lemma {:induction false} NoPlaceholderStays(s: string, args: seq<string>)
    requires NoPlaceholder(s)
    ensures Substitute(s, args) == s
  {
    if |args| > 0 {
      NoPlaceholderStays(s, args[1..]);
    }
  }

  /** A text without `<` holds no placeholder. */
  lemma NoAngle(s: string)
    requires '<' !in s
    ensures NoPlaceholder(s)
  {
  }

  /** With a `<`-free text before it, the first placeholder is the one
      written after that text, and replacing it splices in the argument. */
  lemma ReplaceAfter(p: string, name: string, rest: string, arg: string)
    requires '<' !in p
    requires |name| >= 1 && forall k :: 0 <= k < |name| ==> IsWordChar(name[k])
    ensures ReplacePlaceholder(p + "<" + name + ">" + rest, arg) == p + arg + rest
  {
    var s := p + "<" + name + ">" + rest;
    var i := |p|;
    WordRunOver(s, i + 1, name);
    assert s[i] == '<' && s[i + 1 + |name|] == '>';
    assert PlaceholderAt(s, i);
    assert forall k :: 0 <= k < i ==> s[k] == p[k];
    assert FindPlaceholder(s, 0) == Some(i);
    assert s[..i] == p;
    assert s[PlaceholderEnd(s, i)..] == rest;
  }

  /** The run starting at `i` covers exactly the word written there when a
      non-word character follows it. */
  lemma {:induction false} WordRunOver(s: string, i: nat, name: string)
    requires i + |name| < |s|
    requires s[i..i + |name|] == name && !IsWordChar(s[i + |name|])
    requires forall k :: 0 <= k < |name| ==> IsWordChar(name[k])
    ensures WordRun(s, i) == |name|
    decreases |name|
  {
    if |name| > 0 {
      assert s[i] == name[0];
      assert s[i + 1..i + 1 + |name[1..]|] == name[1..];
      WordRunOver(s, i + 1, name[1..]);
    }
  }

  /** `getSound`: the sound's id fills the one placeholder of its template. */
  lemma SoundUri(id: int)
    ensures MakeUri(SoundPath, [IntToString(id)]) == BaseUri + "/sounds/" + IntToString(id) + "/"
  {
    var d := IntToString(id);
    assert Substitute(SoundPath, [d]) == "/sounds/" + d + "/" by {
      FirstSubstitution("/", d);
    }
  }

  /** The id fills the placeholder of a sound template. */
  lemma FirstSubstitution(rest: string, d: string)
    ensures Substitute("/sounds/" + SoundToken + rest, [d]) == "/sounds/" + d + rest
  {
    SoundTokenWord();
    assert "/sounds/" + SoundToken + rest == "/sounds/" + "<" + "sound_id" + ">" + rest;
    ReplaceAfter("/sounds/", "sound_id", rest, d);
  }

  /** `getAnalysis` passes the descriptor filter as a second argument, but
      the analysis template has one placeholder only: the filter never
      reaches the URI. */
  lemma AnalysisFilterDropped(id: int, filter: string)
    ensures MakeUri(SoundAnalysisPath, [IntToString(id), filter])
         == BaseUri + "/sounds/" + IntToString(id) + "/analysis/"
  {
    var d := IntToString(id);
    AnalysisTailPlain();
    PrintedIdNoPlaceholder(id, "/analysis/");
    assert Substitute(SoundAnalysisPath, [d]) == "/sounds/" + d + "/analysis/" by {
      FirstSubstitution("/analysis/", d);
      assert SoundAnalysisPath == "/sounds/" + SoundToken + "/analysis/";
    }
    ExtraArgIgnored(SoundAnalysisPath, d, filter);
    Regroup(BaseUri, "/sounds/", d, "/analysis/");
  }

  lemma AnalysisTailPlain()
    ensures '<' !in "/analysis/"
  {
  }

  /** With its one placeholder filled, a template ignores a second argument. */
  lemma ExtraArgIgnored(uri: string, d: string, extra: string)
    requires NoPlaceholder(Substitute(uri, [d]))
    ensures MakeUri(uri, [d, extra]) == MakeUri(uri, [d])
  {
    assert [d, extra] == [d] + [extra];
    LeftoverArgs(uri, [d], [extra]);
  }

  lemma Regroup(a: string, b: string, c: string, e: string)
    ensures a + (b + c + e) == a + b + c + e
  {
  }

  lemma PrintedIdNoPlaceholder(id: int, rest: string)
    requires '<' !in rest
    ensures NoPlaceholder("/sounds/" + IntToString(id) + rest)
  {
    IntToStringChars(id);
    var s := "/sounds/" + IntToString(id) + rest;
    assert '<' !in s;
    NoAngle(s);
  }

  lemma SoundTokenWord()
    ensures SoundToken == "<" + "sound_id" + ">"
    ensures forall k :: 0 <= k < |"sound_id"| ==> IsWordChar("sound_id"[k])
  {
  }

  // ---------------------------------------------------------------------
  // Request URIs
  // ---------------------------------------------------------------------

  /** The value under `name`, if the parameter object has that key. */
  function Lookup(ps: seq<Param>, name: string): (r: Option<string>)
    ensures r.Some? <==> exists i :: 0 <= i < |ps| && ps[i].0 == name
  {
    if |ps| == 0 then None
    else if ps[0].0 == name then Some(ps[0].1)
    else Lookup(ps[1..], name)
  }

  /** `params[name] = value` on an object: an existing key keeps its place,
      a new key goes last. */
  function SetParam(ps: seq<Param>, name: string, value: string): (r: seq<Param>)
    ensures Lookup(r, name) == Some(value)
    ensures forall n :: n != name ==> Lookup(r, n) == Lookup(ps, n)
    ensures Lookup(ps, name).Some? ==> |r| == |ps|
    ensures Lookup(ps, name).None? ==> r == ps + [(name, value)]
  {
    if |ps| == 0 then [(name, value)]
    else if ps[0].0 == name then [(name, value)] + ps[1..]
    else [ps[0]] + SetParam(ps[1..], name, value)
  }

  /** `params['format'] = 'json'`. */
  function WithFormat(ps: seq<Param>): (r: seq<Param>)
    ensures Lookup(r, "format") == Some("json")
  {
    SetParam(ps, "format", "json")
  }

  lemma {:induction false} SetParamNames(ps: seq<Param>, name: string, value: string)
    requires PlainNames(ps) && PlainName(name)
    ensures PlainNames(SetParam(ps, name, value))
  {
    if |ps| > 0 && ps[0].0 != name {
      SetParamNames(ps[1..], name, value);
    }
  }

  /** The URI `makeRequest` opens: the parameters, with `format=json` added,
      are appended after a `?`, whatever the URI already holds. */
  function RequestUri(uri: string, ps: seq<Param>): (r: string)
    requires PlainNames(ps)
  {
    SetParamNames(ps, "format", "json");
    uri + "?" + Assemble(Component, WithFormat(ps))
  }

  /** Everything after the appended `?` parses back to the parameters,
      `format=json` included. */
  lemma RequestUriParses(uri: string, ps: seq<Param>)
    requires PlainNames(ps)
    ensures var r := RequestUri(uri, ps);
      && r[..|uri|] == uri && r[|uri|] == '?'
      && Parse(Component, r[|uri| + 1..]) == Some(WithFormat(ps))
      && Lookup(WithFormat(ps), "format") == Some("json")
  {
    SetParamNames(ps, "format", "json");
    var q := Assemble(Component, WithFormat(ps));
    assert RequestUri(uri, ps) == uri + "?" + q;
    MarkSplits(uri, q);
    ParseAssemble(Component, WithFormat(ps));
  }

  lemma MarkSplits(uri: string, q: string)
    ensures var r := uri + "?" + q; r[..|uri|] == uri && r[|uri|] == '?' && r[|uri| + 1..] == q
  {
  }

  /** A cursor URL that already has a query gets a second `?`. */
  lemma SecondQuestionMark(uri: string, ps: seq<Param>)
    requires PlainNames(ps)
    requires '?' in uri
    ensures var r := RequestUri(uri, ps);
      exists i, j :: 0 <= i < j < |r| && r[i] == '?' && r[j] == '?'
  {
    var r := RequestUri(uri, ps);
    var i :| 0 <= i < |uri| && uri[i] == '?';
    assert r[i] == '?' && r[|uri|] == '?';
  }

  // ---------------------------------------------------------------------
  // Finished requests
  // ---------------------------------------------------------------------

  /** A finished request: status, body and the three caching headers
      (`None` where `getResponseHeader` gives `null`). */
  datatype Response = Response(
    status: int,
    body: Body,
    etag: Option<string>,
    lastModified: Option<string>,
    cacheControl: Option<string>)

  /** Which callback runs, with what. */
  datatype Outcome = Delivered(value: Json, headers: Option<Headers>) | Failed(err: Thrown)

  const ParseFailurePrefix: string := "Failed to parse response: "
  const RateLimitDefault: string := "Rate limit exceeded. Please try again later."
  const RateLimitPrefix: string := "Rate limit exceeded: "

  predicate IsSuccess(status: int) {
    status == 200 || status == 201 || status == 202
  }

  /** A header is kept when it was sent with a non-empty value. */
  function Kept(h: Option<string>): (r: Option<string>)
    ensures r.Some? <==> h.Some? && h.value != ""
    ensures r.Some? ==> r == h
  {
    if h.Some? && h.value != "" then h else None
  }

  /** The `wrapper` a request hands to `makeRequest`. Searches and cursor
      hops pass `Collection` (through `SoundCollection`), which assigns
      `nextPage`, `previousPage` and `getItem` onto the parsed value;
      `getSound` passes the `SoundObjectImpl` constructor. */
  datatype Wrapper = Plain | AsCollection | AsSound

  /** The wrapper applied to a parsed value inside `parse_response`, or
      `None` when it throws a `TypeError`. Assigning a member to `null`
      throws, and so does assigning one to a primitive in module (strict)
      code; `Object.assign` copies the members of an object onto a fresh
      object and copies nothing from `null` or a primitive. */
  function Wrap(w: Wrapper, v: Json): (r: Option<Json>)
  {
    match w
    case Plain => Some(v)
    case AsCollection => if v.JsonObject? then Some(v) else None
    case AsSound => Some(if v.JsonObject? then v else JsonObject(None))
  }

  /** The handler of a finished request. `parseError` is the text of the
      engine's `SyntaxError`, and `wrapError` that of the `TypeError` the
      wrapper throws; the parse-failure message quotes whichever was
      raised. */
  function Classify(resp: Response, w: Wrapper, parseError: string, wrapError: string): (o: Outcome)
  {
    if resp.status == 304 then Failed(Xhr(resp.status, resp.body))
    else if IsSuccess(resp.status) then
      match resp.body
      case Parsed(v) =>
        (match Wrap(w, v)
         case Some(u) =>
           var h := Headers(Kept(resp.etag), Kept(resp.lastModified), Kept(resp.cacheControl));
           Delivered(u, if u.JsonObject? then Some(h) else None)
         case None => Failed(Raised(ParseFailurePrefix + wrapError, None)))
      case _ => Failed(Raised(ParseFailurePrefix + parseError, None))
    else if resp.status == 429 then
      var msg := match resp.body.Detail()
        case Some(d) => RateLimitPrefix + d
        case None => RateLimitDefault;
      Failed(Raised(msg, Some(429)))
    else Failed(Xhr(resp.status, resp.body))
  }

  /** The success callback runs exactly for 200, 201 and 202 with a body
      that parses and that the wrapper accepts: a search or cursor hop
      accepts exactly an object, `getSound` accepts any JSON and delivers
      an object. 304 and every status other than those and 429 hand the raw
      request to the error callback; 429 raises an error that carries the
      status and the server's `detail` when there is one; a body that does
      not parse, or that the wrapper rejects, raises a parse-failure error
      quoting the engine's error. */
  lemma ClassifyCases(resp: Response, w: Wrapper, parseError: string, wrapError: string)
    ensures var o := Classify(resp, w, parseError, wrapError);
      && (o.Delivered? <==> IsSuccess(resp.status) && resp.body.Parsed? && Wrap(w, resp.body.value).Some?)
      && (w.Plain? ==> (o.Delivered? <==> IsSuccess(resp.status) && resp.body.Parsed?))
      && (w.AsCollection? ==>
            (o.Delivered? <==> IsSuccess(resp.status) && resp.body.Parsed? && resp.body.value.JsonObject?))
      && (w.AsSound? ==> (o.Delivered? <==> IsSuccess(resp.status) && resp.body.Parsed?))
      && (o.Delivered? && (w.Plain? || resp.body.value.JsonObject?) ==> o.value == resp.body.value)
      && (o.Delivered? && !w.Plain? ==> o.value.JsonObject?)
      && (o.Failed? && o.err.Xhr? <==> !IsSuccess(resp.status) && resp.status != 429)
      && (o.Failed? && o.err.Xhr? ==> o.err == Xhr(resp.status, resp.body))
      && (resp.status == 429 ==>
            o == Failed(Raised(
              if resp.body.Detail().Some? then RateLimitPrefix + resp.body.Detail().value else RateLimitDefault,
              Some(429))))
      && (IsSuccess(resp.status) && !resp.body.Parsed? ==>
            o == Failed(Raised(ParseFailurePrefix + parseError, None)))
      && (IsSuccess(resp.status) && resp.body.Parsed? && w.AsCollection? && !resp.body.value.JsonObject? ==>
            o == Failed(Raised(ParseFailurePrefix + wrapError, None)))
  {
  }

  /** Headers are attached only to an object, and then exactly those the
      server sent with a non-empty value, unchanged; a wrapped value is
      always an object, so every delivery of a search, a cursor hop or
      `getSound` carries them. */
  lemma DeliveredHeaders(resp: Response, w: Wrapper, parseError: string, wrapError: string)
    requires Classify(resp, w, parseError, wrapError).Delivered?
    ensures var o := Classify(resp, w, parseError, wrapError);
      && (o.headers.Some? <==> o.value.JsonObject?)
      && (!w.Plain? ==> o.headers.Some?)
      && (o.headers.Some? ==>
            && (o.headers.value.etag.Some? <==> resp.etag.Some? && resp.etag.value != "")
            && (o.headers.value.lastModified.Some? <==> resp.lastModified.Some? && resp.lastModified.value != "")
            && (o.headers.value.cacheControl.Some? <==> resp.cacheControl.Some? && resp.cacheControl.value != "")
            && (o.headers.value.etag.Some? ==> o.headers.value.etag == resp.etag)
            && (o.headers.value.lastModified.Some? ==> o.headers.value.lastModified == resp.lastModified)
            && (o.headers.value.cacheControl.Some? ==> o.headers.value.cacheControl == resp.cacheControl))
  {
  }

  /** What the screens show for a failed request, through
      `extractErrorMessage`: 401 and 400 their fixed texts, any other
      status but 429 the server's `detail` behind "API Error: " when it sent
      one. The rate-limit error and every parse failure are `Error`s, not
      requests, so the screen shows its own fallback text for them: the
      rate-limit text never reaches the user. */
  lemma ClassifyShown(resp: Response, w: Wrapper, parseError: string, wrapError: string, fallback: string)
    requires Classify(resp, w, parseError, wrapError).Failed?
    ensures var m := ExtractErrorMessage(Classify(resp, w, parseError, wrapError).err, fallback);
      && (resp.status == 401 ==> m == AuthenticationMessage)
      && (resp.status == 400 ==> m == InvalidRequestMessage)
      && (resp.status == 429 || IsSuccess(resp.status) ==> m == fallback)
      && (resp.status != 400 && resp.status != 401 && resp.status != 429 && !IsSuccess(resp.status) ==>
            m == if resp.body.Detail().Some? then DetailPrefix + resp.body.Detail().value else fallback)
  {
  }

  // ---------------------------------------------------------------------
  // Result pages
  // ---------------------------------------------------------------------

  const NoPageMessage: string := "No next/previous page available"

  /** What a client call does: throw synchronously, report an error to the
      callback without a request, or open a request. */
  datatype Call =
    | Throws(message: string)
    | Refused(err: Thrown)
    | Get(uri: string)
    | Post(uri: string, form: seq<Param>)

  /** `nextOrPrev`: an absent cursor is reported, otherwise its URL is
      requested with no parameters of its own. */
  function NextOrPrev(which: Option<Cursor>): (c: Call)
    ensures which.None? <==> c.Refused?
  {
    match which
    case None => Refused(Raised(NoPageMessage, None))
    case Some(cur) => Get(RequestUri(cur.url, []))
  }

  function NextPage(p: Page): Call { NextOrPrev(p.next) }

  function PreviousPage(p: Page): Call { NextOrPrev(p.previous) }

  /** `getItem(i)`: the `i`-th result, `undefined` past the end. */
  function GetItem(p: Page, i: int): (r: Option<Sound>)
    ensures r.Some? <==> 0 <= i < |p.results|
    ensures r.Some? ==> r.value in p.results
  {
    if 0 <= i < |p.results| then Some(p.results[i]) else None
  }

  /** Following a cursor requests its URL with `?format=json` appended. */
  lemma CursorRequest(cur: Cursor)
    ensures NextOrPrev(Some(cur)) == Get(cur.url + "?format=json")
  {
    var q := Assemble(Component, WithFormat([]));
    assert q == "format=json" by {
      assert WithFormat([]) == [("format", "json")];
      AssembleOne(Component, ("format", "json"));
      EncodeSafe(Component, "json");
    }
    assert RequestUri(cur.url, []) == cur.url + "?" + q;
    FormatSuffix(cur.url, q);
  }

  lemma FormatSuffix(url: string, q: string)
    requires q == "format=json"
    ensures url + "?" + q == url + "?format=json"
  {
    assert "?" + q == "?format=json";
  }

  // ---------------------------------------------------------------------
  // Authorization
  // ---------------------------------------------------------------------

  const OauthMessage: string := "OAuth authentication required"

  /** `setToken(token, type)`. */
  function SetToken(token: string, oauth: bool): (header: string)
    ensures StartsWith(header, if oauth then "Bearer " else "Token ")
    ensures |header| >= |token| && header[|header| - |token|..] == token
  {
    (if oauth then "Bearer " else "Token ") + token
  }

  /** `checkOauth`: the error it throws, if it throws. */
  function CheckOauth(header: string): (r: Option<string>)
    ensures r.Some? ==> r.value == OauthMessage
  {
    if Contains(header, "Bearer") then None else Some(OauthMessage)
  }

  /** An OAuth header always passes; a plain token header passes exactly
      when the token itself contains `Bearer`. */
  lemma OauthCheck(token: string, oauth: bool)
    ensures oauth ==> CheckOauth(SetToken(token, oauth)).None?
    ensures !oauth ==> (CheckOauth(SetToken(token, oauth)).None? <==> Contains(token, "Bearer"))
  {
    var h := SetToken(token, oauth);
    if oauth {
      assert OccursAt(h, "Bearer", 0);
    } else {
      if Contains(token, "Bearer") {
        ContainsRight("Token ", token, "Bearer");
      }
      if Contains(h, "Bearer") {
        var i :| 0 <= i <= |h| - 6 && OccursAt(h, "Bearer", i);
        assert h[i] == 'B';
        assert i >= 6;
        assert token[i - 6..i] == h[i..i + 6];
        assert OccursAt(token, "Bearer", i - 6);
      }
    }
  }

  // ---------------------------------------------------------------------
  // Searches
  // ---------------------------------------------------------------------

  /** A search option counts when it is set to a non-empty value. */
  predicate Given(options: seq<Param>, name: string) {
    Lookup(options, name).Some? && Lookup(options, name).value != ""
  }

  /** `search`: with an analysis file the options travel as a form in a
      POST; otherwise they become the query string of a GET. */
  function Search(options: seq<Param>, path: string): (c: Call)
    requires PlainNames(options)
    ensures c.Get? || c.Post?
  {
    if Given(options, "analysis_file") then Post(RequestUri(MakeUri(path, []), []), options)
    else Get(RequestUri(MakeUri(path, []), options))
  }

  /** The options `textSearch` sends: `query` set to the query, or to a
      single space for the empty query; every other option as given. */
  function TextOptions(query: string, options: seq<Param>): (opts: seq<Param>)
    requires PlainNames(options)
    ensures PlainNames(opts)
    ensures Lookup(opts, "query") == Some(if query == "" then " " else query)
    ensures forall n :: n != "query" ==> Lookup(opts, n) == Lookup(options, n)
  {
    SetParamNames(options, "query", if query == "" then " " else query);
    SetParam(options, "query", if query == "" then " " else query)
  }

  /** `textSearch`. */
  function TextSearch(query: string, options: seq<Param>): (c: Call)
    requires PlainNames(options)
    ensures c.Get? || c.Post?
  {
    Search(TextOptions(query, options), TextSearchPath)
  }

  function ContentSearch(options: seq<Param>): (c: Call)
    requires PlainNames(options)
    ensures c.Throws? <==> !Given(options, "target") && !Given(options, "analysis_file")
  {
    if !(Given(options, "target") || Given(options, "analysis_file")) then
      Throws("Missing target or analysis_file")
    else Search(options, ContentSearchPath)
  }

  function CombinedSearch(options: seq<Param>): (c: Call)
    requires PlainNames(options)
    ensures c.Throws? <==>
      !Given(options, "target") && !Given(options, "analysis_file") && !Given(options, "query")
  {
    if !(Given(options, "target") || Given(options, "analysis_file") || Given(options, "query")) then
      Throws("Missing query, target or analysis_file")
    else Search(options, CombinedSearchPath)
  }

  /** A text search never throws, and without an analysis file the server
      reads back the query given, or a space for the empty query. */
  lemma TextSearchQuery(query: string, options: seq<Param>)
    requires PlainNames(options)
    requires !Given(options, "analysis_file")
    ensures TextSearch(query, options) == Get(RequestUri(BaseUri + TextSearchPath, TextOptions(query, options)))
    ensures Lookup(WithFormat(TextOptions(query, options)), "query") == Some(if query == "" then " " else query)
  {
    var opts := TextOptions(query, options);
    assert Lookup(opts, "analysis_file") == Lookup(options, "analysis_file");
    assert MakeUri(TextSearchPath, []) == BaseUri + TextSearchPath;
  }
}

=== FILE: PageNumbers.dfy ===
/** The page-number window under a result list (`calculatePageNumbers`), the
    pagination bar that carries its own copy of it, and what the bar's links
    do when clicked. */
module PageNumbers {
  import opened Base
  import opened Text
  import opened Percent
  import opened Query
  import opened Domain

  /** Results per page, and the width of the window the bar asks for. */
  const PageSize: nat := 10
  const MaxVisiblePages: int := 7

  /** One slot of the window: a page number or the `'...'` marker. */
  datatype Entry = Num(n: int) | Gap

  /** The page numbers `lo..hi`, ascending (empty when `hi < lo`). */
  function Run(lo: int, hi: int): (r: seq<Entry>)
    ensures |r| == if hi < lo then 0 else hi - lo + 1
    ensures forall k :: 0 <= k < |r| ==> r[k] == Num(lo + k)
    decreases hi - lo
  {
    if hi < lo then [] else [Num(lo)] + Run(lo + 1, hi)
  }

  /** `calculatePageNumbers(currentPage, totalPages, maxVisible)`. A short
      list is written out in full; a long one always has seven slots, since
      the thresholds 4, 5 and 3 of the three layouts do not depend on
      `maxVisible`. */
  function CalculatePageNumbers(current: int, total: int, maxVisible: int): (r: seq<Entry>)
    ensures total <= maxVisible ==>
      |r| == (if total < 0 then 0 else total) && forall k :: 0 <= k < |r| ==> r[k] == Num(k + 1)
    ensures total > maxVisible ==> |r| == 7 && r[0] == Num(1) && r[6] == Num(total)
  {
    if total <= maxVisible then Run(1, total)
    else if current <= 4 then [Num(1)] + Run(2, 5) + [Gap, Num(total)]
    else if current >= total - 3 then [Num(1), Gap] + Run(total - 4, total)
    else [Num(1), Gap] + Run(current - 1, current + 1) + [Gap, Num(total)]
  }

  /** Page numbers rise strictly from left to right, gaps aside. */
  predicate Ascending(r: seq<Entry>) {
    forall i, j :: 0 <= i < j < |r| && r[i].Num? && r[j].Num? ==> r[i].n < r[j].n
  }

  /** Every page number is a page that exists. */
  predicate Within(r: seq<Entry>, total: int) {
    forall i :: 0 <= i < |r| && r[i].Num? ==> 1 <= r[i].n <= total
  }

  /** The marker is never first, never last, and never doubled. */
  predicate GapsInside(r: seq<Entry>) {
    && (|r| > 0 ==> r[0].Num? && r[|r| - 1].Num?)
    && forall i :: 0 <= i < |r| - 1 ==> r[i].Num? || r[i + 1].Num?
  }

  /** Each marker stands for at least one page that is not shown. */
  predicate GapsHidePages(r: seq<Entry>) {
    forall i :: 0 < i < |r| - 1 && r[i].Gap? ==>
      r[i - 1].Num? && r[i + 1].Num? && r[i - 1].n + 1 < r[i + 1].n
  }

  /** The seven slots of a long window, spelled out per layout. */
  lemma LongWindow(current: int, total: int, maxVisible: int)
    requires total > maxVisible
    ensures var r := CalculatePageNumbers(current, total, maxVisible);
      if current <= 4 then r == [Num(1), Num(2), Num(3), Num(4), Num(5), Gap, Num(total)]
      else if current >= total - 3 then
        r == [Num(1), Gap, Num(total - 4), Num(total - 3), Num(total - 2), Num(total - 1), Num(total)]
      else r == [Num(1), Gap, Num(current - 1), Num(current), Num(current + 1), Gap, Num(total)]
  {
  }

  /** The marker is well placed for every input. */
  lemma WindowGapsInside(current: int, total: int, maxVisible: int)
    ensures GapsInside(CalculatePageNumbers(current, total, maxVisible))
  {
    if total > maxVisible {
      LongWindow(current, total, maxVisible);
    }
  }

  /** With a short list, or with at least six pages, the numbers ascend and
      name existing pages. (With fewer than six pages and a window narrower
      than five, the hard-coded layout repeats or overshoots pages.) */
  lemma WindowOrdered(current: int, total: int, maxVisible: int)
    requires total <= maxVisible || total >= 6
    ensures Ascending(CalculatePageNumbers(current, total, maxVisible))
    ensures Within(CalculatePageNumbers(current, total, maxVisible), total)
  {
    if total > maxVisible {
      LongWindow(current, total, maxVisible);
    }
  }

  /** From seven pages on, each marker of a long window hides a page. */
  lemma WindowGapsHidePages(current: int, total: int, maxVisible: int)
    requires total > maxVisible && total >= 7
    ensures GapsHidePages(CalculatePageNumbers(current, total, maxVisible))
  {
    LongWindow(current, total, maxVisible);
    var r := CalculatePageNumbers(current, total, maxVisible);
    forall i | 0 < i < |r| - 1 && r[i].Gap?
      ensures r[i - 1].Num? && r[i + 1].Num? && r[i - 1].n + 1 < r[i + 1].n
    {
      if current <= 4 {
        assert i == 5;
      } else if current >= total - 3 {
        assert i == 1;
      } else {
        assert i == 1 || i == 5;
      }
    }
  }

  /** The current page, when it exists, is always on show. */
  lemma CurrentShown(current: int, total: int, maxVisible: int)
    requires 1 <= current <= total
    ensures Num(current) in CalculatePageNumbers(current, total, maxVisible)
  {
    var r := CalculatePageNumbers(current, total, maxVisible);
    if total <= maxVisible {
      assert r[current - 1] == Num(current);
    } else {
      LongWindow(current, total, maxVisible);
      if current <= 4 {
        assert r[current - 1] == Num(current);
      } else if current >= total - 3 {
        assert r[current - total + 6] == Num(current);
      } else {
        assert r[3] == Num(current);
      }
    }
  }

  // ---------------------------------------------------------------------
  // The pagination bar
  // ---------------------------------------------------------------------

  /** `Math.ceil(count / 10)`: the fewest pages of ten that hold `count`
      results. */
  function TotalPages(count: nat): (r: nat)
    ensures r * PageSize >= count
    ensures r > 0 ==> (r - 1) * PageSize < count
  {
    (count + PageSize - 1) / PageSize
  }

  /** The bar's own copy of the window builder, written with loops as the
      component writes it; it computes exactly what `calculatePageNumbers`
      computes for a window of seven. */
  method GetPageNumbers(current: int, count: nat) returns (pages: seq<Entry>)
    ensures pages == CalculatePageNumbers(current, TotalPages(count), MaxVisiblePages)
  {
    var totalPages := TotalPages(count);
    var maxVisible := 7;
    pages := [];
    if totalPages <= maxVisible {
      pages := PushRange(pages, 1, totalPages);
    } else {
      pages := pages + [Num(1)];
      if current <= 4 {
        pages := PushRange(pages, 2, 5);
        pages := pages + [Gap];
        pages := pages + [Num(totalPages)];
      } else if current >= totalPages - 3 {
        pages := pages + [Gap];
        pages := PushRange(pages, totalPages - 4, totalPages);
      } else {
        pages := pages + [Gap];
        pages := PushRange(pages, current - 1, current + 1);
        pages := pages + [Gap];
        pages := pages + [Num(totalPages)];
      }
    }
  }

  /** `for (let i = lo; i <= hi; i++) pages.push(i)`. */
  method PushRange(pages: seq<Entry>, lo: int, hi: int) returns (r: seq<Entry>)
    ensures r == pages + Run(lo, hi)
  {
    r := pages;
    var i := lo;
    while i <= hi
      invariant lo <= i && (lo <= hi + 1 ==> i <= hi + 1)
      invariant i > hi + 1 ==> i == lo
      invariant r == pages + Run(lo, i - 1)
    {
      RunExtend(lo, i);
      r := r + [Num(i)];
      i := i + 1;
    }
    assert i - 1 >= hi || i == lo;
  }

  /** Extending a run by its next number. */
  lemma RunExtend(lo: int, i: int)
    requires lo <= i
    ensures Run(lo, i) == Run(lo, i - 1) + [Num(i)]
  {
  }

  /** The link target `/?q=<encoded query>&page=<n>` of the bar. */
  function Href(query: string, page: int): (r: string)
    ensures StartsWith(r, "/?q=")
  {
    "/?q=" + Encode(Component, query) + "&page=" + IntToString(page)
  }

  /** A link target is the query string of the two parameters `q` and
      `page`, so reading it back gives the query and the printed page. */
  lemma HrefParses(query: string, page: int)
    ensures Href(query, page)[..2] == "/?"
    ensures Parse(Component, Href(query, page)[2..]) == Some([("q", query), ("page", IntToString(page))])
  {
    HrefAssembled(query, page);
    ParseAssemble(Component, [("q", query), ("page", IntToString(page))]);
  }

  lemma HrefAssembled(query: string, page: int)
    ensures Href(query, page)[..2] == "/?"
    ensures Href(query, page)[2..] == Assemble(Component, [("q", query), ("page", IntToString(page))])
  {
    var e := Encode(Component, query);
    var d := IntToString(page);
    PrintedPageField(page);
    AssembleTwo(Component, ("q", query), ("page", d));
    Regroup(e, d);
  }

  lemma Regroup(e: string, d: string)
    ensures var h := "/?q=" + e + "&page=" + d;
      h[..2] == "/?" && h[2..] == "q" + "=" + e + "&" + ("page=" + d)
  {
  }

  /** A printed page number needs no escaping. */
  lemma PrintedPageField(page: int)
    ensures Field(Component, ("page", IntToString(page))) == "page=" + IntToString(page)
  {
    IntToStringChars(page);
    EncodeSafe(Component, IntToString(page));
  }

  /** One control of the bar. */
  datatype Control =
    | Previous(target: int, href: string)
    | PageLink(page: int, active: bool, href: string)
    | Ellipsis
    | Next(target: int, href: string)

  /** The control for one window slot: the marker, or a link to the page,
      active on the current page. */
  function LinkFor(e: Entry, current: int, query: string): (c: Control)
    ensures e.Gap? ==> c == Ellipsis
    ensures e.Num? ==> c.PageLink? && c.page == e.n && (c.active <==> e.n == current) && c.href == Href(query, e.n)
  {
    match e
    case Gap => Ellipsis
    case Num(n) => PageLink(n, n == current, Href(query, n))
  }

  function Links(pages: seq<Entry>, current: int, query: string): (cs: seq<Control>)
    ensures |cs| == |pages|
    ensures forall i :: 0 <= i < |pages| ==> cs[i] == LinkFor(pages[i], current, query)
  {
    if |pages| == 0 then [] else [LinkFor(pages[0], current, query)] + Links(pages[1..], current, query)
  }

  /** The rendered bar: nothing for an empty result set; otherwise an
      optional Previous link, the window, and an optional Next link. */
  function Render(sounds: Page, current: int, query: string): (r: Option<seq<Control>>)
  {
    if sounds.count == 0 then None
    else
      var pages := CalculatePageNumbers(current, TotalPages(sounds.count), MaxVisiblePages);
      Some((if sounds.previous.Some? then [Previous(current - 1, Href(query, current - 1))] else [])
           + Links(pages, current, query)
           + (if sounds.next.Some? then [Next(current + 1, Href(query, current + 1))] else []))
  }

  /** The page a click asks the screen to show, if any: clicks are ignored
      while loading, and on the active page. */
  function Click(c: Control, loading: bool): (r: Option<int>)
  {
    if loading then None
    else
      match c
      case Previous(t, _) => Some(t)
      case Next(t, _) => Some(t)
      case PageLink(n, active, _) => if active then None else Some(n)
      case Ellipsis => None
  }

  /** The bar is hidden exactly when there are no results; otherwise it
      offers Previous iff the page has a `previous` cursor, Next iff it has
      a `next` cursor, and between them one control per window slot. */
  lemma RenderShape(sounds: Page, current: int, query: string)
    ensures Render(sounds, current, query).None? <==> sounds.count == 0
    ensures sounds.count > 0 ==>
      var cs := Render(sounds, current, query).value;
      var pages := CalculatePageNumbers(current, TotalPages(sounds.count), MaxVisiblePages);
      var p := if sounds.previous.Some? then 1 else 0;
      && |cs| == p + |pages| + (if sounds.next.Some? then 1 else 0)
      && (|cs| > 0 && cs[0].Previous? <==> sounds.previous.Some?)
      && (|cs| > 0 && cs[|cs| - 1].Next? <==> sounds.next.Some?)
      && (sounds.previous.Some? ==> cs[0].target == current - 1)
      && (sounds.next.Some? ==> cs[|cs| - 1].target == current + 1)
      && cs[p..p + |pages|] == Links(pages, current, query)
  {
    if sounds.count > 0 {
      var pages := CalculatePageNumbers(current, TotalPages(sounds.count), MaxVisiblePages);
      var pre: seq<Control> := if sounds.previous.Some? then [Previous(current - 1, Href(query, current - 1))] else [];
      var post: seq<Control> := if sounds.next.Some? then [Next(current + 1, Href(query, current + 1))] else [];
      assert Render(sounds, current, query).value == pre + Links(pages, current, query) + post;
      assert TotalPages(sounds.count) >= 1;
      assert |pages| >= 1;
      var mid := Links(pages, current, query);
      assert mid[0] == LinkFor(pages[0], current, query);
      assert mid[|mid| - 1] == LinkFor(pages[|mid| - 1], current, query);
      BarShape(pre, mid, post, current);
    }
  }

  /** A bar made of an optional Previous arrow, a non-empty run of links
      (neither of whose ends is an arrow) and an optional Next arrow starts
      with Previous exactly when the arrow is there, ends with Next
      likewise, and holds the links in between. */
  lemma BarShape(pre: seq<Control>, mid: seq<Control>, post: seq<Control>, current: int)
    requires pre == [] || (|pre| == 1 && pre[0].Previous? && pre[0].target == current - 1)
    requires post == [] || (|post| == 1 && post[0].Next? && post[0].target == current + 1)
    requires |mid| >= 1 && !mid[0].Previous? && !mid[|mid| - 1].Next?
    ensures var cs := pre + mid + post;
      && |cs| == |pre| + |mid| + |post|
      && (cs[0].Previous? <==> pre != [])
      && (cs[|cs| - 1].Next? <==> post != [])
      && (pre != [] ==> cs[0].target == current - 1)
      && (post != [] ==> cs[|cs| - 1].target == current + 1)
      && cs[|pre|..|pre| + |mid|] == mid
  {
    var cs := pre + mid + post;
    if pre == [] {
      assert cs[0] == mid[0];
    } else {
      assert cs[0] == pre[0];
    }
    if post == [] {
      assert cs[|cs| - 1] == mid[|mid| - 1];
    } else {
      assert cs[|cs| - 1] == post[0];
    }
    assert cs[|pre|..|pre| + |mid|] == mid;
  }

  /** A click asks for a page only when nothing is loading; it never asks
      for the page already shown by the window, and the two arrows ask for
      the neighbours of the current page. */
  lemma ClickTargets(sounds: Page, current: int, query: string, loading: bool, i: nat)
    requires Render(sounds, current, query).Some?
    requires i < |Render(sounds, current, query).value|
    ensures var c := Render(sounds, current, query).value[i];
      var r := Click(c, loading);
      && (r.Some? ==> !loading)
      && (c.PageLink? ==> (r.Some? <==> !loading && c.page != current))
      && (r.Some? && c.PageLink? ==> r.value == c.page)
      && (c.Previous? ==> c.target == current - 1)
      && (c.Next? ==> c.target == current + 1)
  {
    var pages := CalculatePageNumbers(current, TotalPages(sounds.count), MaxVisiblePages);
    var pre: seq<Control> := if sounds.previous.Some? then [Previous(current - 1, Href(query, current - 1))] else [];
    var post: seq<Control> := if sounds.next.Some? then [Next(current + 1, Href(query, current + 1))] else [];
    assert Render(sounds, current, query).value == pre + Links(pages, current, query) + post;
    BarControl(pre, pages, post, current, query, i);
  }

  /** Every control of a bar made of an optional Previous arrow, the links
      of a window and an optional Next arrow: a page link is active exactly
      on the current page, and the arrows point at its neighbours. */
  lemma BarControl(pre: seq<Control>, pages: seq<Entry>, post: seq<Control>, current: int, query: string, i: nat)
    requires pre == [] || pre == [Previous(current - 1, Href(query, current - 1))]
    requires post == [] || post == [Next(current + 1, Href(query, current + 1))]
    requires i < |pre + Links(pages, current, query) + post|
    ensures var c := (pre + Links(pages, current, query) + post)[i];
      && (c.PageLink? ==> (c.active <==> c.page == current))
      && (c.Previous? ==> c.target == current - 1)
      && (c.Next? ==> c.target == current + 1)
  {
    var mid := Links(pages, current, query);
    var cs := pre + mid + post;
    if i < |pre| {
      assert cs[i] == pre[0];
    } else if i < |pre| + |mid| {
      assert cs[i] == mid[i - |pre|];
    } else {
      assert cs[i] == post[0];
    }
  }
}

=== FILE: PaginatedSearch.dfy ===
/** `usePaginatedSearch`: the cache-first search effect of the tag and
    similar-sounds screens. One run of the effect is modelled from the
    moment `page` (or the query key) changes until every callback it
    started has fired, against a `Chain.Server`. */
module PaginatedSearch {
  import opened Base
  import opened Domain
  import opened SoundCache
  import opened Chain
  import opened ErrorHandler

  /** The hook's state: the page on show, the loading flag, the error text
      and the page number. */
  datatype View = View(sounds: Option<Page>, loading: bool, error: Option<string>, currentPage: int)

  /** The state and cache once the run has settled, and how many requests
      it sent (the search itself plus every cursor hop). */
  datatype Settled = Settled(view: View, cache: Cache, requests: nat)

  /** Showing a page: it becomes the page on show under the target page
      number, loading ends with the error text left as it was, and for the
      next five minutes a read of (`key`, `target`) serves the page without
      its headers. */
  function Commit(v: View, c: Cache, key: string, target: int, p: Page, now: int): (r: (View, Cache))
    ensures r.0.sounds == Some(p) && r.0.currentPage == target && !r.0.loading && r.0.error == v.error
    ensures forall later :: now <= later < now + ExpiryMs ==>
      GetSearchResults(r.1, key, target, later).0 == Some(StripPage(p))
  {
    CommitServed(c, key, target, p, now);
    (v.(sounds := Some(p), currentPage := target, loading := false), SetSearchResults(c, key, target, p, now))
  }

  lemma CommitServed(c: Cache, key: string, target: int, p: Page, now: int)
    ensures forall later :: now <= later < now + ExpiryMs ==>
      GetSearchResults(SetSearchResults(c, key, target, p, now), key, target, later).0 == Some(StripPage(p))
  {
    forall later | now <= later < now + ExpiryMs
      ensures GetSearchResults(SetSearchResults(c, key, target, p, now), key, target, later).0 == Some(StripPage(p))
    {
      SearchResultsFanOut(c, key, target, p, now, later);
    }
  }

  /** `navigateToPage`: with a target past page 1 and a `next` cursor, walk
      forward from page 1; the page the walk stops at is committed under the
      target. A failed hop shows the error text and ends loading, and
      nothing is stored. */
  function NavigateToPage(v: View, c: Cache, s: Server, key: string, fallback: string,
                          data: Page, target: int, now: int): (r: (View, Cache, nat))
    ensures r.2 <= if target > 1 then target - 1 else 0
    ensures !r.0.loading
    ensures r.0.error != v.error ==> r.1 == c && r.0.sounds == v.sounds
    ensures v.error.None? && r.0.error.None? ==>
      r.0.sounds.Some? && r.1 == SetSearchResults(c, key, target, r.0.sounds.value, now)
  {
    if target > 1 && data.next.Some? then
      match WalkForward(s, data, 1, target)
      case Broke(e, h) => (v.(error := Some(ExtractErrorMessage(e, fallback)), loading := false), c, h)
      case Reached(p, _, h) =>
        var (v', c') := Commit(v, c, key, target, p, now);
        (v', c', h)
    else
      var (v', c') := Commit(v, c, key, target, data, now);
      (v', c', 0)
  }

  /** The guard of `navigateToPage` changes nothing: committing page 1
      directly is what the walk itself would do. */
  lemma NavigateIsWalk(v: View, c: Cache, s: Server, key: string, fallback: string,
                       data: Page, target: int, now: int)
    ensures var r := NavigateToPage(v, c, s, key, fallback, data, target, now);
      match WalkForward(s, data, 1, target)
      case Reached(p, _, h) => r == (Commit(v, c, key, target, p, now).0, Commit(v, c, key, target, p, now).1, h)
      case Broke(e, h) => r == (v.(error := Some(ExtractErrorMessage(e, fallback)), loading := false), c, h)
  {
  }

  /** The part of the effect that runs before any request: the page number
      is taken over, the cache is read (evicting an expired entry), and on
      a miss loading starts and the previous error is cleared. */
  function Begin(v: View, c: Cache, key: string, page: int, now: int): (r: (View, Cache, Option<Page>))
    ensures r.0.currentPage == page && r.0.sounds == (if r.2.Some? then r.2 else v.sounds)
    ensures r.2 == GetSearchResults(c, key, page, now).0 && r.1 == GetSearchResults(c, key, page, now).1
    ensures r.2.Some? ==> !r.0.loading && r.0.error == v.error
    ensures r.2.None? ==> r.0.loading && r.0.error.None?
  {
    var (hit, c1) := GetSearchResults(c, key, page, now);
    if hit.Some? then (v.(currentPage := page, sounds := hit, loading := false), c1, hit)
    else (v.(currentPage := page, loading := true, error := None), c1, None)
  }

  /** The whole effect: a cache hit is shown without any request; a miss
      sends the search (position 0 of the chain) and, on success, hands
      page 1 to `NavigateToPage`; a failed search shows the error text. */
  function Run(v: View, c: Cache, s: Server, key: string, fallback: string, page: int, now: int): (r: Settled)
    ensures r.view.currentPage == page && !r.view.loading
    ensures Begin(v, c, key, page, now).2.Some? <==> r.requests == 0
    ensures r.requests == 0 ==>
      && r.view.sounds == Begin(v, c, key, page, now).2
      && r.view.error == v.error
      && r.cache == Begin(v, c, key, page, now).1
    ensures r.requests <= if page > 1 then page else 1
    ensures r.view.error.Some? && r.requests > 0 ==> r.cache == Begin(v, c, key, page, now).1 && r.view.sounds == v.sounds
  {
    var b := Begin(v, c, key, page, now);
    if b.2.Some? then Settled(b.0, b.1, 0)
    else
      match Fetch(s, 0)
      case Failure(e) => Settled(b.0.(error := Some(ExtractErrorMessage(e, fallback)), loading := false), b.1, 1)
      case Got(p) =>
        var n := NavigateToPage(b.0, b.1, s, key, fallback, p, page, now);
        Settled(n.0, n.1, 1 + n.2)
  }

  /** On a well-linked, reliable chain a miss ends with no error, showing
      the page the forward walk lands on (the requested page, or the last
      one when the chain is shorter), stored under the requested page, after
      one request per page reached. */
  lemma RunOnSoundChain(v: View, c: Cache, s: Server, key: string, fallback: string, page: int, now: int)
    requires WellLinked(s.pages) && Reliable(s) && |s.pages| > 0
    requires Begin(v, c, key, page, now).2.None?
    ensures var j := if page <= 1 then 0 else if page <= |s.pages| then page - 1 else |s.pages| - 1;
      var r := Run(v, c, s, key, fallback, page, now);
      && r.view == View(Some(s.pages[j]), false, None, page)
      && r.requests == j + 1
      && r.cache == SetSearchResults(Begin(v, c, key, page, now).1, key, page, s.pages[j], now)
  {
    FromFirstPage(s, page);
  }

  /** Cache first: after a run that showed a page without error, running
      the effect again for the same key and page within five minutes sends
      no request and shows the stored copy of that page. */
  lemma RevisitIsServedFromCache(v: View, c: Cache, s: Server, key: string, fallback: string,
                                 page: int, now: int, later: int)
    requires later - now < ExpiryMs
    requires var r := Run(v, c, s, key, fallback, page, now); r.requests > 0 && r.view.error.None?
    ensures var r := Run(v, c, s, key, fallback, page, now);
      var again := Run(r.view, r.cache, s, key, fallback, page, later);
      && again.requests == 0
      && r.view.sounds.Some?
      && again.view.sounds == Some(StripPage(r.view.sounds.value))
  {
    var r := Run(v, c, s, key, fallback, page, now);
    RunStoresShownPage(v, c, s, key, fallback, page, now);
    SearchResultsFanOut(Begin(v, c, key, page, now).1, key, page, r.view.sounds.value, now, later);
  }

  /** A run that sent requests and ended without error shows a page, and
      the cache holds that page under the requested page number. */
  lemma RunStoresShownPage(v: View, c: Cache, s: Server, key: string, fallback: string, page: int, now: int)
    ensures var r := Run(v, c, s, key, fallback, page, now);
      r.requests > 0 && r.view.error.None? ==>
        && r.view.sounds.Some?
        && r.cache == SetSearchResults(Begin(v, c, key, page, now).1, key, page, r.view.sounds.value, now)
  {
    var b := Begin(v, c, key, page, now);
    if b.2.None? && Fetch(s, 0).Got? {
      var p := Fetch(s, 0).page;
      assert Run(v, c, s, key, fallback, page, now).cache == NavigateToPage(b.0, b.1, s, key, fallback, p, page, now).1;
    }
  }

  /** When the chain is shorter than the requested page, the last page is
      stored under the requested page number, and the view reports the
      requested page. */
  lemma ShortChainStoredUnderTarget(v: View, c: Cache, s: Server, key: string, fallback: string,
                                    page: int, now: int, later: int)
    requires WellLinked(s.pages) && Reliable(s) && 0 < |s.pages| < page
    requires Begin(v, c, key, page, now).2.None?
    requires later - now < ExpiryMs
    ensures var r := Run(v, c, s, key, fallback, page, now);
      && r.view.currentPage == page
      && r.view.sounds == Some(s.pages[|s.pages| - 1])
      && GetSearchResults(r.cache, key, page, later).0 == Some(StripPage(s.pages[|s.pages| - 1]))
  {
    RunOnSoundChain(v, c, s, key, fallback, page, now);
    SearchResultsFanOut(Begin(v, c, key, page, now).1, key, page, s.pages[|s.pages| - 1], now, later);
  }
}

=== FILE: Percent.dfy ===
/** Percent-encoding (section 2.1 of RFC 3986) as the browser performs it for
    `encodeURIComponent` and for the `application/x-www-form-urlencoded`
    serializer behind `URLSearchParams.toString`: a character outside the
    style's safe set becomes the `%XX` escapes of its UTF-8 bytes (section 3
    of RFC 3629), with upper-case hexadecimal digits; the form serializer
    writes a space as `+`. The decoder below is the partner that shows the
    encoding loses nothing. */
module Percent {
  import opened Base

  /** `Component` is `encodeURIComponent`; `Form` is `URLSearchParams`. */
  datatype Style = Component | Form

  predicate IsAsciiAlnum(c: char) {
    ('a' <= c <= 'z') || ('A' <= c <= 'Z') || ('0' <= c <= '9')
  }

  /** Characters written as they are: `encodeURIComponent` keeps the marks
      `- _ . ! ~ * ' ( )`, the form serializer only `* - . _`. */
  predicate Safe(style: Style, c: char) {
    || IsAsciiAlnum(c)
    || (match style
        case Component =>
          c == '-' || c == '_' || c == '.' || c == '!' || c == '~' || c == '*' || c == '\'' || c == '(' || c == ')'
        case Form => c == '*' || c == '-' || c == '.' || c == '_')
  }

  /** The UTF-8 bytes of a Unicode scalar value. */
  function Utf8(c: char): (bs: seq<int>)
    ensures 1 <= |bs| <= 4
    ensures forall i :: 0 <= i < |bs| ==> 0 <= bs[i] < 256
    ensures |bs| == 1 <==> (c as int) < 0x80
  {
    var n := c as int;
    if n < 0x80 then [n]
    else if n < 0x800 then [0xC0 + n / 0x40, 0x80 + n % 0x40]
    else if n < 0x1_0000 then [0xE0 + n / 0x1000, 0x80 + (n / 0x40) % 0x40, 0x80 + n % 0x40]
    else [0xF0 + n / 0x4_0000, 0x80 + (n / 0x1000) % 0x40, 0x80 + (n / 0x40) % 0x40, 0x80 + n % 0x40]
  }

  /** The value of a hexadecimal digit of either case. */
  function HexValue(c: char): (v: Option<int>)
    ensures v.Some? ==> 0 <= v.value < 16
    ensures v.Some? <==> IsAsciiAlnum(c) && (c <= '9' || 'A' <= c <= 'F' || 'a' <= c <= 'f')
  {
    if '0' <= c <= '9' then Some(c as int - '0' as int)
    else if 'A' <= c <= 'F' then Some(c as int - 'A' as int + 10)
    else if 'a' <= c <= 'f' then Some(c as int - 'a' as int + 10)
    else None
  }

  /** The upper-case hexadecimal digit for 0..15; reading it back gives `d`. */
  function HexDigit(d: int): (c: char)
    requires 0 <= d < 16
    ensures HexValue(c) == Some(d)
    ensures '0' <= c <= '9' || 'A' <= c <= 'F'
  {
    if d < 10 then ('0' as int + d) as char else ('A' as int + d - 10) as char
  }

  /** `%XX` for one byte. */
  function Escape(b: int): (r: string)
    requires 0 <= b < 256
    ensures |r| == 3 && r[0] == '%' && IsAsciiAlnum(r[1]) && IsAsciiAlnum(r[2])
  {
    ['%', HexDigit(b / 16), HexDigit(b % 16)]
  }

  predicate Bytes(bs: seq<int>) {
    forall i :: 0 <= i < |bs| ==> 0 <= bs[i] < 256
  }

  function EscapeAll(bs: seq<int>): (r: string)
    requires Bytes(bs)
    ensures |r| == 3 * |bs|
    ensures forall ch :: ch in r ==> ch == '%' || IsAsciiAlnum(ch)
  {
    if |bs| == 0 then "" else Escape(bs[0]) + EscapeAll(bs[1..])
  }

  function EncodeChar(style: Style, c: char): (r: string)
    ensures |r| >= 1
    ensures forall ch :: ch in r ==> Safe(style, ch) || ch == '%' || ch == '+'
  {
    if Safe(style, c) then [c]
    else if style == Form && c == ' ' then "+"
    else EscapeAll(Utf8(c))
  }

  /** `encodeURIComponent(s)` (`Component`) or the form serializer's escaping
      of one name or value (`Form`). What comes out is drawn from the safe
      set, `%` and `+`, so it never holds a query-string delimiter. */
  function Encode(style: Style, s: string): (r: string)
    ensures forall ch :: ch in r ==> Safe(style, ch) || ch == '%' || ch == '+'
    ensures |s| == 0 <==> |r| == 0
  {
    if |s| == 0 then "" else EncodeChar(style, s[0]) + Encode(style, s[1..])
  }

  /** Hence an encoded value holds no query-string delimiter. */
  lemma EncodeNoDelimiters(style: Style, s: string)
    ensures var r := Encode(style, s);
      '&' !in r && '=' !in r && '#' !in r && '?' !in r && ' ' !in r
  {
    var r := Encode(style, s);
    forall ch | ch in r
      ensures ch != '&' && ch != '=' && ch != '#' && ch != '?' && ch != ' '
    {
      assert Safe(style, ch) || ch == '%' || ch == '+';
    }
  }

  /** A text made of safe characters only is written as it is. */
  lemma {:induction false} EncodeSafe(style: Style, s: string)
    requires forall i :: 0 <= i < |s| ==> Safe(style, s[i])
    ensures Encode(style, s) == s
  {
    if |s| > 0 {
      EncodeSafe(style, s[1..]);
      assert [s[0]] + s[1..] == s;
    }
  }

  // ---------------------------------------------------------------------
  // Decoding
  // ---------------------------------------------------------------------

  /** The byte written as `%XX` at the start of `s`, if there is one. */
  function ByteAt(s: string): (b: Option<int>)
    ensures b.Some? ==> |s| >= 3 && 0 <= b.value < 256
  {
    if |s| >= 3 && s[0] == '%' then
      match (HexValue(s[1]), HexValue(s[2]))
      case (Some(h), Some(l)) => Some(16 * h + l)
      case _ => None
    else None
  }

  /** The six payload bits of the continuation byte written at `s[3 * i..]`. */
  function Continuation(s: string, i: nat): (b: Option<int>)
    ensures b.Some? ==> 3 * i + 3 <= |s| && 0 <= b.value < 0x40
  {
    if 3 * i <= |s| then
      match ByteAt(s[3 * i..])
      case Some(x) => if 0x80 <= x < 0xC0 then Some(x - 0x80) else None
      case None => None
    else None
  }

  /** The scalar value `n`, if it is one, paired with the escapes' length. */
  function Scalar(n: int, k: nat): (r: Option<(char, nat)>)
    ensures r.Some? ==> r.value.1 == k && r.value.0 as int == n
  {
    if (0 <= n < 0xD800) || (0xE000 <= n < 0x11_0000) then Some((n as char, k)) else None
  }

  /** One character read from the escapes at the start of `s`, and how many
      characters of `s` they take. */
  function DecodeScalar(s: string): (r: Option<(char, nat)>)
    ensures r.Some? ==> 3 <= r.value.1 <= |s|
  {
    match ByteAt(s)
    case None => None
    case Some(b0) =>
      if b0 < 0x80 then Scalar(b0, 3)
      else if 0xC0 <= b0 < 0xE0 then
        match Continuation(s, 1)
        case Some(b1) => Scalar((b0 - 0xC0) * 0x40 + b1, 6)
        case None => None
      else if 0xE0 <= b0 < 0xF0 then
        match (Continuation(s, 1), Continuation(s, 2))
        case (Some(b1), Some(b2)) => Scalar((b0 - 0xE0) * 0x1000 + b1 * 0x40 + b2, 9)
        case _ => None
      else if 0xF0 <= b0 < 0xF8 then
        match (Continuation(s, 1), Continuation(s, 2), Continuation(s, 3))
        case (Some(b1), Some(b2), Some(b3)) =>
          Scalar((b0 - 0xF0) * 0x4_0000 + b1 * 0x1000 + b2 * 0x40 + b3, 12)
        case _ => None
      else None
  }

  /** Percent-decoding; `None` for a malformed escape. In the `Form` style a
      `+` stands for a space. */
  function Decode(style: Style, s: string): (r: Option<string>)
    decreases |s|
  {
    if |s| == 0 then Some("")
    else if s[0] == '%' then
      match DecodeScalar(s)
      case None => None
      case Some((c, k)) =>
        match Decode(style, s[k..])
        case None => None
        case Some(rest) => Some([c] + rest)
    else
      match Decode(style, s[1..])
      case None => None
      case Some(rest) => Some([if style == Form && s[0] == '+' then ' ' else s[0]] + rest)
  }

  lemma EscapeRead(b: int, t: string)
    requires 0 <= b < 256
    ensures ByteAt(Escape(b) + t) == Some(b)
  {
    var s := Escape(b) + t;
    assert s[0] == '%' && s[1] == HexDigit(b / 16) && s[2] == HexDigit(b % 16);
  }

  /** The `i`-th escape of `EscapeAll(bs)` sits at offset `3 * i`. */
  lemma {:induction false} EscapeAllAt(bs: seq<int>, t: string, i: nat)
    requires Bytes(bs) && i < |bs|
    ensures (EscapeAll(bs) + t)[3 * i..] == Escape(bs[i]) + (EscapeAll(bs[i + 1..]) + t)
  {
    if i > 0 {
      assert Bytes(bs[1..]);
      EscapeAllAt(bs[1..], t, i - 1);
      assert bs[1..][i - 1..] == bs[i..] && bs[1..][i..] == bs[i + 1..];
      assert EscapeAll(bs) + t == Escape(bs[0]) + (EscapeAll(bs[1..]) + t);
    } else {
      assert bs[1..] == bs[i + 1..];
    }
  }

  /** Reading the escapes of a continuation byte gives its payload bits. */
  lemma ContinuationRead(bs: seq<int>, t: string, i: nat)
    requires Bytes(bs) && i < |bs| && 0x80 <= bs[i] < 0xC0
    ensures Continuation(EscapeAll(bs) + t, i) == Some(bs[i] - 0x80)
  {
    EscapeAllAt(bs, t, i);
    EscapeRead(bs[i], EscapeAll(bs[i + 1..]) + t);
  }

  /** The escapes of a character's UTF-8 bytes decode to that character. */
  lemma ScalarRead(c: char, t: string)
    ensures DecodeScalar(EscapeAll(Utf8(c)) + t) == Some((c, 3 * |Utf8(c)|))
  {
    var bs := Utf8(c);
    EscapeAllAt(bs, t, 0);
    EscapeRead(bs[0], EscapeAll(bs[1..]) + t);
    if |bs| == 2 {
      ScalarReadTwo(c, t);
    } else if |bs| == 3 {
      ScalarReadThree(c, t);
    } else if |bs| == 4 {
      ScalarReadFour(c, t);
    }
  }

  lemma ScalarReadTwo(c: char, t: string)
    requires |Utf8(c)| == 2
    requires ByteAt(EscapeAll(Utf8(c)) + t) == Some(Utf8(c)[0])
    ensures DecodeScalar(EscapeAll(Utf8(c)) + t) == Some((c, 6))
  {
    ContinuationRead(Utf8(c), t, 1);
    Utf8Value(c);
  }

  lemma ScalarReadThree(c: char, t: string)
    requires |Utf8(c)| == 3
    requires ByteAt(EscapeAll(Utf8(c)) + t) == Some(Utf8(c)[0])
    ensures DecodeScalar(EscapeAll(Utf8(c)) + t) == Some((c, 9))
  {
    var bs := Utf8(c);
    Utf8ValueThree(c);
    ContinuationRead(bs, t, 1);
    ContinuationRead(bs, t, 2);
  }

  lemma Utf8ValueThree(c: char)
    requires |Utf8(c)| == 3
    ensures var bs := Utf8(c);
      && 0xE0 <= bs[0] < 0xF0 && 0x80 <= bs[1] < 0xC0 && 0x80 <= bs[2] < 0xC0
      && (bs[0] - 0xE0) * 0x1000 + (bs[1] - 0x80) * 0x40 + (bs[2] - 0x80) == c as int
  {
    Utf8Value(c);
  }

  lemma ScalarReadFour(c: char, t: string)
    requires |Utf8(c)| == 4
    requires ByteAt(EscapeAll(Utf8(c)) + t) == Some(Utf8(c)[0])
    ensures DecodeScalar(EscapeAll(Utf8(c)) + t) == Some((c, 12))
  {
    Utf8ValueFour(c);
    ReadFour(Utf8(c), t);
  }

  /** The escapes of a four-byte sequence read back as the value its
      payload bits spell. */
  lemma ReadFour(bs: seq<int>, t: string)
    requires Bytes(bs) && |bs| == 4
    requires 0xF0 <= bs[0] < 0xF8 && 0x80 <= bs[1] < 0xC0 && 0x80 <= bs[2] < 0xC0 && 0x80 <= bs[3] < 0xC0
    requires ByteAt(EscapeAll(bs) + t) == Some(bs[0])
    ensures DecodeScalar(EscapeAll(bs) + t)
         == Scalar((bs[0] - 0xF0) * 0x4_0000 + (bs[1] - 0x80) * 0x1000 + (bs[2] - 0x80) * 0x40 + (bs[3] - 0x80), 12)
  {
    ContinuationRead(bs, t, 1);
    ContinuationRead(bs, t, 2);
    ContinuationRead(bs, t, 3);
    DecodeFour(EscapeAll(bs) + t, bs[0], bs[1] - 0x80, bs[2] - 0x80, bs[3] - 0x80);
  }

  /** A four-byte lead followed by three continuation bytes. */
  lemma DecodeFour(s: string, b0: int, b1: int, b2: int, b3: int)
    requires ByteAt(s) == Some(b0) && 0xF0 <= b0 < 0xF8
    requires Continuation(s, 1) == Some(b1) && Continuation(s, 2) == Some(b2) && Continuation(s, 3) == Some(b3)
    ensures DecodeScalar(s) == Scalar((b0 - 0xF0) * 0x4_0000 + b1 * 0x1000 + b2 * 0x40 + b3, 12)
  {
  }

  lemma Utf8ValueFour(c: char)
    requires |Utf8(c)| == 4
    ensures var bs := Utf8(c);
      && 0xF0 <= bs[0] < 0xF8 && 0x80 <= bs[1] < 0xC0 && 0x80 <= bs[2] < 0xC0 && 0x80 <= bs[3] < 0xC0
      && (bs[0] - 0xF0) * 0x4_0000 + (bs[1] - 0x80) * 0x1000 + (bs[2] - 0x80) * 0x40 + (bs[3] - 0x80) == c as int
  {
    Utf8Value(c);
  }

  /** The bytes' payload bits put back together give the scalar value, and
      the lead byte announces the length. */
  lemma Utf8Value(c: char)
    ensures var bs := Utf8(c); var n := c as int;
      && (|bs| == 2 ==>
            && 0xC0 <= bs[0] < 0xE0 && 0x80 <= bs[1] < 0xC0
            && (bs[0] - 0xC0) * 0x40 + (bs[1] - 0x80) == n)
      && (|bs| == 3 ==>
            && 0xE0 <= bs[0] < 0xF0 && 0x80 <= bs[1] < 0xC0 && 0x80 <= bs[2] < 0xC0
            && (bs[0] - 0xE0) * 0x1000 + (bs[1] - 0x80) * 0x40 + (bs[2] - 0x80) == n)
      && (|bs| == 4 ==>
            && 0xF0 <= bs[0] < 0xF8 && 0x80 <= bs[1] < 0xC0 && 0x80 <= bs[2] < 0xC0 && 0x80 <= bs[3] < 0xC0
            && (bs[0] - 0xF0) * 0x4_0000 + (bs[1] - 0x80) * 0x1000 + (bs[2] - 0x80) * 0x40 + (bs[3] - 0x80) == n)
  {
    var n := c as int;
    if n >= 0x800 {
      ShiftSix(n, 0x40);
    }
    if n >= 0x1_0000 {
      ShiftSix(n, 0x1000);
    }
  }

  /** Dropping six more bits: `n / (64 * d)` is `(n / d) / 64`, so `n / d`
      splits into its high part and its low six bits. */
  lemma ShiftSix(n: int, d: int)
    requires n >= 0 && (d == 0x40 || d == 0x1000)
    ensures n / d == (n / (d * 0x40)) * 0x40 + (n / d) % 0x40
  {
    var q := n / d;
    var r := n % d;
    var q2 := q / 0x40;
    var r2 := q % 0x40;
    assert n == (d * 0x40) * q2 + (d * r2 + r);
    assert 0 <= d * r2 + r < d * 0x40;
  }

  /** Decoding consumes exactly the encoding of the first character. */
  lemma DecodeCharThen(style: Style, c: char, t: string)
    ensures Decode(style, EncodeChar(style, c) + t)
         == (match Decode(style, t) case Some(r) => Some([c] + r) case None => None)
  {
    var e := EncodeChar(style, c);
    var s := e + t;
    if Safe(style, c) {
      assert s[0] == c && s[1..] == t;
    } else if style == Form && c == ' ' {
      assert s[0] == '+' && s[1..] == t;
    } else {
      ScalarRead(c, t);
      assert s[3 * |Utf8(c)|..] == t;
      EscapeAllAt(Utf8(c), t, 0);
    }
  }

  /** Decoding inverts encoding, in both styles. */
  lemma {:induction false} DecodeEncode(style: Style, s: string)
    ensures Decode(style, Encode(style, s)) == Some(s)
  {
    if |s| > 0 {
      DecodeEncode(style, s[1..]);
      DecodeCharThen(style, s[0], Encode(style, s[1..]));
      assert [s[0]] + s[1..] == s;
    }
  }

  /** Hence distinct texts never share an encoding. */
  lemma EncodeInjective(style: Style, a: string, b: string)
    requires Encode(style, a) == Encode(style, b)
    ensures a == b
  {
    DecodeEncode(style, a);
    DecodeEncode(style, b);
  }
}

=== FILE: Query.dfy ===
/** Query strings `name=value&name=value`: the assembler the client and the
    URL builders share, with the value encoder as a parameter, and a parser
    that takes an assembled string apart again. */
module Query {
  import opened Base
  import opened Text
  import opened Percent

  /** A parameter: name and (unencoded) value. */
  type Param = (string, string)

  /** A name written verbatim must not hold a delimiter. */
  predicate PlainName(name: string) {
    '&' !in name && '=' !in name
  }

  predicate PlainNames(ps: seq<Param>) {
    forall i :: 0 <= i < |ps| ==> PlainName(ps[i].0)
  }

  /** `name=encode(value)`. */
  function Field(style: Style, p: Param): (f: string)
    requires PlainName(p.0)
    ensures '&' !in f
  {
    EncodeNoDelimiters(style, p.1);
    p.0 + "=" + Encode(style, p.1)
  }

  function Fields(style: Style, ps: seq<Param>): (fs: seq<string>)
    requires PlainNames(ps)
    ensures |fs| == |ps|
    ensures forall i :: 0 <= i < |ps| ==> fs[i] == Field(style, ps[i])
  {
    if |ps| == 0 then [] else [Field(style, ps[0])] + Fields(style, ps[1..])
  }

  /** The fields joined with `&`; empty exactly when there are no
      parameters. */
  function Assemble(style: Style, ps: seq<Param>): (r: string)
    requires PlainNames(ps)
    ensures r == "" <==> |ps| == 0
  {
    FieldsJoinNonEmpty(style, ps);
    Join(Fields(style, ps), "&")
  }

  lemma FieldsJoinNonEmpty(style: Style, ps: seq<Param>)
    requires PlainNames(ps)
    ensures Join(Fields(style, ps), "&") == "" <==> |ps| == 0
  {
    var fs := Fields(style, ps);
    if |ps| > 0 {
      assert fs[0][|ps[0].0|] == '=';
      JoinHolds(fs, "&", '=');
    }
  }

  /** One parameter is one field. */
  lemma AssembleOne(style: Style, a: Param)
    requires PlainName(a.0)
    ensures Assemble(style, [a]) == Field(style, a)
  {
    assert Fields(style, [a]) == [Field(style, a)];
  }

  /** Two parameters are two fields and one `&`. */
  lemma AssembleTwo(style: Style, a: Param, b: Param)
    requires PlainName(a.0) && PlainName(b.0)
    ensures Assemble(style, [a, b]) == Field(style, a) + "&" + Field(style, b)
  {
    var fs := Fields(style, [a, b]);
    assert fs[1..] == [fs[1]];
    assert Join(fs[1..], "&") == fs[1];
    assert Join(fs, "&") == fs[0] + "&" + fs[1];
  }

  /** A character every piece holds survives the join. */
  lemma {:induction false} JoinHolds(parts: seq<string>, sep: string, c: char)
    requires |parts| > 0 && c in parts[0]
    ensures c in Join(parts, sep)
  {
    if |parts| > 1 {
      assert Join(parts, sep) == parts[0] + (sep + Join(parts[1..], sep));
    }
  }

  /** Reading one field back: the text before the one `=` is the name, the
      text after it decodes to the value. */
  function ParseField(style: Style, f: string): (p: Option<Param>)
    ensures p.Some? ==> '=' !in p.value.0
  {
    var parts := Split(f, '=');
    if |parts| != 2 then None
    else
      match Decode(style, parts[1])
      case Some(v) => Some((parts[0], v))
      case None => None
  }

  function ParseFields(style: Style, fs: seq<string>): (r: Option<seq<Param>>)
    ensures r.Some? ==> |r.value| == |fs|
  {
    if |fs| == 0 then Some([])
    else
      match (ParseField(style, fs[0]), ParseFields(style, fs[1..]))
      case (Some(p), Some(rest)) => Some([p] + rest)
      case _ => None
  }

  /** The parser: `None` when some field is malformed. */
  function Parse(style: Style, s: string): (r: Option<seq<Param>>)
  {
    if s == "" then Some([]) else ParseFields(style, Split(s, '&'))
  }

  lemma ParseFieldOf(style: Style, p: Param)
    requires PlainName(p.0)
    ensures ParseField(style, Field(style, p)) == Some(p)
  {
    var e := Encode(style, p.1);
    EncodeNoDelimiters(style, p.1);
    assert Join([p.0, e], "=") == p.0 + "=" + e;
    SplitJoin([p.0, e], '=');
    DecodeEncode(style, p.1);
  }

  lemma {:induction false} ParseFieldsOf(style: Style, ps: seq<Param>)
    requires PlainNames(ps)
    ensures ParseFields(style, Fields(style, ps)) == Some(ps)
  {
    if |ps| > 0 {
      ParseFieldOf(style, ps[0]);
      ParseFieldsOf(style, ps[1..]);
      assert Fields(style, ps)[1..] == Fields(style, ps[1..]);
      assert [ps[0]] + ps[1..] == ps;
    }
  }

  /** Parsing inverts assembly: every parameter comes back, in order, with
      its value decoded. */
  lemma ParseAssemble(style: Style, ps: seq<Param>)
    requires PlainNames(ps)
    ensures Parse(style, Assemble(style, ps)) == Some(ps)
  {
    if |ps| > 0 {
      var fs := Fields(style, ps);
      SplitJoin(fs, '&');
      ParseFieldsOf(style, ps);
    }
  }
}

=== FILE: RateLimiter.dfy ===
/** The client-side sliding-window rate limiter that every API request goes
    through. Time is an explicit `now` in milliseconds; a `setTimeout` or an
    `await` on a timer becomes a recorded wake-up time that a later step with a
    larger `now` acts on. Requests are opaque numbers. */
module RateLimiter {
  import opened Base

  const PerMinute: nat := 59
  const PerDay: nat := 2000
  const Minute: int := 60 * 1000
  const Day: int := 24 * 60 * 60 * 1000

  /** The intended spacing between requests, `MINUTE_MS / REQUESTS_PER_MINUTE`. */
  const Spacing: real := (Minute as real) / (PerMinute as real)

  /** JavaScript's `%` on integers: the remainder has the sign of the dividend. */
  function JsRem(a: int, b: int): (r: int)
    requires b > 0
    ensures -b < r < b
    ensures a >= 0 ==> 0 <= r
    ensures a <= 0 ==> r <= 0
    ensures exists q :: a == q * b + r
  {
    if a >= 0 then
      assert a == (a / b) * b + a % b;
      a % b
    else
      assert -a == ((-a) / b) * b + (-a) % b;
      assert a == (-((-a) / b)) * b + -((-a) % b);
      -((-a) % b)
  }

  /** The timestamps `t` with `now - t < span`, in their original order
      (`ts.filter(t => now - t < span)`). */
  function KeepRecent(ts: seq<int>, now: int, span: int): (r: seq<int>)
    ensures |r| <= |ts|
    ensures forall t :: t in r <==> t in ts && now - t < span
  {
    if |ts| == 0 then []
    else
      var init := KeepRecent(ts[..|ts| - 1], now, span);
      assert ts == ts[..|ts| - 1] + [ts[|ts| - 1]];
      if now - ts[|ts| - 1] < span then init + [ts[|ts| - 1]] else init
  }

  /** Filtering the extended list filters the old one and then the new element. */
  lemma KeepRecentAppend(ts: seq<int>, x: int, now: int, span: int)
    ensures KeepRecent(ts + [x], now, span)
         == KeepRecent(ts, now, span) + (if now - x < span then [x] else [])
  {
    assert (ts + [x])[..|ts|] == ts;
  }

  /** When every timestamp is recent, filtering keeps them all. */
  lemma {:induction false} KeepRecentAll(ts: seq<int>, now: int, span: int)
    requires forall i :: 0 <= i < |ts| ==> now - ts[i] < span
    ensures KeepRecent(ts, now, span) == ts
  {
    if |ts| > 0 {
      KeepRecentAll(ts[..|ts| - 1], now, span);
      assert ts[..|ts| - 1] + [ts[|ts| - 1]] == ts;
    }
  }

  predicate Sorted(ts: seq<int>) {
    forall i, j :: 0 <= i < j < |ts| ==> ts[i] <= ts[j]
  }

  /** Filtering keeps a sorted list sorted. */
  lemma {:induction false} KeepRecentSorted(ts: seq<int>, now: int, span: int)
    requires Sorted(ts)
    ensures Sorted(KeepRecent(ts, now, span))
  {
    if |ts| > 0 {
      var init := ts[..|ts| - 1];
      KeepRecentSorted(init, now, span);
      var k := KeepRecent(init, now, span);
      forall i | 0 <= i < |k| ensures k[i] <= ts[|ts| - 1] {
        assert k[i] in init;
      }
    }
  }

  /** How many of `ts` fall in the minute ending at `u`: `u - MINUTE_MS < t <= u`.
      This is the quantity a per-minute cap is about. */
  function WindowCount(ts: seq<int>, u: int): (n: nat)
    ensures n <= |ts|
  {
    if |ts| == 0 then 0
    else WindowCount(ts[..|ts| - 1], u) + (if u - Minute < ts[|ts| - 1] <= u then 1 else 0)
  }

  lemma WindowCountAppend(ts: seq<int>, x: int, u: int)
    ensures WindowCount(ts + [x], u) == WindowCount(ts, u) + (if u - Minute < x <= u then 1 else 0)
  {
    assert (ts + [x])[..|ts|] == ts;
  }

  /** With no timestamp in the future, the pruned list's length is the number
      of requests in the trailing minute. */
  lemma {:induction false} KeepRecentCountsWindow(ts: seq<int>, now: int)
    requires forall i :: 0 <= i < |ts| ==> ts[i] <= now
    ensures |KeepRecent(ts, now, Minute)| == WindowCount(ts, now)
  {
    if |ts| > 0 {
      KeepRecentCountsWindow(ts[..|ts| - 1], now);
    }
  }

  /** With no timestamp after `now`, a later minute holds no more of them than
      the minute ending at `now`. */
  lemma {:induction false} WindowCountLater(ts: seq<int>, now: int, u: int)
    requires forall i :: 0 <= i < |ts| ==> ts[i] <= now
    requires now <= u
    ensures WindowCount(ts, u) <= WindowCount(ts, now)
  {
    if |ts| > 0 {
      WindowCountLater(ts[..|ts| - 1], now, u);
    }
  }

  /** How many of `ts` are at or after `bound` (`ts.filter(t => t >= bound).length`). */
  function CountAtLeast(ts: seq<int>, bound: int): (n: nat)
    ensures n <= |ts|
  {
    if |ts| == 0 then 0
    else CountAtLeast(ts[1..], bound) + (if ts[0] >= bound then 1 else 0)
  }

  /** The start of the current UTC day, `now - (now % DAY_MS)`. */
  function DayStart(now: int): (r: int)
    ensures now >= 0 ==> r <= now < r + Day
  {
    now - JsRem(now, Day)
  }

  /** The outcome of `canMakeRequest`: the list it leaves behind and its verdict. */
  datatype Check = Check(pruned: seq<int>, ok: bool)

  /** `canMakeRequest` at time `now`: prune to the trailing minute, then refuse
      when 59 remain. The per-day test runs on the pruned list, which by then
      holds fewer than 59 entries, so it never refuses anything. */
  function CanMakeRequest(ts: seq<int>, now: int): (c: Check)
    ensures c.pruned == KeepRecent(ts, now, Minute)
    ensures c.ok <==> |c.pruned| < PerMinute
  {
    var pruned := KeepRecent(ts, now, Minute);
    if |pruned| >= PerMinute then Check(pruned, false)
    else if CountAtLeast(pruned, DayStart(now)) >= PerDay then Check(pruned, false)
    else Check(pruned, true)
  }

  /** `getDelayUntilNextRequest` at time `now`, in milliseconds. It only
      looks at the oldest timestamp: the wait is whatever remains of one
      spacing interval after it, and nothing once it is a minute old. */
  function DelayUntilNext(ts: seq<int>, now: int): (d: real)
    ensures d >= 0.0
    ensures |ts| == 0 || now - ts[0] >= Minute ==> d == 0.0
    ensures d > 0.0 <==> |ts| > 0 && now - ts[0] < Minute && (now as real) < ts[0] as real + Spacing
    ensures d > 0.0 ==> now as real + d == ts[0] as real + Spacing
    ensures |ts| > 0 && ts[0] <= now ==> d <= Spacing
  {
    if |ts| == 0 then 0.0
    else if now - ts[0] >= Minute then 0.0
    else MaxReal(0.0, ts[0] as real + Spacing - now as real)
  }

  /** `recordRequest` at time `now`: `now` becomes the newest entry and only
      the last two minutes are kept. */
  function Record(ts: seq<int>, now: int): (r: seq<int>)
    ensures |r| >= 1 && r[|r| - 1] == now
    ensures forall t :: t in r <==> (t in ts && now - t < 2 * Minute) || t == now
  {
    KeepRecentAppend(ts, now, now, 2 * Minute);
    KeepRecent(ts + [now], now, 2 * Minute)
  }

  /** Under a clock that never goes backwards the list stays sorted, so its
      first element is the oldest. */
  lemma RecordSorted(ts: seq<int>, now: int)
    requires Sorted(ts)
    requires forall i :: 0 <= i < |ts| ==> ts[i] <= now
    ensures Sorted(Record(ts, now))
  {
    assert Sorted(ts + [now]);
    KeepRecentSorted(ts + [now], now, 2 * Minute);
  }

  /** A queued request: the delay computed when it was queued, and when. */
  datatype Queued = Queued(req: nat, delay: real, queuedAt: int)

  /** A `setTimeout(…, delay)` started at `startedAt` that will record and
      run `req`. */
  datatype Timer = Timer(req: nat, startedAt: int, delay: real) {
    function FireAt(): real { startedAt as real + delay }
  }

  /** A request function actually invoked, and when. */
  datatype Run = Run(req: nat, at: int)

  /** The limiter's three fields plus what the event loop holds for it: the
      time the suspended draining loop sleeps until, the pending timers, and
      the history of invoked requests. */
  datatype Limiter = Limiter(
    timestamps: seq<int>,
    queue: seq<Queued>,
    processing: bool,
    wakeAt: Option<real>,
    timers: seq<Timer>,
    runs: seq<Run>)

  function Fresh(): (s: Limiter)
    ensures s.timestamps == [] && s.queue == [] && !s.processing && s.timers == [] && s.runs == []
  {
    Limiter([], [], false, None, [], [])
  }

  /** The times at which requests were invoked, in order. */
  function RunTimes(runs: seq<Run>): (r: seq<int>)
    ensures |r| == |runs|
    ensures forall i :: 0 <= i < |runs| ==> r[i] == runs[i].at
  {
    if |runs| == 0 then [] else RunTimes(runs[..|runs| - 1]) + [runs[|runs| - 1].at]
  }

  lemma RunTimesAppend(runs: seq<Run>, x: Run)
    ensures RunTimes(runs + [x]) == RunTimes(runs) + [x.at]
  {
    assert (runs + [x])[..|runs|] == runs;
  }

  /** The timers started at `now` for the requests `qs`, one each, in order,
      each with the delay computed when it was queued. */
  function TimersFor(qs: seq<Queued>, now: int): (r: seq<Timer>)
    ensures |r| == |qs|
  {
    if |qs| == 0 then [] else [Timer(qs[0].req, now, qs[0].delay)] + TimersFor(qs[1..], now)
  }

  lemma {:induction false} TimersForAt(qs: seq<Queued>, now: int)
    ensures forall k :: 0 <= k < |qs| ==> TimersFor(qs, now)[k] == Timer(qs[k].req, now, qs[k].delay)
  {
    if |qs| > 0 {
      TimersForAt(qs[1..], now);
    }
  }

  /** When the draining loop, finding the head of the queue blocked, goes to
      sleep: `canMakeRequest` refuses and the delay is positive. Otherwise it
      goes on at once, whether or not the request is allowed. */
  function SleepUntil(ts: seq<int>, now: int): (w: Option<real>)
    ensures w.Some? <==> !CanMakeRequest(ts, now).ok && DelayUntilNext(KeepRecent(ts, now, Minute), now) > 0.0
    ensures w.Some? ==> w.value > now as real
  {
    var c := CanMakeRequest(ts, now);
    var d := DelayUntilNext(c.pruned, now);
    if !c.ok && d > 0.0 then Some(now as real + d) else None
  }

  /** What one synchronous run of the draining loop did to the timestamp list
      and the queue: the requests it shifted off (`sent`), the ones left
      (`rest`), and the wake-up time if it went to sleep. */
  datatype Drained = Drained(timestamps: seq<int>, sent: seq<Queued>, rest: seq<Queued>, wakeAt: Option<real>)

  /** The `while` loop of `processQueue` at time `now`: each turn prunes,
      possibly sleeps, and otherwise shifts the head and records `now`. It is
      first-in first-out: what leaves is a prefix of the queue. */
  function DrainQueue(ts: seq<int>, queue: seq<Queued>, now: int): (d: Drained)
    ensures queue == d.sent + d.rest
    ensures d.wakeAt.Some? <==> |d.rest| > 0
    ensures d.wakeAt.Some? ==> d.wakeAt.value > now as real
    decreases |queue|
  {
    if |queue| == 0 then Drained(ts, [], [], None)
    else
      match SleepUntil(ts, now)
      case Some(w) => Drained(KeepRecent(ts, now, Minute), [], queue, Some(w))
      case None =>
        var d := DrainQueue(Record(KeepRecent(ts, now, Minute), now), queue[1..], now);
        PrependJoin(queue[0], d.sent, d.rest);
        assert queue == [queue[0]] + queue[1..];
        d.(sent := [queue[0]] + d.sent)
  }

  lemma PrependJoin<T>(x: T, a: seq<T>, b: seq<T>)
    ensures [x] + a + b == [x] + (a + b)
  {
  }

  /** The loop run on the whole limiter. Nothing is invoked directly: each
      request shifted off only starts its timer, in queue order, with the
      delay computed when it was queued (not a fresh one). */
  function Drain(s: Limiter, now: int): (r: Limiter)
    ensures r.runs == s.runs
    ensures r.processing <==> r.wakeAt.Some?
    ensures r.processing ==> |r.queue| > 0
    ensures !r.processing ==> r.queue == []
    ensures exists sent :: s.queue == sent + r.queue && r.timers == s.timers + TimersFor(sent, now)
  {
    var d := DrainQueue(s.timestamps, s.queue, now);
    var r := s.(timestamps := d.timestamps, queue := d.rest, processing := d.wakeAt.Some?,
                wakeAt := d.wakeAt, timers := s.timers + TimersFor(d.sent, now));
    assert s.queue == d.sent + r.queue && r.timers == s.timers + TimersFor(d.sent, now);
    r
  }

  /** `processQueue` at time `now`: a no-op while the loop is already running
      (or suspended) or when there is nothing queued. */
  function ProcessQueue(s: Limiter, now: int): (r: Limiter)
    ensures s.processing || |s.queue| == 0 ==> r == s
    ensures r.runs == s.runs
    ensures !s.processing && |s.queue| > 0 ==>
      exists sent :: |sent| + |r.queue| == |s.queue| && r.timers == s.timers + TimersFor(sent, now)
  {
    if s.processing || |s.queue| == 0 then s else Drain(s.(processing := true), now)
  }

  /** `executeRequest` at time `now` for request `req`. When `canMakeRequest`
      allows it the request is recorded once and invoked at once, and the
      queue is untouched; otherwise it is queued with the delay computed now
      and nothing is invoked. */
  function ExecuteRequest(s: Limiter, req: nat, now: int): (r: Limiter)
    ensures var pruned := KeepRecent(s.timestamps, now, Minute);
      && (|pruned| < PerMinute ==>
            && r.runs == s.runs + [Run(req, now)] && r.queue == s.queue && r.timers == s.timers
            && r.processing == s.processing && r.wakeAt == s.wakeAt && r.timestamps == pruned + [now])
      && (|pruned| >= PerMinute ==> r.runs == s.runs)
      && (|pruned| >= PerMinute && s.processing ==>
            r.queue == s.queue + [Queued(req, DelayUntilNext(pruned, now), now)] && r.timers == s.timers)
  {
    var c := CanMakeRequest(s.timestamps, now);
    if c.ok then
      assert forall i :: 0 <= i < |c.pruned| ==> c.pruned[i] in c.pruned;
      KeepRecentAll(c.pruned + [now], now, 2 * Minute);
      s.(timestamps := Record(c.pruned, now), runs := s.runs + [Run(req, now)])
    else
      var q := Queued(req, DelayUntilNext(c.pruned, now), now);
      ProcessQueue(s.(timestamps := c.pruned, queue := s.queue + [q]), now)
  }

  /** The head of the queue leaves without a check: it is shifted off, `now`
      is recorded and its timer starts. */
  function Dispatch(s: Limiter, now: int): (r: Limiter)
    requires |s.queue| > 0
    ensures r.queue == s.queue[1..]
    ensures r.timers == s.timers + [Timer(s.queue[0].req, now, s.queue[0].delay)]
    ensures r.timestamps == Record(s.timestamps, now)
    ensures r.runs == s.runs && r.processing == s.processing && r.wakeAt == s.wakeAt
  {
    var q := s.queue[0];
    s.(queue := s.queue[1..], timestamps := Record(s.timestamps, now),
       timers := s.timers + [Timer(q.req, now, q.delay)])
  }

  /** The sleeping loop resumes at `now`, if its timer is due. After waking
      it does not ask `canMakeRequest` again: the head of the queue is sent
      straight away, and only then does the loop check again. */
  function Wake(s: Limiter, now: int): (r: Limiter)
    ensures s.wakeAt.None? || (now as real) < s.wakeAt.value ==> r == s
    ensures r.runs == s.runs
    ensures s.wakeAt.Some? && (now as real) >= s.wakeAt.value && |s.queue| > 0 ==>
      |r.timers| > |s.timers| && r.timers[|s.timers|] == Timer(s.queue[0].req, now, s.queue[0].delay)
  {
    match s.wakeAt
    case None => s
    case Some(w) =>
      if (now as real) < w then s
      else
        var s1 := s.(wakeAt := None);
        if |s1.queue| == 0 then s1.(processing := false)
        else
          var s2 := Dispatch(s1, now);
          var r := Drain(s2, now);
          assert r.timers[|s.timers|] == s2.timers[|s.timers|];
          r
  }

  /** The `i`-th pending timer fires at `now`, if it is due: the request's
      timestamp is recorded (a second time) and the request is invoked. */
  function FireTimer(s: Limiter, i: nat, now: int): (r: Limiter)
    ensures i >= |s.timers| || (now as real) < s.timers[i].FireAt() ==> r == s
    ensures i < |s.timers| && (now as real) >= s.timers[i].FireAt() ==>
      && r.runs == s.runs + [Run(s.timers[i].req, now)]
      && r.timers == s.timers[..i] + s.timers[i + 1..]
      && r.timestamps == Record(s.timestamps, now)
      && r.queue == s.queue && r.processing == s.processing
  {
    if i >= |s.timers| then s
    else
      var t := s.timers[i];
      if (now as real) < t.FireAt() then s
      else
        s.(timers := s.timers[..i] + s.timers[i + 1..], timestamps := Record(s.timestamps, now),
           runs := s.runs + [Run(t.req, now)])
  }

  /** A queued request is recorded twice: once when the loop sends it and
      again when its timer fires. */
  lemma QueuedRequestRecordedTwice(s: Limiter, now: int, later: int)
    requires |s.queue| > 0
    requires now <= later < now + 2 * Minute
    requires later as real >= now as real + s.queue[0].delay
    ensures var d := Dispatch(s, now);
      var f := FireTimer(d, |d.timers| - 1, later);
      && f.runs == s.runs + [Run(s.queue[0].req, later)]
      && |f.timestamps| >= 2 && f.timestamps[|f.timestamps| - 2..] == [now, later]
  {
    var d := Dispatch(s, now);
    var ts := d.timestamps;
    assert ts == ts[..|ts| - 1] + [now];
    KeepRecentAppend(ts[..|ts| - 1] + [now], later, later, 2 * Minute);
    KeepRecentAppend(ts[..|ts| - 1], now, later, 2 * Minute);
  }

  /** `getRequestCount`: prunes to the trailing minute and counts. */
  function GetRequestCount(s: Limiter, now: int): (r: (Limiter, nat))
    ensures r.0 == s.(timestamps := KeepRecent(s.timestamps, now, Minute))
    ensures r.1 == |r.0.timestamps|
    ensures (forall i :: 0 <= i < |s.timestamps| ==> s.timestamps[i] <= now) ==>
      r.1 == WindowCount(s.timestamps, now)
  {
    var pruned := KeepRecent(s.timestamps, now, Minute);
    if forall i :: 0 <= i < |s.timestamps| ==> s.timestamps[i] <= now then
      KeepRecentCountsWindow(s.timestamps, now);
      (s.(timestamps := pruned), |pruned|)
    else
      (s.(timestamps := pruned), |pruned|)
  }

  /** `reset`: both lists emptied; the `processingQueue` flag, a sleeping
      loop and pending timers are left as they are. */
  function Reset(s: Limiter): (r: Limiter)
    ensures r.timestamps == [] && r.queue == []
    ensures r.processing == s.processing && r.wakeAt == s.wakeAt
    ensures r.timers == s.timers && r.runs == s.runs
  {
    s.(timestamps := [], queue := [])
  }

  // ---------------------------------------------------------------------
  // The per-minute cap does not hold. Once the oldest recorded timestamp is
  // more than one spacing interval old, the computed delay is 0, so a
  // refused request is neither slept on nor re-checked: the loop sends it at
  // once and its timer fires at once. Below, 59 requests at time 0 and then
  // any number more at time 5000 all run within the same minute.
  // ---------------------------------------------------------------------

  /** Nothing queued, pending or sleeping, and every timestamp and run
      between 0 and 5000. */
  predicate Quiet(s: Limiter) {
    && s.queue == [] && !s.processing && s.wakeAt.None? && s.timers == []
    && (forall i :: 0 <= i < |s.timestamps| ==> 0 <= s.timestamps[i] <= 5000)
    && (forall i :: 0 <= i < |s.runs| ==> 0 <= s.runs[i].at <= 5000)
  }

  /** `n` requests issued at time 0 on a fresh limiter. */
  function Burst(n: nat): Limiter {
    if n == 0 then Fresh() else ExecuteRequest(Burst(n - 1), n - 1, 0)
  }

  /** A request issued at time 0 while fewer than 59 are recorded runs at once. */
  lemma BurstStep(s: Limiter, req: nat)
    requires Quiet(s) && |s.timestamps| < PerMinute
    ensures var r := ExecuteRequest(s, req, 0);
      && Quiet(r) && r.timestamps == s.timestamps + [0] && r.runs == s.runs + [Run(req, 0)]
  {
    KeepRecentAll(s.timestamps, 0, Minute);
  }

  lemma {:induction false} BurstRunsAll(n: nat)
    requires n <= PerMinute
    ensures Quiet(Burst(n))
    ensures |Burst(n).timestamps| == n && |Burst(n).runs| == n
    ensures n > 0 ==> Burst(n).timestamps[0] == 0
  {
    if n > 0 {
      var s := Burst(n - 1);
      BurstRunsAll(n - 1);
      BurstStep(s, n - 1);
      var r := Burst(n);
      assert r == ExecuteRequest(s, n - 1, 0);
      assert Quiet(r) && r.timestamps == s.timestamps + [0] && r.runs == s.runs + [Run(n - 1, 0)];
      if n > 1 {
        assert r.timestamps[0] == s.timestamps[0];
      }
    }
  }

  /** One request issued at 5000, then its timer firing at 5000. */
  function FloodOnce(s: Limiter, req: nat): Limiter {
    FireTimer(ExecuteRequest(s, req, 5000), 0, 5000)
  }

  /** The heart of the matter: a request that `canMakeRequest` refuses, but
      whose computed delay is 0, is sent by the loop at once, and its timer
      is due at once. */
  lemma RefusedButSent(s: Limiter, req: nat, now: int)
    requires !s.processing && s.queue == []
    requires |KeepRecent(s.timestamps, now, Minute)| >= PerMinute
    requires DelayUntilNext(KeepRecent(s.timestamps, now, Minute), now) == 0.0
    ensures var r := ExecuteRequest(s, req, now);
      && r.timestamps == Record(KeepRecent(s.timestamps, now, Minute), now)
      && r.timers == s.timers + [Timer(req, now, 0.0)]
      && r.queue == [] && !r.processing && r.wakeAt.None? && r.runs == s.runs
  {
    var p := KeepRecent(s.timestamps, now, Minute);
    assert forall i :: 0 <= i < |p| ==> p[i] in p;
    KeepRecentAll(p, now, Minute);
    var q := Queued(req, 0.0, now);
    LoopSendsRefused(p, q, now);
    assert TimersFor([q], now) == [Timer(req, now, 0.0)];
  }

  /** The loop alone: a single queued request that `canMakeRequest` refuses,
      with a zero delay, is shifted off and recorded. */
  lemma LoopSendsRefused(p: seq<int>, q: Queued, now: int)
    requires KeepRecent(p, now, Minute) == p
    requires |p| >= PerMinute && DelayUntilNext(p, now) == 0.0
    ensures DrainQueue(p, [q], now) == Drained(Record(p, now), [q], [], None)
  {
    assert SleepUntil(p, now).None?;
    assert [q][1..] == [];
    assert DrainQueue(Record(p, now), [], now) == Drained(Record(p, now), [], [], None);
  }

  /** The refused request at 5000 is sent at once, with a timer due at once. */
  lemma FloodRefused(s: Limiter, req: nat)
    requires Quiet(s) && |s.timestamps| >= PerMinute && s.timestamps[0] == 0
    ensures var e := ExecuteRequest(s, req, 5000);
      && e.timestamps == s.timestamps + [5000] && e.timers == [Timer(req, 5000, 0.0)]
      && e.queue == [] && !e.processing && e.wakeAt.None? && e.runs == s.runs
  {
    var ts := s.timestamps;
    KeepRecentAll(ts, 5000, Minute);
    assert DelayUntilNext(ts, 5000) == 0.0;
    RefusedButSent(s, req, 5000);
    KeepRecentAll(ts + [5000], 5000, 2 * Minute);
  }

  /** The timer of that request fires at 5000 and invokes it. */
  lemma FloodFires(e: Limiter, req: nat)
    requires e.timers == [Timer(req, 5000, 0.0)] && e.queue == [] && !e.processing && e.wakeAt.None?
    requires forall i :: 0 <= i < |e.timestamps| ==> 0 <= e.timestamps[i] <= 5000
    requires forall i :: 0 <= i < |e.runs| ==> 0 <= e.runs[i].at <= 5000
    ensures var r := FireTimer(e, 0, 5000);
      && Quiet(r) && r.timestamps == e.timestamps + [5000] && r.runs == e.runs + [Run(req, 5000)]
  {
    var r := FireTimer(e, 0, 5000);
    assert r.timestamps == e.timestamps + [5000] by {
      KeepRecentAll(e.timestamps + [5000], 5000, 2 * Minute);
    }
    assert r.timers == [] && r.runs == e.runs + [Run(req, 5000)];
  }

  /** After at least 59 requests at time 0, one more at 5000 runs at 5000,
      and the same situation holds again. */
  lemma FloodStep(s: Limiter, req: nat)
    requires Quiet(s) && |s.timestamps| >= PerMinute && s.timestamps[0] == 0
    ensures var r := FloodOnce(s, req);
      && Quiet(r) && |r.timestamps| >= PerMinute && r.timestamps[0] == 0
      && r.runs == s.runs + [Run(req, 5000)]
  {
    FloodRefused(s, req);
    var e := ExecuteRequest(s, req, 5000);
    FloodFires(e, req);
  }

  /** Every run falls in the minute ending at `u`. */
  lemma {:induction false} WindowCountAll(ts: seq<int>, u: int)
    requires forall i :: 0 <= i < |ts| ==> u - Minute < ts[i] <= u
    ensures WindowCount(ts, u) == |ts|
  {
    if |ts| > 0 {
      WindowCountAll(ts[..|ts| - 1], u);
    }
  }

  /** A reachable history with 60 requests invoked within the one minute
      ending at 5000: 59 at time 0, then one more at 5000. `FloodStep`
      preserves its own precondition, so every further request at 5000
      adds one more. */
  lemma CapExceeded()
    ensures WindowCount(RunTimes(FloodOnce(Burst(PerMinute), PerMinute).runs), 5000) == PerMinute + 1
  {
    BurstRunsAll(PerMinute);
    FloodStep(Burst(PerMinute), PerMinute);
    var f := FloodOnce(Burst(PerMinute), PerMinute);
    QuietInWindow(f);
    WindowCountAll(RunTimes(f.runs), 5000);
  }

  lemma QuietInWindow(s: Limiter)
    requires Quiet(s)
    ensures forall i :: 0 <= i < |RunTimes(s.runs)| ==> 5000 - Minute < RunTimes(s.runs)[i] <= 5000
  {
  }

  // ---------------------------------------------------------------------
  // Corrected limiter. A request is recorded once, when it is invoked; a
  // blocked loop sleeps until the oldest request of the trailing minute
  // leaves it, and asks `canMakeRequest` again after waking. The full
  // history is kept (the source's two-minute trimming only saves space).
  // ---------------------------------------------------------------------

  datatype Paced = Paced(queue: seq<nat>, wakeAt: Option<int>, runs: seq<Run>)

  /** The corrected admission test: fewer than 59 runs in the trailing minute. */
  predicate PacedAllows(s: Paced, now: int) {
    |KeepRecent(RunTimes(s.runs), now, Minute)| < PerMinute
  }

  /** No minute ever holds more than 59 invoked requests. */
  ghost predicate Capped(runs: seq<Run>) {
    forall u :: WindowCount(RunTimes(runs), u) <= PerMinute
  }

  /** No request was invoked after `now`. */
  predicate NotAfter(runs: seq<Run>, now: int) {
    forall i :: 0 <= i < |runs| ==> runs[i].at <= now
  }

  /** Invoking one more request at `now` keeps every minute capped, provided
      the trailing minute still has room. */
  lemma RunKeepsCap(runs: seq<Run>, req: nat, now: int)
    requires Capped(runs) && NotAfter(runs, now)
    requires |KeepRecent(RunTimes(runs), now, Minute)| < PerMinute
    ensures Capped(runs + [Run(req, now)]) && NotAfter(runs + [Run(req, now)], now)
  {
    var ts := RunTimes(runs);
    KeepRecentCountsWindow(ts, now);
    RunTimesAppend(runs, Run(req, now));
    forall u ensures WindowCount(ts + [now], u) <= PerMinute {
      WindowCountAppend(ts, now, u);
      if now <= u {
        WindowCountLater(ts, now, u);
      }
    }
  }

  /** The corrected loop at `now`: while the queue is non-empty and the
      trailing minute has room, invoke the head; otherwise sleep until the
      oldest request of the trailing minute is a minute old. */
  function PacedDrain(s: Paced, now: int): (r: Paced)
    ensures |r.queue| <= |s.queue| && r.queue == s.queue[|s.queue| - |r.queue|..]
    ensures r.wakeAt.Some? <==> |r.queue| > 0
    ensures Capped(s.runs) && NotAfter(s.runs, now) ==> Capped(r.runs) && NotAfter(r.runs, now)
    decreases |s.queue|
  {
    if |s.queue| == 0 then s.(wakeAt := None)
    else
      var pruned := KeepRecent(RunTimes(s.runs), now, Minute);
      if |pruned| < PerMinute then
        var s1 := s.(queue := s.queue[1..], runs := s.runs + [Run(s.queue[0], now)]);
        var r := PacedDrain(s1, now);
        PacedRunStep(s.runs, s.queue[0], now);
        assert s.queue[1..][|s1.queue| - |r.queue|..] == s.queue[|s.queue| - |r.queue|..];
        r
      else
        assert s.queue[0..] == s.queue;
        s.(wakeAt := Some(pruned[0] + Minute))
  }

  lemma PacedRunStep(runs: seq<Run>, req: nat, now: int)
    ensures Capped(runs) && NotAfter(runs, now) && |KeepRecent(RunTimes(runs), now, Minute)| < PerMinute
      ==> Capped(runs + [Run(req, now)]) && NotAfter(runs + [Run(req, now)], now)
  {
    if Capped(runs) && NotAfter(runs, now) && |KeepRecent(RunTimes(runs), now, Minute)| < PerMinute {
      RunKeepsCap(runs, req, now);
    }
  }

  /** Corrected `executeRequest`: run at once if the trailing minute has
      room, otherwise queue and, unless a loop is asleep, start draining. */
  function PacedExecute(s: Paced, req: nat, now: int): (r: Paced)
    ensures PacedAllows(s, now) ==> r.runs == s.runs + [Run(req, now)] && r.queue == s.queue
    ensures !PacedAllows(s, now) && s.wakeAt.Some? ==> r.runs == s.runs && r.queue == s.queue + [req]
    ensures Capped(s.runs) && NotAfter(s.runs, now) ==> Capped(r.runs) && NotAfter(r.runs, now)
  {
    if PacedAllows(s, now) then
      PacedRunStep(s.runs, req, now);
      s.(runs := s.runs + [Run(req, now)])
    else if s.wakeAt.Some? then
      s.(queue := s.queue + [req])
    else
      PacedDrain(s.(queue := s.queue + [req]), now)
  }

  /** The corrected loop waking at `now`: it checks again before sending. */
  function PacedWake(s: Paced, now: int): (r: Paced)
    ensures s.wakeAt.None? || now < s.wakeAt.value ==> r == s
    ensures Capped(s.runs) && NotAfter(s.runs, now) ==> Capped(r.runs) && NotAfter(r.runs, now)
  {
    match s.wakeAt
    case None => s
    case Some(w) => if now < w then s else PacedDrain(s.(wakeAt := None), now)
  }

  /** Steps of the corrected limiter, each at a time no earlier than the
      previous one. */
  datatype Step = Execute(req: nat, at: int) | WakeUp(at: int)

  function StepTime(e: Step): int {
    match e
    case Execute(_, t) => t
    case WakeUp(t) => t
  }

  function PacedApply(s: Paced, e: Step): Paced {
    match e
    case Execute(req, t) => PacedExecute(s, req, t)
    case WakeUp(t) => PacedWake(s, t)
  }

  function PacedRun(s: Paced, steps: seq<Step>): Paced
    decreases |steps|
  {
    if |steps| == 0 then s else PacedRun(PacedApply(s, steps[0]), steps[1..])
  }

  /** Under a clock that never goes backwards, the corrected limiter never
      lets more than 59 requests run in any one minute, whatever the steps. */
  lemma {:induction false} PacedCapHolds(s: Paced, steps: seq<Step>, now: int)
    requires Capped(s.runs) && NotAfter(s.runs, now)
    requires forall i :: 0 <= i < |steps| ==> now <= StepTime(steps[i])
    requires forall i, j :: 0 <= i < j < |steps| ==> StepTime(steps[i]) <= StepTime(steps[j])
    ensures Capped(PacedRun(s, steps).runs)
    decreases |steps|
  {
    if |steps| > 0 {
      var t := StepTime(steps[0]);
      var s1 := PacedApply(s, steps[0]);
      assert NotAfter(s.runs, t);
      assert Capped(s1.runs) && NotAfter(s1.runs, t);
      PacedCapHolds(s1, steps[1..], t);
    }
  }
}

=== FILE: Reducer.dfy ===
/** The reducer shared by `useCachedSearch` and the sound-detail screen:
    a state of {data, loading, error} and the five actions both dispatch.
    The two sources write it out separately for a page and for a sound;
    their cases agree, so it is defined once, over the payload type. */
module Reducer {
  import opened Base

  datatype State<T> = State(data: Option<T>, loading: bool, error: Option<string>)

  datatype Action<T> =
    | SetCachedData(payload: T)
    | SetApiData(payload: T)
    | SetError(message: string)
    | SetLoading(flag: bool)
    | Reset
    | Unknown

  /** Both data actions show the payload and end loading without error; an
      error ends loading and keeps the data; a loading change clears the
      error; `Reset` starts over; anything else is ignored. This contract is
      the table of cases; what it guarantees over runs of actions is stated
      by `ReduceFacts` and `ReduceAllSettled`. */
  function Reduce<T>(s: State<T>, a: Action<T>): (r: State<T>)
    ensures a.SetCachedData? || a.SetApiData? ==> r == State(Some(a.payload), false, None)
    ensures a.SetError? ==> r.data == s.data && !r.loading && r.error == Some(a.message)
    ensures a.SetLoading? ==> r.data == s.data && r.loading == a.flag && r.error.None?
    ensures a.Reset? ==> r == State(None, true, None)
    ensures a.Unknown? ==> r == s
  {
    match a
    case SetCachedData(p) => s.(data := Some(p), loading := false, error := None)
    case SetApiData(p) => s.(data := Some(p), loading := false, error := None)
    case SetError(m) => s.(error := Some(m), loading := false)
    case SetLoading(flag) => s.(loading := flag, error := None)
    case Reset => State(None, true, None)
    case Unknown => s
  }

  /** An error is never shown while loading. */
  predicate Settled<T>(s: State<T>) {
    s.error.Some? ==> !s.loading
  }

  /** Every action is idempotent, and every action keeps `Settled`. */
  lemma ReduceFacts<T>(s: State<T>, a: Action<T>)
    ensures Reduce(Reduce(s, a), a) == Reduce(s, a)
    ensures Settled(s) ==> Settled(Reduce(s, a))
  {
  }

  function ReduceAll<T>(s: State<T>, actions: seq<Action<T>>): (r: State<T>)
    decreases |actions|
  {
    if |actions| == 0 then s else ReduceAll(Reduce(s, actions[0]), actions[1..])
  }

  /** `Settled` holds after any sequence of actions. */
  lemma {:induction false} ReduceAllSettled<T>(s: State<T>, actions: seq<Action<T>>)
    requires Settled(s)
    ensures Settled(ReduceAll(s, actions))
    decreases |actions|
  {
    if |actions| > 0 {
      ReduceFacts(s, actions[0]);
      ReduceAllSettled(Reduce(s, actions[0]), actions[1..]);
    }
  }

  lemma ReduceAllShort<T>(s: State<T>, a: Action<T>, b: Action<T>)
    ensures ReduceAll(s, []) == s
    ensures ReduceAll(s, [a]) == Reduce(s, a)
    ensures ReduceAll(s, [a, b]) == Reduce(Reduce(s, a), b)
  {
    assert [a][1..] == [];
    assert [a, b][1..] == [b];
    assert ReduceAll(Reduce(s, a), [b]) == ReduceAll(Reduce(Reduce(s, a), b), []) by {
      assert [b][1..] == [];
    }
  }
}

=== FILE: SearchScreen.dfy ===
/** The search screen: `performSearch` (cache first, then page 1 and a
    forward walk), the effect that runs when the URL's query or page
    changes (walk from the page on show, or search afresh), the guard of
    its page navigation, and `handleSearch`. Every run is modelled until
    the callbacks it started have all fired. */
module SearchScreen {
  import opened Base
  import opened Text
  import opened Percent
  import opened Query
  import opened Domain
  import opened SoundCache
  import opened Chain
  import opened ErrorHandler
  import opened PageNumbers
  import Freesound

  /** How far from the page on show the screen walks instead of searching. */
  const MaxNavigationDistance: int := 3
  const EmptyQueryMessage: string := "Please enter a search query"
  const SearchFailedMessage: string := "Failed to search sounds. Please try again."
  const ResultFields: string := "id,name,previews,images,username,tags,duration"

  /** The screen's state. `origin` is the query whose result chain the page
      on show belongs to (the query it was searched or stored for). `bare`
      says the page on show is a copy read back from storage, which has no
      `nextPage` or `previousPage` function. */
  datatype Screen = Screen(
    query: string,
    sounds: Option<Page>,
    origin: string,
    loading: bool,
    error: Option<string>,
    currentPage: int,
    bare: bool)

  /** The state and cache once a run has settled, and how many requests it
      sent; or, for `Crashed`, the state when the effect threw a `TypeError`.
      No error boundary catches it, so React unmounts the whole
      application. */
  datatype Settled =
    | Settled(screen: Screen, cache: Cache, requests: nat)
    | Crashed(screen: Screen, cache: Cache, requests: nat)

  /** The server's result chain for each query; a query it has no chain for
      gets an empty chain, whose first request fails. */
  type World = map<string, Server>

  function ServerOf(world: World, q: string): Server {
    if q in world then world[q] else Server([], map[])
  }

  /** Two pages are the same page when they agree apart from the response
      headers, which the cache drops. */
  predicate SamePage(a: Page, b: Page) {
    StripPage(a) == StripPage(b)
  }

  // ---------------------------------------------------------------------
  // The search request
  // ---------------------------------------------------------------------

  /** The options `performSearch` passes to `textSearch`. */
  function SearchOptions(): (ps: seq<Param>)
    ensures PlainNames(ps)
  {
    [("page_size", "10"), ("fields", ResultFields)]
  }

  /** The first request of a search is a GET of the text-search endpoint
      that asks for the query, pages of the screen's page size, and the
      fields the result list shows. */
  lemma SearchRequest(query: string)
    ensures Freesound.TextSearch(query, SearchOptions()).Get?
    ensures var opts := Freesound.TextOptions(query, SearchOptions());
      && Freesound.Lookup(opts, "query") == Some(if query == "" then " " else query)
      && Freesound.Lookup(opts, "page_size") == Some(IntToString(PageSize))
      && Freesound.Lookup(opts, "fields") == Some(ResultFields)
  {
    Freesound.TextSearchQuery(query, SearchOptions());
    PageSizeText();
  }

  lemma PageSizeText()
    ensures IntToString(PageSize) == "10"
  {
    assert NatToString(10) == NatToString(1) + [DigitChar(0)];
  }

  // ---------------------------------------------------------------------
  // performSearch
  // ---------------------------------------------------------------------

  /** `performSearch(searchQuery, page)`. A blank query only sets the error
      text. A cache hit is shown at once. Otherwise loading starts, the
      error is cleared, page 1 is requested and, for a later page with a
      `next` cursor, walked forward from; the page reached is shown and
      stored under (`searchQuery`, `page`). A failed request or hop shows
      the error text. */
  function PerformSearch(scr: Screen, c: Cache, world: World, searchQuery: string, page: int, now: int): (r: Settled)
    ensures Trim(searchQuery) == "" ==> r == Settled(scr.(error := Some(EmptyQueryMessage)), c, 0)
    ensures Trim(searchQuery) != "" ==> r.screen.currentPage == page && !r.screen.loading
    ensures r.requests == 0 <==>
      Trim(searchQuery) == "" || GetSearchResults(c, searchQuery, page, now).0.Some?
    ensures Trim(searchQuery) != "" && (r.requests == 0 || r.screen.error.None?) ==>
      r.screen.sounds.Some? && r.screen.origin == searchQuery
    ensures r.requests <= if page > 1 then page else 1
    ensures r.screen.query == scr.query
    ensures !r.Crashed?
  {
    if Trim(searchQuery) == "" then Settled(scr.(error := Some(EmptyQueryMessage)), c, 0)
    else
      var (hit, c1) := GetSearchResults(c, searchQuery, page, now);
      if hit.Some? then
        Settled(scr.(sounds := hit, origin := searchQuery, currentPage := page, loading := false,
                     bare := RestoredHit(c, searchQuery, page)), c1, 0)
      else
        var s1 := scr.(loading := true, error := None, currentPage := page);
        var server := ServerOf(world, searchQuery);
        match Fetch(server, 0)
        case Failure(e) => Settled(s1.(error := Some(ExtractErrorMessage(e, SearchFailedMessage)), loading := false), c1, 1)
        case Got(p) =>
          if page > 1 && p.next.Some? then
            match WalkForward(server, p, 1, page)
            case Broke(e, h) => Settled(s1.(error := Some(ExtractErrorMessage(e, SearchFailedMessage)), loading := false), c1, 1 + h)
            case Reached(q, _, h) =>
              Settled(s1.(sounds := Some(q), origin := searchQuery, loading := false, bare := false), SetSearchResults(c1, searchQuery, page, q, now), 1 + h)
          else
            Settled(s1.(sounds := Some(p), origin := searchQuery, loading := false, bare := false), SetSearchResults(c1, searchQuery, page, p, now), 1)
  }

  /** On a cache miss and a well-linked, reliable chain, a search shows the
      page the forward walk lands on, without error, after one request per
      page reached, and stores it under the requested page. */
  lemma PerformSearchOnSoundChain(scr: Screen, c: Cache, world: World, searchQuery: string, page: int, now: int)
    requires Trim(searchQuery) != ""
    requires var s := ServerOf(world, searchQuery); WellLinked(s.pages) && Reliable(s) && |s.pages| > 0
    requires GetSearchResults(c, searchQuery, page, now).0.None?
    ensures var pages := ServerOf(world, searchQuery).pages;
      var j := if page <= 1 then 0 else if page <= |pages| then page - 1 else |pages| - 1;
      var r := PerformSearch(scr, c, world, searchQuery, page, now);
      && r.screen == scr.(sounds := Some(pages[j]), origin := searchQuery, loading := false, error := None,
                          currentPage := page, bare := false)
      && r.requests == j + 1
      && r.cache == SetSearchResults(GetSearchResults(c, searchQuery, page, now).1, searchQuery, page, pages[j], now)
  {
    var server := ServerOf(world, searchQuery);
    FromFirstPage(server, page);
    assert Fetch(server, 0) == Got(server.pages[0]);
    if page > 1 && server.pages[0].next.Some? {
      assert 1 < |server.pages|;
    } else {
      assert page > 1 ==> |server.pages| == 1;
    }
  }

  /** The page a search shows lacks its cursor functions exactly when it
      is a cache hit on an entry read back from storage; a page the search
      fetched has them. */
  lemma PerformSearchBare(scr: Screen, c: Cache, world: World, searchQuery: string, page: int, now: int)
    ensures var r := PerformSearch(scr, c, world, searchQuery, page, now);
      && (Trim(searchQuery) != "" && r.requests == 0 ==> r.screen.bare == RestoredHit(c, searchQuery, page))
      && (r.requests > 0 && r.screen.error.None? ==> !r.screen.bare)
  {
    var r := PerformSearch(scr, c, world, searchQuery, page, now);
    if Trim(searchQuery) != "" && GetSearchResults(c, searchQuery, page, now).0.None? {
      var server := ServerOf(world, searchQuery);
      if Fetch(server, 0).Got? {
        var p := Fetch(server, 0).page;
        if page > 1 && p.next.Some? && WalkForward(server, p, 1, page).Reached? {
          assert !r.screen.bare;
        }
      }
    }
  }

  /** A cache hit is shown as it is, for the requested page, with no
      request and the cache left as the read left it. */
  lemma CacheHitShown(scr: Screen, c: Cache, world: World, searchQuery: string, page: int, now: int)
    requires Trim(searchQuery) != ""
    requires GetSearchResults(c, searchQuery, page, now).0.Some?
    ensures var hit := GetSearchResults(c, searchQuery, page, now);
      PerformSearch(scr, c, world, searchQuery, page, now)
        == Settled(scr.(sounds := hit.0, origin := searchQuery, currentPage := page, loading := false,
                        bare := RestoredHit(c, searchQuery, page)), hit.1, 0)
  {
  }

  // ---------------------------------------------------------------------
  // The URL-change effect
  // ---------------------------------------------------------------------

  /** The screen may walk from the page on show: there is one, and the
      requested page differs from it by at most the navigation distance. */
  predicate CanWalk(scr: Screen, urlPage: int) {
    && scr.sounds.Some?
    && urlPage != scr.currentPage
    && -MaxNavigationDistance <= urlPage - scr.currentPage <= MaxNavigationDistance
  }

  function DirectionTo(scr: Screen, urlPage: int): Direction {
    if urlPage > scr.currentPage then Forward else Backward
  }

  /** The effect once the query box has been synchronised: either walk
      from the page on show (committing only on arrival, and searching
      afresh when a cursor is missing or a hop fails) or search afresh.
      The walk hops through the chain the page on show belongs to. Its
      first hop calls the cursor function of the page on show, which a
      copy read back from storage does not have: the call throws. */
  function Settle(s0: Screen, c: Cache, world: World, urlQuery: string, urlPage: int, now: int, walk: bool): (r: Settled)
    requires walk ==> CanWalk(s0, urlPage)
    ensures r.screen.currentPage == urlPage
    ensures r.screen.query == s0.query
    ensures !walk ==> r == PerformSearch(s0.(currentPage := urlPage), c, world, urlQuery, urlPage, now)
    ensures r.Crashed? <==>
      walk && s0.bare && CursorOf(s0.sounds.value, DirectionTo(s0, urlPage)).Some?
  {
    if walk then
      var s1 := s0.(loading := true, currentPage := urlPage);
      if s0.bare && CursorOf(s0.sounds.value, DirectionTo(s0, urlPage)).Some? then Crashed(s1, c, 0)
      else
      Landed(s1, c, world, urlQuery, urlPage, now,
             WalkToward(ServerOf(world, s0.origin), s0.sounds.value, s0.currentPage, urlPage, DirectionTo(s0, urlPage)))
    else PerformSearch(s0.(currentPage := urlPage), c, world, urlQuery, urlPage, now)
  }

  /** The end of a walk that started on screen `s1`: the page it arrived
      at is shown and stored; after giving up, a fresh search follows and
      its requests add to the hops made. */
  function Landed(s1: Screen, c: Cache, world: World, urlQuery: string, urlPage: int, now: int, w: Stepped): (r: Settled)
    requires s1.currentPage == urlPage
    ensures r.Settled? && r.screen.query == s1.query && r.screen.currentPage == urlPage
  {
    match w
    case Arrived(p, h) =>
      Settled(s1.(sounds := Some(p), loading := false, bare := false), SetSearchResults(c, urlQuery, urlPage, p, now), h)
    case GaveUp(h) =>
      var o := PerformSearch(s1, c, world, urlQuery, urlPage, now);
      Settled(o.screen, o.cache, h + o.requests)
  }

  /** The effect on `(urlQuery, urlPage)` as written: nothing for an empty
      query; otherwise the query box takes the URL's query, and the screen
      walks whenever `CanWalk` holds, whatever query the page on show was
      found for and whether it still has its cursor functions. */
  function UrlChanged(scr: Screen, c: Cache, world: World, urlQuery: string, urlPage: int, now: int): (r: Settled)
    ensures urlQuery == "" ==> r == Settled(scr, c, 0)
    ensures urlQuery != "" ==> r.screen.query == urlQuery && r.screen.currentPage == urlPage
    ensures r.Crashed? <==>
      urlQuery != "" && CanWalk(scr, urlPage) && scr.bare && CursorOf(scr.sounds.value, DirectionTo(scr, urlPage)).Some?
  {
    if urlQuery == "" then Settled(scr, c, 0)
    else Settle(scr.(query := urlQuery), c, world, urlQuery, urlPage, now, CanWalk(scr, urlPage))
  }

  /** The effect as intended: the screen walks only from a page of the
      requested query that still has its cursor functions, and otherwise
      searches afresh; it never throws. */
  function UrlChangedSameQuery(scr: Screen, c: Cache, world: World, urlQuery: string, urlPage: int, now: int): (r: Settled)
    ensures urlQuery == "" ==> r == Settled(scr, c, 0)
    ensures urlQuery != "" ==> r.screen.query == urlQuery && r.screen.currentPage == urlPage
    ensures urlQuery != "" && (scr.origin != urlQuery || scr.bare) ==>
      r == PerformSearch(scr.(query := urlQuery, currentPage := urlPage), c, world, urlQuery, urlPage, now)
    ensures !r.Crashed?
  {
    if urlQuery == "" then Settled(scr, c, 0)
    else Settle(scr.(query := urlQuery), c, world, urlQuery, urlPage, now,
                CanWalk(scr, urlPage) && scr.origin == urlQuery && !scr.bare)
  }

  /** A page more than the navigation distance away, a request for the
      page on show, or an empty screen never hops from the page on show:
      the effect is a fresh search, which starts again from page 1. */
  lemma FarPageSearchesAfresh(scr: Screen, c: Cache, world: World, urlQuery: string, urlPage: int, now: int)
    requires urlQuery != ""
    requires scr.sounds.None? || urlPage == scr.currentPage
      || urlPage - scr.currentPage > MaxNavigationDistance
      || scr.currentPage - urlPage > MaxNavigationDistance
    ensures UrlChanged(scr, c, world, urlQuery, urlPage, now)
      == PerformSearch(scr.(query := urlQuery, currentPage := urlPage), c, world, urlQuery, urlPage, now)
  {
  }

  /** The walk from the page on show does not read the cache: when it
      arrives, the screen and the request count do not depend on the cache,
      and the cache only gains the page reached. A walk that would arrive
      makes at least one hop, so from a copy read back from storage it
      throws at once instead. */
  lemma WalkIgnoresCache(scr: Screen, c1: Cache, c2: Cache, world: World, urlQuery: string, urlPage: int, now: int)
    requires urlQuery != "" && CanWalk(scr, urlPage)
    requires WalkToward(ServerOf(world, scr.origin), scr.sounds.value, scr.currentPage, urlPage, DirectionTo(scr, urlPage)).Arrived?
    ensures UrlChanged(scr, c1, world, urlQuery, urlPage, now).Crashed? <==> scr.bare
    ensures var p := WalkToward(ServerOf(world, scr.origin), scr.sounds.value, scr.currentPage, urlPage, DirectionTo(scr, urlPage)).page;
      var r1 := UrlChanged(scr, c1, world, urlQuery, urlPage, now);
      var r2 := UrlChanged(scr, c2, world, urlQuery, urlPage, now);
      !scr.bare ==>
      && r1.screen == r2.screen && r1.requests == r2.requests
      && r1.screen.sounds == Some(p) && !r1.screen.bare
      && r1.cache == SetSearchResults(c1, urlQuery, urlPage, p, now)
      && r2.cache == SetSearchResults(c2, urlQuery, urlPage, p, now)
  {
    assert CursorOf(scr.sounds.value, DirectionTo(scr, urlPage)).Some?;
  }

  /** A walk that gives up after `h` hops hands over to a fresh search for
      the requested page, adding its requests to the `h` hops, unless its
      first hop already throws from a copy read back from storage. */
  lemma WalkFallsBack(scr: Screen, c: Cache, world: World, urlQuery: string, urlPage: int, now: int)
    requires urlQuery != "" && CanWalk(scr, urlPage)
    requires WalkToward(ServerOf(world, scr.origin), scr.sounds.value, scr.currentPage, urlPage, DirectionTo(scr, urlPage)).GaveUp?
    ensures var h := WalkToward(ServerOf(world, scr.origin), scr.sounds.value, scr.currentPage, urlPage, DirectionTo(scr, urlPage)).hops;
      var again := PerformSearch(scr.(query := urlQuery, loading := true, currentPage := urlPage), c, world, urlQuery, urlPage, now);
      !(scr.bare && CursorOf(scr.sounds.value, DirectionTo(scr, urlPage)).Some?) ==>
        UrlChanged(scr, c, world, urlQuery, urlPage, now) == Settled(again.screen, again.cache, h + again.requests)
  {
    if !(scr.bare && CursorOf(scr.sounds.value, DirectionTo(scr, urlPage)).Some?) {
      var s0 := scr.(query := urlQuery);
      var s1 := scr.(query := urlQuery, loading := true, currentPage := urlPage);
      var w := WalkToward(ServerOf(world, scr.origin), scr.sounds.value, scr.currentPage, urlPage, DirectionTo(scr, urlPage));
      assert CanWalk(s0, urlPage) && DirectionTo(s0, urlPage) == DirectionTo(scr, urlPage);
      assert s0.(loading := true, currentPage := urlPage) == s1;
      assert UrlChanged(scr, c, world, urlQuery, urlPage, now) == Settle(s0, c, world, urlQuery, urlPage, now, true);
      assert Settle(s0, c, world, urlQuery, urlPage, now, true) == Landed(s1, c, world, urlQuery, urlPage, now, w);
    }
  }

  // ---------------------------------------------------------------------
  // What the screen shows
  // ---------------------------------------------------------------------

  /** The page on show is the `currentPage`-th page of the chain of the
      query it belongs to. */
  predicate Showing(scr: Screen, world: World) {
    scr.sounds.Some? ==>
      && scr.origin in world
      && 1 <= scr.currentPage <= |world[scr.origin].pages|
      && SamePage(scr.sounds.value, world[scr.origin].pages[scr.currentPage - 1])
  }

  /** Every chain of the world is well-linked and reliable. */
  predicate Sound(world: World) {
    forall q :: q in world ==> WellLinked(world[q].pages) && Reliable(world[q])
  }

  /** The cache's answer for (`q`, `page`), if any, is that page. */
  predicate Truthful(c: Cache, world: World, q: string, page: int, now: int) {
    var hit := GetSearchResults(c, q, page, now).0;
    hit.Some? ==> q in world && 1 <= page <= |world[q].pages| && SamePage(hit.value, world[q].pages[page - 1])
  }

  /** With the walk restricted to pages of the requested query that still
      have their cursor functions, the effect never throws and keeps
      `Showing`: it ends showing the requested page of the requested query,
      whichever way it got there. */
  lemma SameQueryShowsRequestedPage(scr: Screen, c: Cache, world: World, urlQuery: string, urlPage: int, now: int)
    requires Sound(world) && Showing(scr, world) && Truthful(c, world, urlQuery, urlPage, now)
    requires Trim(urlQuery) != "" && urlQuery in world && 1 <= urlPage <= |world[urlQuery].pages|
    ensures var r := UrlChangedSameQuery(scr, c, world, urlQuery, urlPage, now);
      && !r.Crashed?
      && r.screen.sounds.Some?
      && SamePage(r.screen.sounds.value, world[urlQuery].pages[urlPage - 1])
      && r.screen.origin == urlQuery
      && !r.screen.loading
      && Showing(r.screen, world)
  {
    if CanWalk(scr, urlPage) && scr.origin == urlQuery && !scr.bare {
      WalkShowsRequestedPage(scr, c, world, urlQuery, urlPage, now);
    } else {
      FreshShowsRequestedPage(scr.(query := urlQuery, currentPage := urlPage), c, world, urlQuery, urlPage, now);
    }
  }

  /** The searching case: a truthful cache hit or a search on the sound
      chain shows the requested page. */
  lemma FreshShowsRequestedPage(s1: Screen, c: Cache, world: World, urlQuery: string, urlPage: int, now: int)
    requires Sound(world) && Truthful(c, world, urlQuery, urlPage, now)
    requires Trim(urlQuery) != "" && urlQuery in world && 1 <= urlPage <= |world[urlQuery].pages|
    ensures var r := PerformSearch(s1, c, world, urlQuery, urlPage, now);
      && !r.Crashed?
      && r.screen.sounds.Some?
      && SamePage(r.screen.sounds.value, world[urlQuery].pages[urlPage - 1])
      && r.screen.origin == urlQuery
      && !r.screen.loading
      && Showing(r.screen, world)
  {
    var r := PerformSearch(s1, c, world, urlQuery, urlPage, now);
    var hit := GetSearchResults(c, urlQuery, urlPage, now);
    var shown: Page;
    if hit.0.None? {
      PerformSearchOnSoundChain(s1, c, world, urlQuery, urlPage, now);
      shown := ServerOf(world, urlQuery).pages[urlPage - 1];
    } else {
      CacheHitShown(s1, c, world, urlQuery, urlPage, now);
      shown := hit.0.value;
    }
    ShowingOf(r.screen, world, urlQuery, urlPage, shown);
  }

  /** A screen showing `p` as page `n` of `q` keeps `Showing` when `p` is
      that page of the chain. */
  lemma ShowingOf(scr: Screen, world: World, q: string, n: int, p: Page)
    requires scr.sounds == Some(p) && scr.origin == q && scr.currentPage == n
    requires q in world && 1 <= n <= |world[q].pages| && SamePage(p, world[q].pages[n - 1])
    ensures Showing(scr, world)
  {
  }

  /** The walking case: from a page of the requested query's chain that
      still has its cursor functions, the walk arrives at the requested
      page. */
  lemma WalkShowsRequestedPage(scr: Screen, c: Cache, world: World, urlQuery: string, urlPage: int, now: int)
    requires Sound(world) && Showing(scr, world)
    requires urlQuery != "" && urlQuery in world && 1 <= urlPage <= |world[urlQuery].pages|
    requires CanWalk(scr, urlPage) && scr.origin == urlQuery && !scr.bare
    ensures var r := UrlChangedSameQuery(scr, c, world, urlQuery, urlPage, now);
      && !r.Crashed?
      && r.screen.sounds.Some?
      && SamePage(r.screen.sounds.value, world[urlQuery].pages[urlPage - 1])
      && r.screen.origin == urlQuery
      && !r.screen.loading
      && Showing(r.screen, world)
  {
    var data := scr.sounds.value;
    var pages := world[urlQuery].pages;
    assert data.next == pages[scr.currentPage - 1].next && data.previous == pages[scr.currentPage - 1].previous;
    WalkTowardArrives(world[urlQuery], data, scr.currentPage - 1, urlPage, DirectionTo(scr, urlPage));
  }

  // ---------------------------------------------------------------------
  // The URL
  // ---------------------------------------------------------------------

  /** What the screen reads from the URL: `q` (empty when missing or
      empty) and `parseInt` of `page` (`"1"` when missing or empty),
      `None` standing for `NaN`. */
  function ReadLocation(ps: seq<Param>): (r: (string, Option<int>)) {
    var q := Freesound.Lookup(ps, "q");
    var page := Freesound.Lookup(ps, "page");
    (if q.Some? then q.value else "",
     ParseInt(if page.Some? && page.value != "" then page.value else "1", Decimal))
  }

  /** The two parameters the screen writes are read back as written. */
  lemma ReadBack(q: string, v: string)
    requires v != ""
    ensures ReadLocation([("q", q), ("page", v)]) == (q, ParseInt(v, Decimal))
    ensures PlainNames([("q", q), ("page", v)])
  {
    var ps := [("q", q), ("page", v)];
    assert PlainName(ps[0].0) && PlainName(ps[1].0) by {
      assert ps[0].0 == ['q'] && ps[1].0 == ['p', 'a', 'g', 'e'];
    }
    assert Freesound.Lookup(ps, "q") == Some(q);
    assert Freesound.Lookup(ps[1..], "page") == Some(v);
    assert Freesound.Lookup(ps, "page") == Some(v);
  }

  /** The screen's `navigateToPage`: ignored while loading, for the page
      on show, below page 1 or past the last page (page 1 when nothing is
      shown); otherwise the URL parameters it sets. */
  function NavigateTo(scr: Screen, urlQuery: string, page: int): (r: Option<seq<Param>>)
    ensures r.Some? <==>
      && !scr.loading && page != scr.currentPage && 1 <= page
      && page <= (if scr.sounds.Some? then TotalPages(scr.sounds.value.count) else 1)
    ensures r.Some? ==> PlainNames(r.value) && ReadLocation(r.value) == (urlQuery, Some(page))
  {
    if scr.loading || page == scr.currentPage || page < 1 then None
    else
      var totalPages := if scr.sounds.Some? then TotalPages(scr.sounds.value.count) else 1;
      if page > totalPages then None
      else
        ParseIntToString(page);
        ReadBack(urlQuery, IntToString(page));
        Some([("q", urlQuery), ("page", IntToString(page))])
  }

  /** Through the address bar: the parameters `navigateToPage` sets are
      written as a query string and read back as the same query and page. */
  lemma NavigationRoundTrip(scr: Screen, urlQuery: string, page: int)
    requires NavigateTo(scr, urlQuery, page).Some?
    ensures var ps := NavigateTo(scr, urlQuery, page).value;
      && Parse(Form, Assemble(Form, ps)) == Some(ps)
      && ReadLocation(Parse(Form, Assemble(Form, ps)).value) == (urlQuery, Some(page))
  {
    ParseAssemble(Form, NavigateTo(scr, urlQuery, page).value);
  }

  /** `handleSearch`: a blank query box only sets the error text; otherwise
      the URL gets the trimmed query and page 1, which the effect then
      searches for. */
  function HandleSearch(scr: Screen): (r: (Screen, Option<seq<Param>>))
    ensures r.1.None? <==> Trim(scr.query) == ""
    ensures r.1.None? ==> r.0 == scr.(error := Some(EmptyQueryMessage))
    ensures r.1.Some? ==> r.0 == scr && PlainNames(r.1.value)
    ensures r.1.Some? ==> ReadLocation(r.1.value) == (Trim(scr.query), Some(1)) && Trim(scr.query) != ""
  {
    var trimmed := Trim(scr.query);
    if trimmed == "" then (scr.(error := Some(EmptyQueryMessage)), None)
    else
      ParseIntToString(1);
      assert IntToString(1) == "1";
      ReadBack(trimmed, "1");
      (scr, Some([("q", trimmed), ("page", "1")]))
  }

  // ---------------------------------------------------------------------
  // A walk through another query's pages
  // ---------------------------------------------------------------------

  /** Page `i` of a three-page chain of 30 results. */
  function CatsPage(i: nat): Page {
    Page(30, [], if i < 2 then Some(Cursor("next", i + 1)) else None,
         if i > 0 then Some(Cursor("previous", i - 1)) else None, None)
  }

  /** The single page of a five-result chain. */
  const DogsPage: Page := Page(5, [], None, None, None)

  const TwoQueries: World := map["cats" := Server([CatsPage(0), CatsPage(1), CatsPage(2)], map[]),
                                 "dogs" := Server([DogsPage], map[])]

  const NoCache: Cache := Cache(map[], map[], Absent, Absent)

  /** The screen on page 3 of "cats", before a new search for "dogs". */
  const OnThirdCatsPage: Screen := Screen("cats", Some(CatsPage(2)), "cats", false, None, 3, false)

  /** Both chains are sound, the screen shows what it claims, and the
      empty cache is truthful: the assumptions of
      `SameQueryShowsRequestedPage` hold for a search for "dogs". */
  lemma TwoQueriesAreSound()
    ensures Sound(TwoQueries) && Showing(OnThirdCatsPage, TwoQueries)
    ensures Truthful(NoCache, TwoQueries, "dogs", 1, 0)
    ensures Trim("dogs") != "" && "dogs" in TwoQueries && |TwoQueries["dogs"].pages| == 1
  {
    var cats := [CatsPage(0), CatsPage(1), CatsPage(2)];
    assert WellLinked(cats);
    assert WellLinked([DogsPage]);
    assert "dogs"[0] == 'd';
  }

  /** Searching "dogs" from page 3 of "cats" sets the URL to page 1; the
      pages differ by two, so the effect as written walks back through the
      "cats" chain and shows its first page as the "dogs" results. */
  lemma OtherQueryWalkedThrough()
    ensures var r := UrlChanged(OnThirdCatsPage, NoCache, TwoQueries, "dogs", 1, 0);
      && r.screen.query == "dogs"
      && r.screen.sounds == Some(CatsPage(0))
      && !SamePage(r.screen.sounds.value, TwoQueries["dogs"].pages[0])
      && r.requests == 2
      && r.cache == SetSearchResults(NoCache, "dogs", 1, CatsPage(0), 0)
  {
    var cats := TwoQueries["cats"];
    assert cats.pages == [CatsPage(0), CatsPage(1), CatsPage(2)];
    assert WellLinked(cats.pages);
    WalkTowardArrives(cats, CatsPage(2), 2, 1, Backward);
  }

  /** ... and the "dogs" key now serves the "cats" page for five minutes. */
  lemma OtherQueryStored(later: int)
    requires 0 <= later < ExpiryMs
    ensures var r := UrlChanged(OnThirdCatsPage, NoCache, TwoQueries, "dogs", 1, 0);
      GetSearchResults(r.cache, "dogs", 1, later).0 == Some(StripPage(CatsPage(0)))
  {
    OtherQueryWalkedThrough();
    SearchResultsFanOut(NoCache, "dogs", 1, CatsPage(0), 0, later);
  }

  /** With the walk restricted to pages of the requested query the same
      step shows the "dogs" page. */
  lemma SameQuerySearchesDogs()
    ensures var r := UrlChangedSameQuery(OnThirdCatsPage, NoCache, TwoQueries, "dogs", 1, 0);
      r.screen.sounds.Some? && SamePage(r.screen.sounds.value, DogsPage)
  {
    TwoQueriesAreSound();
    SameQueryShowsRequestedPage(OnThirdCatsPage, NoCache, TwoQueries, "dogs", 1, 0);
  }

  // ---------------------------------------------------------------------
  // A page read back from storage
  // ---------------------------------------------------------------------

  /** The screen as first rendered for `(urlQuery, urlPage)`: nothing on
      show yet. */
  function Opened(urlQuery: string, urlPage: int): Screen {
    Screen(urlQuery, None, "", false, None, urlPage, false)
  }

  /** Storage holding one search page, `p`, stored at `t` under
      (`q`, `page`). */
  function OnePageStored(q: string, page: int, p: Page, t: int): Stored<string, Page> {
    Save(map[SearchKey(q, page) := Entry(p, t, None, None, false)])
  }

  /** Reloading the screen for (`q`, `page`) within five minutes of storing
      that page shows it at once from the cache, as a copy without its
      cursor functions. */
  lemma RestoredPageShown(world: World, q: string, page: int, p: Page, t: int, now: int)
    requires Trim(q) != "" && t != 0 && now - t < ExpiryMs
    ensures var c := Mount(Absent, OnePageStored(q, page, p, t), now);
      var r := UrlChanged(Opened(q, page), c, world, q, page, now);
      && r == UrlChangedSameQuery(Opened(q, page), c, world, q, page, now)
      && r.Settled? && r.requests == 0
      && r.screen.sounds == Some(p) && r.screen.origin == q && r.screen.currentPage == page
      && r.screen.bare
  {
    MountedSearchHit(q, page, Entry(p, t, None, None, false), now);
    var c := Mount(Absent, OnePageStored(q, page, p, t), now);
    CacheHitShown(Opened(q, page), c, world, q, page, now);
  }

  /** As written, clicking Next on that page makes the effect call the
      `nextPage` function the copy no longer has: the effect throws, with
      no request sent. */
  lemma RestoredPageCrashes(world: World, q: string, page: int, p: Page, t: int, now: int)
    requires Trim(q) != "" && t != 0 && now - t < ExpiryMs && p.next.Some?
    ensures var r1 := UrlChanged(Opened(q, page), Mount(Absent, OnePageStored(q, page, p, t), now), world, q, page, now);
      UrlChanged(r1.screen, r1.cache, world, q, page + 1, now).Crashed?
  {
    RestoredPageShown(world, q, page, p, t, now);
    var r1 := UrlChanged(Opened(q, page), Mount(Absent, OnePageStored(q, page, p, t), now), world, q, page, now);
    assert CanWalk(r1.screen, page + 1) && DirectionTo(r1.screen, page + 1) == Forward;
  }

  /** With the walk restricted to pages that still have their cursor
      functions, the same click searches page `page + 1` afresh and does
      not throw. */
  lemma RestoredPageSearchedAfresh(world: World, q: string, page: int, p: Page, t: int, now: int)
    requires Trim(q) != "" && t != 0 && now - t < ExpiryMs && p.next.Some?
    ensures var r1 := UrlChangedSameQuery(Opened(q, page), Mount(Absent, OnePageStored(q, page, p, t), now), world, q, page, now);
      var r2 := UrlChangedSameQuery(r1.screen, r1.cache, world, q, page + 1, now);
      && !r2.Crashed?
      && r2 == PerformSearch(r1.screen.(query := q, currentPage := page + 1), r1.cache, world, q, page + 1, now)
  {
    RestoredPageShown(world, q, page, p, t, now);
  }
}

=== FILE: SearchUrl.dfy ===
/** `buildSearchUrl`: the address of the search screen for a query and a
    page, written with the form serializer. */
module SearchUrl {
  import opened Base
  import opened Text
  import opened Percent
  import opened Query
  import Freesound
  import SearchScreen

  /** The parameters set, in order: `q` for a non-empty query, then `page`
      past page 1. */
  function SearchParams(query: string, page: int): (ps: seq<Param>)
    ensures PlainNames(ps)
    ensures Freesound.Lookup(ps, "q").Some? <==> query != ""
    ensures Freesound.Lookup(ps, "page").Some? <==> page > 1
    ensures query != "" ==> ps[0] == ("q", query)
    ensures page > 1 ==> ps[|ps| - 1] == ("page", IntToString(page))
  {
    var q: seq<Param> := if query != "" then [("q", query)] else [];
    var p: seq<Param> := if page > 1 then [("page", IntToString(page))] else [];
    var ps := q + p;
    assert PlainName(['q']) && PlainName(['p', 'a', 'g', 'e']);
    assert "q" != "page" by { assert "q"[0] != "page"[0]; }
    assert forall i :: 0 <= i < |ps| ==> ps[i] in q || ps[i] in p;
    ps
  }

  /** The address: `/?` and the serialized parameters. */
  function BuildSearchUrl(query: string, page: int): (r: string)
    ensures StartsWith(r, "/?")
    ensures Parse(Form, r[2..]) == Some(SearchParams(query, page))
    ensures r == "/?" <==> query == "" && page <= 1
  {
    var ps := SearchParams(query, page);
    ParseAssemble(Form, ps);
    var r := "/?" + Assemble(Form, ps);
    assert r[2..] == Assemble(Form, ps);
    r
  }

  /** The search screen reads the address back as the same query, and as
      the same page from page 1 on (a page below 1 reads as page 1). */
  lemma BuildSearchUrlReadBack(query: string, page: int)
    ensures SearchScreen.ReadLocation(SearchParams(query, page)) ==
      (query, Some(if page > 1 then page else 1))
  {
    var ps := SearchParams(query, page);
    ParseIntToString(1);
    assert IntToString(1) == "1";
    if page > 1 {
      ParseIntToString(page);
      assert IntToString(page) != "";
      if query != "" {
        assert ps == [("q", query), ("page", IntToString(page))];
        SearchScreen.ReadBack(query, IntToString(page));
      } else {
        assert ps == [("page", IntToString(page))];
        assert Freesound.Lookup(ps, "page") == Some(IntToString(page));
      }
    } else if query != "" {
      assert ps == [("q", query)];
      assert Freesound.Lookup(ps, "q") == Some(query);
    }
  }

  /** The addresses the repository's tests fix: a query on page 2, the
      same query on page 1, and neither. */
  lemma SecondPageExample(test: string)
    requires test == "test"
    ensures BuildSearchUrl(test, 2) == "/?q=test&page=2"
  {
    QueryAndPage(test);
  }

  lemma FirstPageExample(test: string)
    requires test == "test"
    ensures BuildSearchUrl(test, 1) == "/?q=test"
  {
    QueryOnly(test);
  }

  lemma EmptyExample()
    ensures BuildSearchUrl("", 1) == "/?"
  {
  }

  lemma QueryOnly(test: string)
    requires test == "test"
    ensures BuildSearchUrl(test, 1) == "/?q=" + test
  {
    EncodeSafe(Form, test);
    assert PlainName(['q']);
    assert SearchParams(test, 1) == [("q", test)];
    AssembleOne(Form, ("q", test));
  }

  lemma QueryAndPage(test: string)
    requires test == "test"
    ensures BuildSearchUrl(test, 2) == "/?q=" + test + "&page=2"
  {
    PageParam();
    assert SearchParams(test, 2) == [("q", test), ("page", "2")];
    QueryAndPageFields(test);
  }

  lemma PageParam()
    ensures IntToString(2) == "2"
  {
  }

  lemma QueryAndPageFields(test: string)
    requires test == "test"
    ensures PlainName(['q']) && PlainName(['p', 'a', 'g', 'e'])
    ensures Assemble(Form, [("q", test), ("page", "2")]) == "q=" + test + "&page=2"
  {
    assert PlainName(['q']) && PlainName(['p', 'a', 'g', 'e']);
    AssembleTwo(Form, ("q", test), ("page", "2"));
    QueryField(test);
    PageField();
  }

  lemma QueryField(test: string)
    requires test == "test"
    ensures PlainName(['q']) && Field(Form, ("q", test)) == "q=" + test
  {
    assert PlainName(['q']);
    EncodeSafe(Form, test);
  }

  lemma PageField()
    ensures PlainName(['p', 'a', 'g', 'e']) && Field(Form, ("page", "2")) == "page=2"
  {
    assert PlainName(['p', 'a', 'g', 'e']);
    EncodeSafe(Form, "2");
  }
}

=== FILE: SoundCache.dfy ===
/** The two-level time-to-live cache behind the screens: sounds by id and
    result pages by a normalised `query:page` key, each entry stamped with
    the time it was stored, mirrored to browser storage. Reads expire lazily
    and evict; a periodic sweep drops whatever has aged out; loading from
    storage keeps only well-formed fresh entries. */
module SoundCache {
  import opened Base
  import opened Text
  import opened Domain

  /** Five minutes, in milliseconds. */
  const ExpiryMs: int := 5 * 60 * 1000

  /** A cached value with its store time and the validators the server
      sent. `restored` marks an entry read back from storage: JSON keeps
      only data members, so a page read back has lost the `nextPage` and
      `previousPage` functions that the in-memory copy (`{...results}`)
      still carries as its own members. */
  datatype Entry<T> = Entry(data: T, timestamp: int, etag: Option<string>, lastModified: Option<string>, restored: bool)

  /** An entry is served while it is younger than five minutes. */
  predicate Live<T>(e: Entry<T>, now: int) {
    now - e.timestamp < ExpiryMs
  }

  /** A stored entry as read back from storage: `null`, or a value any of
      whose members may be missing (a number or a string reads as a value
      with every member missing). */
  datatype Raw<T> =
    | Null
    | Raw(timestamp: Option<int>, data: Option<T>, etag: Option<string>, lastModified: Option<string>)

  /** One storage key: absent, holding text that is not JSON, or holding an
      object of entries. */
  datatype Stored<K, T> = Absent | Garbage | Saved(entries: map<K, Raw<T>>)

  function ToRaw<T>(e: Entry<T>): Raw<T> {
    Raw(Some(e.timestamp), Some(e.data), e.etag, e.lastModified)
  }

  /** `save*CacheToStorage`: the map written out as an object. Sound ids are
      written with `toString` and read back with `parseInt`, which returns
      the same id, so the stored object is keyed by the id itself. */
  function Save<K, T>(m: map<K, Entry<T>>): (s: Stored<K, T>)
    ensures s.Saved? && s.entries.Keys == m.Keys
  {
    Saved(map k | k in m :: ToRaw(m[k]))
  }

  /** The cache state together with its mirror in storage. */
  datatype Cache = Cache(
    sounds: map<int, Entry<Sound>>,
    searches: map<string, Entry<Page>>,
    soundStore: Stored<int, Sound>,
    searchStore: Stored<string, Page>)

  /** Storage holds what the maps hold: the provider's effects save a map
      whenever it changes. */
  predicate Mirrored(c: Cache) {
    c.soundStore == Save(c.sounds) && c.searchStore == Save(c.searches)
  }

  function WithSounds(c: Cache, m: map<int, Entry<Sound>>): (r: Cache)
    ensures r.sounds == m && r.searches == c.searches && r.searchStore == c.searchStore
    ensures Mirrored(c) ==> Mirrored(r)
  {
    c.(sounds := m, soundStore := Save(m))
  }

  function WithSearches(c: Cache, m: map<string, Entry<Page>>): (r: Cache)
    ensures r.searches == m && r.sounds == c.sounds && r.soundStore == c.soundStore
    ensures Mirrored(c) ==> Mirrored(r)
  {
    c.(searches := m, searchStore := Save(m))
  }

  // ---------------------------------------------------------------------
  // Keys
  // ---------------------------------------------------------------------

  /** `getSearchKey`: the query lower-cased and trimmed, a colon, the page. */
  function SearchKey(query: string, page: int): (k: string)
  {
    Trim(Lower(query)) + ":" + IntToString(page)
  }

  /** Two searches share a key exactly when they are for the same page and
      their queries agree once lower-cased and trimmed. */
  lemma SearchKeyShared(q1: string, p1: int, q2: string, p2: int)
    ensures SearchKey(q1, p1) == SearchKey(q2, p2) <==>
      p1 == p2 && Trim(Lower(q1)) == Trim(Lower(q2))
  {
    var n1, n2 := Trim(Lower(q1)), Trim(Lower(q2));
    var d1, d2 := IntToString(p1), IntToString(p2);
    var k := SearchKey(q1, p1);
    if k == SearchKey(q2, p2) {
      ColonSplit(n1, d1, n2, d2);
      assert |d1| == |d2|;
      KeyParts(n1, d1);
      KeyParts(n2, d2);
      IntToStringInjective(p1, p2);
    }
  }

  /** Case and surrounding white space do not matter: a query and its
      normal form share every key. */
  lemma SearchKeyNormalised(query: string, page: int)
    ensures SearchKey(query, page) == SearchKey(Trim(Lower(query)), page)
  {
    NormalFormFixed(query);
  }

  lemma KeyParts(n: string, d: string)
    ensures var k := n + ":" + d; |k| == |n| + 1 + |d| && k[..|n|] == n && k[|k| - |d|..] == d
  {
  }

  /** Of two equal texts `n + ":" + d`, the one with the longer `d` has a
      colon inside it. */
  lemma ColonSplit(n1: string, d1: string, n2: string, d2: string)
    requires n1 + ":" + d1 == n2 + ":" + d2
    ensures |d1| < |d2| ==> ':' in d2
    ensures |d2| < |d1| ==> ':' in d1
  {
    var k := n1 + ":" + d1;
    if |d1| < |d2| {
      assert d2[|n1| - |n2| - 1] == k[|n1|];
    } else if |d2| < |d1| {
      assert d1[|n2| - |n1| - 1] == k[|n2|];
    }
  }

  /** A lower-cased, trimmed text is its own normal form. */
  lemma NormalFormFixed(q: string)
    ensures Trim(Lower(Trim(Lower(q)))) == Trim(Lower(q))
  {
    var l := Lower(q);
    var t := Trim(l);
    TrimNoUpper(l);
    LowerFixed(t);
    TrimFixed(t);
  }

  /** Trimming only removes characters, so a text without upper-case
      letters keeps none. */
  lemma TrimNoUpper(l: string)
    requires forall k :: 0 <= k < |l| ==> !IsUpperAscii(l[k])
    ensures forall k :: 0 <= k < |Trim(l)| ==> !IsUpperAscii(Trim(l)[k])
  {
    var a := TrimStart(l);
    assert forall k :: 0 <= k < |a| ==> a[k] == l[|l| - |a| + k];
    var t := TrimEnd(a);
    assert forall k :: 0 <= k < |t| ==> t[k] == a[k];
  }

  lemma {:induction false} LowerFixed(t: string)
    requires forall k :: 0 <= k < |t| ==> !IsUpperAscii(t[k])
    ensures Lower(t) == t
  {
    if |t| > 0 {
      LowerFixed(t[1..]);
      assert t == [t[0]] + t[1..];
    }
  }

  lemma TrimFixed(t: string)
    requires |t| > 0 ==> !IsJsSpace(t[0]) && !IsJsSpace(t[|t| - 1])
    ensures Trim(t) == t
  {
    assert TrimStart(t) == t;
    assert TrimEnd(t) == t;
  }

  // ---------------------------------------------------------------------
  // Reads
  // ---------------------------------------------------------------------

  /** `getSound`: a missing id reads as absent; an expired entry reads as
      absent and is evicted; a live entry is returned and nothing changes. */
  function GetSound(c: Cache, id: int, now: int): (r: (Option<Sound>, Cache))
    ensures r.0.Some? <==> id in c.sounds && Live(c.sounds[id], now)
    ensures r.0.Some? ==> r.0.value == c.sounds[id].data && r.1 == c
    ensures id in c.sounds && !Live(c.sounds[id], now) ==>
      r.1 == WithSounds(c, c.sounds - {id})
    ensures id !in c.sounds ==> r.1 == c
  {
    if id !in c.sounds then (None, c)
    else if now - c.sounds[id].timestamp >= ExpiryMs then (None, WithSounds(c, c.sounds - {id}))
    else (Some(c.sounds[id].data), c)
  }

  /** `hasSound`: the same expiry test, without eviction. */
  function HasSound(c: Cache, id: int, now: int): bool {
    id in c.sounds && now - c.sounds[id].timestamp < ExpiryMs
  }

  /** `getSearchResults`, keyed by the normalised query and the page. */
  function GetSearchResults(c: Cache, query: string, page: int, now: int): (r: (Option<Page>, Cache))
    ensures var key := SearchKey(query, page);
      && (r.0.Some? <==> key in c.searches && Live(c.searches[key], now))
      && (r.0.Some? ==> r.0.value == c.searches[key].data && r.1 == c)
      && (key in c.searches && !Live(c.searches[key], now) ==>
            r.1 == WithSearches(c, c.searches - {key}))
      && (key !in c.searches ==> r.1 == c)
  {
    var key := SearchKey(query, page);
    if key !in c.searches then (None, c)
    else if now - c.searches[key].timestamp >= ExpiryMs then (None, WithSearches(c, c.searches - {key}))
    else (Some(c.searches[key].data), c)
  }

  /** The entry under (`query`, `page`) was read back from storage, so a
      page served from it lacks its cursor functions. */
  predicate RestoredHit(c: Cache, query: string, page: int) {
    var key := SearchKey(query, page);
    key in c.searches && c.searches[key].restored
  }

  /** `hasSound` answers what `getSound` would answer, and reads never
      touch the page map; an eviction removes exactly the one entry. */
  lemma HasAgreesWithGet(c: Cache, id: int, now: int)
    ensures HasSound(c, id, now) <==> GetSound(c, id, now).0.Some?
    ensures GetSound(c, id, now).1.searches == c.searches
    ensures GetSound(c, id, now).1.sounds.Keys == c.sounds.Keys - (if HasSound(c, id, now) then {} else {id})
  {
  }

  // ---------------------------------------------------------------------
  // Writes
  // ---------------------------------------------------------------------

  /** A sound as cached: the `__headers` field removed. */
  function Strip(s: Sound): (r: Sound)
    ensures r.headers.None? && r.id == s.id && r.name == s.name
  {
    s.(headers := None)
  }

  function EtagOf(h: Option<Headers>): Option<string> {
    if h.Some? then h.value.etag else None
  }

  function LastModifiedOf(h: Option<Headers>): Option<string> {
    if h.Some? then h.value.lastModified else None
  }

  /** `setSound`: the stripped sound under its id, stamped `now`, with the
      validators taken from its headers. */
  function SetSound(c: Cache, s: Sound, now: int): (r: Cache)
  {
    WithSounds(c, c.sounds[s.id := Entry(Strip(s), now, EtagOf(s.headers), LastModifiedOf(s.headers), false)])
  }

  /** A stored sound is served, stripped, for five minutes; nothing else in
      the cache changes; and storage keeps mirroring the maps. */
  lemma SetThenGet(c: Cache, s: Sound, now: int, later: int)
    requires later - now < ExpiryMs
    ensures GetSound(SetSound(c, s, now), s.id, later) == (Some(Strip(s)), SetSound(c, s, now))
    ensures var r := SetSound(c, s, now);
      && r.searches == c.searches
      && (forall id :: id != s.id ==> (id in r.sounds <==> id in c.sounds))
      && (forall id :: id != s.id && id in c.sounds ==> r.sounds[id] == c.sounds[id])
      && r.sounds[s.id].etag == EtagOf(s.headers)
      && r.sounds[s.id].lastModified == LastModifiedOf(s.headers)
      && (Mirrored(c) ==> Mirrored(r))
  {
  }

  /** The loop of `setSearchResults` over the page's sounds. */
  function SetSounds(c: Cache, ss: seq<Sound>, now: int): (r: Cache)
    ensures r.searches == c.searches && r.searchStore == c.searchStore
    ensures Mirrored(c) ==> Mirrored(r)
    decreases |ss|
  {
    if |ss| == 0 then c else SetSounds(SetSound(c, ss[0], now), ss[1..], now)
  }

  /** A page as cached: its `__headers` field removed. */
  function StripPage(p: Page): (r: Page)
    ensures r.headers.None? && r.results == p.results && r.count == p.count
  {
    p.(headers := None)
  }

  /** `setSearchResults`: the stripped page under its key, then every sound
      on it. */
  function SetSearchResults(c: Cache, query: string, page: int, results: Page, now: int): (r: Cache)
  {
    var key := SearchKey(query, page);
    var withPage := WithSearches(c, c.searches[key := Entry(
      StripPage(results), now, EtagOf(results.headers), LastModifiedOf(results.headers), false)]);
    SetSounds(withPage, results.results, now)
  }

  /** After the loop every sound of the page is cached, stamped `now`. */
  lemma {:induction false} SetSoundsStamps(c: Cache, ss: seq<Sound>, now: int)
    ensures forall i :: 0 <= i < |ss| ==>
      ss[i].id in SetSounds(c, ss, now).sounds && SetSounds(c, ss, now).sounds[ss[i].id].timestamp == now
    decreases |ss|
  {
    if |ss| > 0 {
      var c1 := SetSound(c, ss[0], now);
      SetSoundsStamps(c1, ss[1..], now);
      SetSoundsOthers(c1, ss[1..], now);
      forall i | 0 <= i < |ss|
        ensures ss[i].id in SetSounds(c, ss, now).sounds && SetSounds(c, ss, now).sounds[ss[i].id].timestamp == now
      {
        if i > 0 {
          assert ss[1..][i - 1] == ss[i];
        }
      }
    }
  }

  /** Ids that are not on the list keep their entries, and no other id
      appears. */
  lemma {:induction false} SetSoundsOthers(c: Cache, ss: seq<Sound>, now: int)
    ensures forall id :: (forall i :: 0 <= i < |ss| ==> ss[i].id != id) ==>
      (id in SetSounds(c, ss, now).sounds <==> id in c.sounds)
      && (id in c.sounds ==> SetSounds(c, ss, now).sounds[id] == c.sounds[id])
    decreases |ss|
  {
    if |ss| > 0 {
      var c1 := SetSound(c, ss[0], now);
      SetSoundsOthers(c1, ss[1..], now);
      forall id | (forall i :: 0 <= i < |ss| ==> ss[i].id != id)
        ensures (id in SetSounds(c, ss, now).sounds <==> id in c.sounds)
          && (id in c.sounds ==> SetSounds(c, ss, now).sounds[id] == c.sounds[id])
      {
        assert ss[0].id != id;
        forall i | 0 <= i < |ss[1..]| ensures ss[1..][i].id != id {
          assert ss[1..][i] == ss[i + 1];
        }
      }
    }
  }

  /** A sound that is the last of its id on the list is the one cached. */
  lemma {:induction false} SetSoundsLast(c: Cache, ss: seq<Sound>, now: int, i: nat)
    requires i < |ss| && LastOfId(ss, i)
    ensures ss[i].id in SetSounds(c, ss, now).sounds
    ensures SetSounds(c, ss, now).sounds[ss[i].id].data == Strip(ss[i])
    decreases |ss|
  {
    var c1 := SetSound(c, ss[0], now);
    if i > 0 {
      assert ss[1..][i - 1] == ss[i];
      assert LastOfId(ss[1..], i - 1) by {
        forall j | i - 1 < j < |ss[1..]| ensures ss[1..][j].id != ss[1..][i - 1].id {
          assert ss[1..][j] == ss[j + 1];
        }
      }
      SetSoundsLast(c1, ss[1..], now, i - 1);
    } else {
      SetSoundsOthers(c1, ss[1..], now);
      forall j | 0 <= j < |ss[1..]| ensures ss[1..][j].id != ss[0].id {
        assert ss[1..][j] == ss[j + 1];
      }
    }
  }

  /** No later sound on the list has the id of the `i`-th. */
  predicate LastOfId(ss: seq<Sound>, i: int)
    requires 0 <= i < |ss|
  {
    forall j :: i < j < |ss| ==> ss[j].id != ss[i].id
  }

  /** Fan-out: after storing a page, the page is served under its key and
      every sound on it is served by id (as the last copy of that id on the
      page) for five minutes. */
  lemma SearchResultsFanOut(c: Cache, query: string, page: int, results: Page, now: int, later: int)
    requires later - now < ExpiryMs
    ensures var r := SetSearchResults(c, query, page, results, now);
      && GetSearchResults(r, query, page, later).0 == Some(StripPage(results))
      && (forall i :: 0 <= i < |results.results| ==> HasSound(r, results.results[i].id, later))
      && (forall i :: 0 <= i < |results.results| && LastOfId(results.results, i) ==>
            GetSound(r, results.results[i].id, later).0 == Some(Strip(results.results[i])))
  {
    var key := SearchKey(query, page);
    var withPage := WithSearches(c, c.searches[key := Entry(
      StripPage(results), now, EtagOf(results.headers), LastModifiedOf(results.headers), false)]);
    SetSoundsStamps(withPage, results.results, now);
    forall i | 0 <= i < |results.results| && LastOfId(results.results, i)
      ensures GetSound(SetSearchResults(c, query, page, results, now), results.results[i].id, later).0
        == Some(Strip(results.results[i]))
    {
      SetSoundsLast(withPage, results.results, now, i);
    }
  }

  // ---------------------------------------------------------------------
  // Sweep, clear, load
  // ---------------------------------------------------------------------

  function KeepLive<K(!new), T>(m: map<K, Entry<T>>, now: int): (r: map<K, Entry<T>>)
    ensures forall k :: k in r <==> k in m && Live(m[k], now)
    ensures forall k :: k in r ==> r[k] == m[k]
  {
    map k | k in m && now - m[k].timestamp < ExpiryMs :: m[k]
  }

  /** The minute-by-minute sweep over both maps. */
  function Sweep(c: Cache, now: int): (r: Cache)
    ensures Mirrored(c) ==> Mirrored(r)
  {
    WithSearches(WithSounds(c, KeepLive(c.sounds, now)), KeepLive(c.searches, now))
  }

  /** The sweep keeps exactly what a read at the same moment would serve:
      its `<` test is the complement of the reads' `>=` test, so it changes
      no answer. */
  lemma SweepKeepsServed(c: Cache, now: int)
    ensures forall id :: id in Sweep(c, now).sounds <==> HasSound(c, id, now)
    ensures forall id :: GetSound(Sweep(c, now), id, now).0 == GetSound(c, id, now).0
    ensures forall q, p :: GetSearchResults(Sweep(c, now), q, p, now).0 == GetSearchResults(c, q, p, now).0
  {
  }

  /** `clearCache`: both maps emptied. Both storage keys are removed, and
      the mirroring effects then write the two empty maps back. */
  function Clear(c: Cache): (r: Cache)
    ensures Mirrored(r)
  {
    Cache(map[], map[], Save(map[]), Save(map[]))
  }

  /** After clearing, nothing is served. */
  lemma ClearForgets(c: Cache, now: int)
    ensures forall id :: !HasSound(Clear(c), id, now) && GetSound(Clear(c), id, now).0.None?
    ensures forall q, p :: GetSearchResults(Clear(c), q, p, now).0.None?
  {
  }

  /** A stored entry survives loading when its timestamp is truthy (present
      and not 0), its data is present, and it is younger than five minutes. */
  predicate Loadable<T>(e: Raw<T>, now: int) {
    e.Raw? && e.timestamp.Some? && e.timestamp.value != 0 && e.data.Some? && now - e.timestamp.value < ExpiryMs
  }

  function FromRaw<T>(e: Raw<T>): Entry<T>
    requires e.Raw? && e.timestamp.Some? && e.data.Some?
  {
    Entry(e.data.value, e.timestamp.value, e.etag, e.lastModified, true)
  }

  /** Some stored entry is `null`: reading its `timestamp` throws. */
  predicate HasNull<K(!new), T>(entries: map<K, Raw<T>>) {
    exists k :: k in entries && entries[k].Null?
  }

  /** `load*CacheFromStorage`: the loadable entries, and whether storage is
      rewritten because something was dropped. An absent key, a parse
      failure, or a `null` entry (whose `timestamp` read throws inside the
      `forEach`) gives the empty map and no rewrite. */
  function Load<K(!new), T>(s: Stored<K, T>, now: int): (r: (map<K, Entry<T>>, bool))
    ensures s.Saved? ==> r.0.Keys <= s.entries.Keys
    ensures !s.Saved? || HasNull(s.entries) ==> r.0 == map[] && !r.1
  {
    match s
    case Saved(entries) =>
      if HasNull(entries) then (map[], false)
      else
        var kept := map k | k in entries && Loadable(entries[k], now) :: FromRaw(entries[k]);
        (kept, |kept.Keys| != |entries.Keys|)
    case _ => (map[], false)
  }

  /** With no `null` entry, loading keeps exactly the loadable entries,
      and rewrites storage exactly when it dropped one; one `null` entry
      empties the whole cache and leaves storage as it was. */
  lemma LoadFilters<K(!new), T>(s: Stored<K, T>, now: int)
    requires s.Saved?
    ensures HasNull(s.entries) ==> Load(s, now) == (map[], false)
    ensures var r := Load(s, now);
      !HasNull(s.entries) ==>
      && (forall k :: k in r.0 <==> k in s.entries && Loadable(s.entries[k], now))
      && (forall k :: k in r.0 ==> r.0[k] == FromRaw(s.entries[k]))
      && (r.1 <==> exists k :: k in s.entries && !Loadable(s.entries[k], now))
  {
    var r := Load(s, now);
    if HasNull(s.entries) {
    } else if exists k :: k in s.entries && !Loadable(s.entries[k], now) {
      var k :| k in s.entries && !Loadable(s.entries[k], now);
      assert r.0.Keys <= s.entries.Keys - {k};
      assert |r.0.Keys| <= |s.entries.Keys - {k}| < |s.entries.Keys| by {
        SubsetCard(r.0.Keys, s.entries.Keys - {k});
      }
    } else {
      assert r.0.Keys == s.entries.Keys;
    }
  }

  lemma SubsetCard<K>(a: set<K>, b: set<K>)
    requires a <= b
    ensures |a| <= |b|
  {
    if a != {} {
      var x :| x in a;
      SubsetCard(a - {x}, b - {x});
    }
  }

  /** An entry as it reads back from storage: the same members, now
      marked as restored. */
  function Revived<T>(e: Entry<T>): Entry<T> {
    e.(restored := true)
  }

  /** Saving and loading again within five minutes gives back every entry
      with the same data, stamp and validators, but marked as restored
      (for a page: without its cursor functions), unless an entry was
      stamped at time 0, which reads as falsy. Only a map of restored
      entries comes back unchanged. */
  lemma SaveLoad<K(!new), T>(m: map<K, Entry<T>>, now: int)
    requires forall k :: k in m ==> Live(m[k], now) && m[k].timestamp != 0
    ensures Load(Save(m), now).0.Keys == m.Keys && !Load(Save(m), now).1
    ensures forall k :: k in m ==> Load(Save(m), now).0[k] == Revived(m[k])
    ensures Load(Save(m), now).0 == m <==> forall k :: k in m ==> m[k].restored
  {
    var r := Load(Save(m), now);
    assert r.0.Keys == m.Keys;
    assert forall k :: k in m ==> r.0[k] == Revived(m[k]);
    assert Save(m).entries.Keys == m.Keys;
    if forall k :: k in m ==> m[k].restored {
      assert forall k :: k in m ==> r.0[k] == m[k];
      assert r.0 == m;
    } else {
      var k :| k in m && !m[k].restored;
      assert r.0[k] != m[k];
    }
  }

  /** Mounting the provider: both maps loaded, then mirrored back. */
  function Mount(soundStore: Stored<int, Sound>, searchStore: Stored<string, Page>, now: int): (c: Cache)
    ensures Mirrored(c)
    ensures forall id :: id in c.sounds ==> c.sounds[id].restored
    ensures forall k :: k in c.searches ==> c.searches[k].restored
  {
    var sounds := Load(soundStore, now).0;
    var searches := Load(searchStore, now).0;
    Cache(sounds, searches, Save(sounds), Save(searches))
  }

  /** A live search page stored alone is, after mounting, a cache hit on
      its key, served as stored but marked as read back. */
  lemma MountedSearchHit(query: string, page: int, e: Entry<Page>, now: int)
    requires Live(e, now) && e.timestamp != 0
    ensures var c := Mount(Absent, Save(map[SearchKey(query, page) := e]), now);
      && GetSearchResults(c, query, page, now) == (Some(e.data), c)
      && RestoredHit(c, query, page)
  {
    var m := map[SearchKey(query, page) := e];
    SaveLoad(m, now);
  }

  /** An entry stamped at time 0 is dropped when loading, however recent
      the clock says it is. */
  lemma ZeroStampDropped<K(!new), T>(k: K, e: Raw<T>, now: int)
    requires e.Raw? && e.timestamp == Some(0)
    ensures k !in Load(Saved(map[k := e]), now).0
  {
  }
}

=== FILE: SoundDetail.dfy ===
/** The sound-detail screen: the shared reducer over a sound, the state
    read from the cache when the screen mounts, and the load effect with
    its cancellation flag. The screen's life is a sequence of events: the
    mount, a run of the effect (after a render in which the route's id or
    the cache changed), and the answer to one of the requests in flight.

    The effect is modelled twice. The `AsWritten` members follow the
    source: runs are skipped while the id equals the one remembered in a
    ref that starts out holding the mount's id, and one shared flag
    decides whether an answer is dropped. The unsuffixed members are the
    corrected screen: every run loads the current id, and each run's
    answer is dropped exactly when that run has been cleaned up. */
module SoundDetail {
  import opened Base
  import opened Text
  import opened Domain
  import opened SoundCache
  import opened ErrorHandler
  import opened Reducer

  const InvalidIdMessage: string := "Invalid sound ID"
  const LoadFailedMessage: string := "Failed to load sound details."
  const LoadingTitle: string := "Loading..."
  const DefaultTitle: string := "Sound Details"

  /** What the screen shows for a missing or non-numeric id. */
  const Invalid: State<Sound> := State(None, false, Some(InvalidIdMessage))

  /** The route parameter as a sound id: `!soundId` or `isNaN(parseInt(soundId))`
      reject it. The empty string has no digits, so it is rejected too. */
  function ParseId(soundId: Option<string>): (r: Option<int>)
    ensures soundId.None? ==> r.None?
    ensures soundId.Some? ==> r == ParseInt(soundId.value, Auto)
  {
    if soundId.None? then None else ParseInt(soundId.value, Auto)
  }

  /** Every printed id is accepted as itself, and the empty parameter is
      rejected. */
  lemma ParseIdPrinted(n: int)
    ensures ParseId(Some(IntToString(n))) == Some(n)
    ensures ParseId(Some("")) == None
  {
    ParseIntToStringAuto(n);
  }

  /** The lazy initial state: an id that does not parse shows the
      invalid-id error; otherwise the cached sound if there is one, and
      loading exactly when there is none. */
  function Initial(soundId: Option<string>, c: Cache, now: int): (r: (State<Sound>, Cache))
    ensures ParseId(soundId).None? ==> r == (Invalid, c)
    ensures ParseId(soundId).Some? ==>
      var (cached, c1) := GetSound(c, ParseId(soundId).value, now);
      && r.0.data == cached && r.1 == c1
      && r.0.error.None?
      && (r.0.loading <==> cached.None?)
  {
    match ParseId(soundId)
    case None => (Invalid, c)
    case Some(id) =>
      var (cached, c1) := GetSound(c, id, now);
      (State(cached, cached.None?, None), c1)
  }

  /** The page title: the sound's name when it has a non-empty one,
      otherwise (no sound, or a sound whose name is empty and so falsy) a
      loading or a default text; never empty. */
  function DetailTitle(v: State<Sound>): (t: string)
    ensures t != ""
    ensures v.data.Some? && v.data.value.name != "" ==> t == v.data.value.name
    ensures (v.data.None? || v.data.value.name == "") && v.loading ==> t == LoadingTitle
    ensures (v.data.None? || v.data.value.name == "") && !v.loading ==> t == DefaultTitle
  {
    if v.data.Some? && v.data.value.name != "" then v.data.value.name
    else if v.loading then LoadingTitle
    else DefaultTitle
  }

  // ---------------------------------------------------------------------
  // The screen
  // ---------------------------------------------------------------------

  /** `freesound.getSound(id, ...)` sent by the effect run numbered `run`. */
  datatype Request = Request(id: int, run: nat)

  /** What comes back for a request: the sound, or what was thrown. */
  datatype Answer = Delivered(sound: Sound) | Failed(err: Thrown)

  /** The screen between events: the route parameter it was rendered with,
      the reducer's state, `previousSoundIdRef`, `cancelledRef`, the run
      whose cleanup React will call next, the runs already cleaned up, how
      many requests have been sent (which numbers the runs that send one),
      the cache, and the requests not yet answered. */
  datatype Detail = Detail(
    soundId: Option<string>,
    view: State<Sound>,
    previous: Option<string>,
    cancelled: bool,
    cleanup: Option<nat>,
    closed: set<nat>,
    runs: nat,
    cache: Cache,
    pending: seq<Request>)

  /** The cleanup returned by the last run that sent a request: it sets the
      shared flag, and it closes that run. */
  function Cleanup(d: Detail): (r: Detail)
    ensures r.cleanup.None? && r.view == d.view && r.pending == d.pending && r.cache == d.cache
    ensures r.runs == d.runs && r.soundId == d.soundId && r.previous == d.previous
    ensures d.cleanup.Some? ==> r.cancelled && r.closed == d.closed + {d.cleanup.value}
    ensures d.cleanup.None? ==> r == d
  {
    match d.cleanup
    case Some(k) => d.(cancelled := true, closed := d.closed + {k}, cleanup := None)
    case None => d
  }

  /** The loading part of a run, for an id that parsed: the flag is
      cleared, and the cache is read (evicting an expired entry). A hit is
      shown at once; a miss resets the state and sends one request, whose
      run returns the cleanup. */
  function Load(d: Detail, id: int, now: int): (r: Detail)
    ensures r.soundId == d.soundId && r.previous == d.previous && r.closed == d.closed
    ensures !r.cancelled && r.cache == GetSound(d.cache, id, now).1
    ensures GetSound(d.cache, id, now).0.Some? ==>
      && r.view == State(GetSound(d.cache, id, now).0, false, None)
      && r.pending == d.pending && r.cleanup == d.cleanup && r.runs == d.runs
    ensures GetSound(d.cache, id, now).0.None? ==>
      && r.view == State(None, true, None)
      && r.pending == d.pending + [Request(id, d.runs)]
      && r.cleanup == Some(d.runs) && r.runs == d.runs + 1
  {
    var (cached, c1) := GetSound(d.cache, id, now);
    var d1 := d.(cancelled := false, cache := c1);
    match cached
    case Some(s) => d1.(view := Reduce(d1.view, SetCachedData(s)))
    case None =>
      d1.(view := Reduce(d1.view, Reset), pending := d1.pending + [Request(id, d1.runs)],
          cleanup := Some(d1.runs), runs := d1.runs + 1)
  }

  /** One answer arriving: the request leaves the list. Unless `dropped`,
      a sound is shown and stored in the cache, and an error shows its
      text and keeps whatever sound was on show. */
  function Deliver(d: Detail, i: nat, answer: Answer, now: int, dropped: bool): (r: Detail)
    requires i < |d.pending|
    ensures r.pending == d.pending[..i] + d.pending[i + 1..]
    ensures r.soundId == d.soundId && r.previous == d.previous && r.cancelled == d.cancelled
    ensures r.cleanup == d.cleanup && r.closed == d.closed && r.runs == d.runs
    ensures dropped ==> r.view == d.view && r.cache == d.cache
    ensures !dropped && answer.Delivered? ==>
      r.view == State(Some(answer.sound), false, None) && r.cache == SetSound(d.cache, answer.sound, now)
    ensures !dropped && answer.Failed? ==>
      && r.view.data == d.view.data && !r.view.loading
      && r.view.error == Some(ExtractErrorMessage(answer.err, LoadFailedMessage))
      && r.cache == d.cache
  {
    var d1 := d.(pending := d.pending[..i] + d.pending[i + 1..]);
    if dropped then d1
    else
      match answer
      case Delivered(s) => d1.(view := Reduce(d1.view, SetApiData(s)), cache := SetSound(d1.cache, s, now))
      case Failed(e) => d1.(view := Reduce(d1.view, SetError(ExtractErrorMessage(e, LoadFailedMessage))))
  }

  // ---------------------------------------------------------------------
  // As written
  // ---------------------------------------------------------------------

  /** The effect as written: nothing happens while the id equals the
      remembered one; otherwise the id is remembered, and an id that does
      not parse leaves the state alone. */
  function EffectAsWritten(d: Detail, now: int): (r: Detail)
    ensures d.previous == d.soundId ==> r == d
    ensures r.previous == d.soundId && r.soundId == d.soundId
    ensures ParseId(d.soundId).None? ==> r.view == d.view && r.pending == d.pending && r.cache == d.cache
    ensures d.previous != d.soundId && ParseId(d.soundId).Some? ==> r == Load(d.(previous := d.soundId), ParseId(d.soundId).value, now)
  {
    if d.previous == d.soundId then d
    else
      var d1 := d.(previous := d.soundId);
      match ParseId(d.soundId)
      case None => d1
      case Some(id) => Load(d1, id, now)
  }

  /** Mounting as written: the ref starts out holding the mount's id, so
      the first run of the effect does nothing and no request is sent,
      whatever the cache holds. */
  function MountAsWritten(soundId: Option<string>, c: Cache, now: int): (r: Detail)
    ensures r.view == Initial(soundId, c, now).0 && r.cache == Initial(soundId, c, now).1
    ensures r.pending == [] && r.cleanup.None? && r.previous == soundId
  {
    var (v, c1) := Initial(soundId, c, now);
    EffectAsWritten(Detail(soundId, v, soundId, false, None, {}, 0, c1, []), now)
  }

  /** A render with route parameter `soundId` whose dependencies changed:
      the last cleanup, then the effect as written. */
  function RerunAsWritten(d: Detail, soundId: Option<string>, now: int): (r: Detail)
    ensures r.soundId == soundId && r.previous == soundId
    ensures d.previous == soundId ==>
      r.view == d.view && r.pending == d.pending && r.cleanup.None? && (d.cleanup.Some? ==> r.cancelled)
  {
    EffectAsWritten(Cleanup(d).(soundId := soundId), now)
  }

  /** An answer as written: dropped exactly when the shared flag is set. */
  function RespondAsWritten(d: Detail, i: nat, answer: Answer, now: int): (r: Detail)
    requires i < |d.pending|
    ensures d.cancelled ==> r.view == d.view
    ensures !d.cancelled && answer.Delivered? ==> r.view.data == Some(answer.sound)
  {
    Deliver(d, i, answer, now, d.cancelled)
  }

  // ---------------------------------------------------------------------
  // Corrected
  // ---------------------------------------------------------------------

  /** The corrected effect: every run loads the id it was rendered with,
      and an id that does not parse shows the invalid-id state. */
  function Effect(d: Detail, now: int): (r: Detail)
    ensures r.soundId == d.soundId && r.closed == d.closed
    ensures ParseId(d.soundId).None? ==> r.view == Invalid && r.pending == d.pending && r.cache == d.cache && r.cleanup == d.cleanup && r.runs == d.runs
    ensures ParseId(d.soundId).Some? ==> r == Load(d.(previous := d.soundId), ParseId(d.soundId).value, now)
  {
    var d1 := d.(previous := d.soundId);
    match ParseId(d.soundId)
    case None => d1.(view := Reduce(Reduce(d1.view, Reset), SetError(InvalidIdMessage)))
    case Some(id) => Load(d1, id, now)
  }

  /** Mounting: the first run of the effect loads the id. */
  function Mount(soundId: Option<string>, c: Cache, now: int): (r: Detail)
    ensures r.soundId == soundId && r.closed == {}
  {
    var (v, c1) := Initial(soundId, c, now);
    Effect(Detail(soundId, v, None, false, None, {}, 0, c1, []), now)
  }

  /** A render with route parameter `soundId` whose dependencies changed:
      the last cleanup closes its run, then the corrected effect. */
  function Rerun(d: Detail, soundId: Option<string>, now: int): (r: Detail)
    ensures r.soundId == soundId
    ensures d.cleanup.Some? ==> d.cleanup.value in r.closed
  {
    Effect(Cleanup(d).(soundId := soundId), now)
  }

  /** A corrected answer: dropped exactly when the run that sent it has
      been cleaned up. */
  function Respond(d: Detail, i: nat, answer: Answer, now: int): (r: Detail)
    requires i < |d.pending|
    ensures d.pending[i].run in d.closed ==> r.view == d.view && r.cache == d.cache
    ensures d.pending[i].run !in d.closed && answer.Delivered? ==> r.view.data == Some(answer.sound)
  {
    Deliver(d, i, answer, now, d.pending[i].run in d.closed)
  }

  // ---------------------------------------------------------------------
  // What the corrected screen guarantees
  // ---------------------------------------------------------------------

  /** Every cached sound sits under its own id. */
  predicate CacheKeyed(c: Cache) {
    forall id | id in c.sounds :: c.sounds[id].data.id == id
  }

  /** The answer the server gives to `r`: a sound with the requested id,
      or an error. */
  predicate Answers(answer: Answer, r: Request) {
    answer.Delivered? ==> answer.sound.id == r.id
  }

  /** Run numbering: every request and every closed run is numbered below
      the counter, and the run whose cleanup is due is not closed. Every
      request of a run still open belongs to that run and asks for the id
      on the route. */
  predicate Bookkept(d: Detail) {
    && (forall k | 0 <= k < |d.pending| :: d.pending[k].run < d.runs)
    && (forall n | n in d.closed :: n < d.runs)
    && (d.cleanup.Some? ==> d.cleanup.value < d.runs && d.cleanup.value !in d.closed)
    && (forall k | 0 <= k < |d.pending| && d.pending[k].run !in d.closed ::
          d.cleanup == Some(d.pending[k].run) && ParseId(d.soundId) == Some(d.pending[k].id))
  }

  /** The screen is faithful to the route: a sound on show is the one the
      route names, an id that does not parse shows the invalid-id state,
      and while loading, a request for the route's id is in flight and its
      run is still open. */
  predicate Faithful(d: Detail) {
    && CacheKeyed(d.cache)
    && Bookkept(d)
    && (d.view.data.Some? ==> ParseId(d.soundId) == Some(d.view.data.value.id))
    && (ParseId(d.soundId).None? ==> d.view == Invalid)
    && (d.view.loading ==>
          && ParseId(d.soundId).Some? && d.cleanup.Some?
          && Request(ParseId(d.soundId).value, d.cleanup.value) in d.pending)
  }

  lemma GetSoundKeyed(c: Cache, id: int, now: int)
    requires CacheKeyed(c)
    ensures CacheKeyed(GetSound(c, id, now).1)
    ensures GetSound(c, id, now).0.Some? ==> GetSound(c, id, now).0.value.id == id
  {
  }

  lemma SetSoundKeyed(c: Cache, s: Sound, now: int)
    requires CacheKeyed(c)
    ensures CacheKeyed(SetSound(c, s, now))
  {
  }

  /** No run is open: no cleanup is due, and every request and every
      closed run is numbered below the counter, with every request's run
      closed. This is what a cleanup leaves behind. */
  predicate AllClosed(d: Detail) {
    && d.cleanup.None?
    && (forall k | 0 <= k < |d.pending| :: d.pending[k].run < d.runs && d.pending[k].run in d.closed)
    && (forall n | n in d.closed :: n < d.runs)
  }

  /** A run of the corrected effect on a screen whose earlier runs are all
      closed and whose cache is keyed leaves a faithful screen. */
  lemma EffectFaithful(d: Detail, now: int)
    requires CacheKeyed(d.cache) && AllClosed(d)
    ensures Faithful(Effect(d, now))
  {
    match ParseId(d.soundId)
    case None =>
      assert Effect(d, now).view == Invalid;
    case Some(id) =>
      GetSoundKeyed(d.cache, id, now);
      if GetSound(d.cache, id, now).0.Some? {
        HitFaithful(d.(previous := d.soundId), id, now);
      } else {
        MissFaithful(d.(previous := d.soundId), id, now);
      }
  }

  lemma HitFaithful(d: Detail, id: int, now: int)
    requires CacheKeyed(d.cache) && AllClosed(d) && ParseId(d.soundId) == Some(id)
    requires GetSound(d.cache, id, now).0.Some?
    ensures Faithful(Load(d, id, now))
  {
    GetSoundKeyed(d.cache, id, now);
  }

  lemma MissFaithful(d: Detail, id: int, now: int)
    requires CacheKeyed(d.cache) && AllClosed(d) && ParseId(d.soundId) == Some(id)
    requires GetSound(d.cache, id, now).0.None?
    ensures Faithful(Load(d, id, now))
  {
    GetSoundKeyed(d.cache, id, now);
    MissBookkept(d, id, now);
  }

  lemma MissBookkept(d: Detail, id: int, now: int)
    requires AllClosed(d) && ParseId(d.soundId) == Some(id)
    requires GetSound(d.cache, id, now).0.None?
    ensures Bookkept(Load(d, id, now))
    ensures Request(id, d.runs) in Load(d, id, now).pending
  {
    AppendOpen(d.pending, d.closed, d.runs, id);
  }

  /** Appending a request of a fresh run to requests whose runs are all
      closed: every run stays below the raised counter, and the new request
      is the only one whose run is open. */
  lemma AppendOpen(ps: seq<Request>, closed: set<nat>, runs: nat, id: int)
    requires forall k | 0 <= k < |ps| :: ps[k].run < runs && ps[k].run in closed
    requires forall n | n in closed :: n < runs
    ensures var qs := ps + [Request(id, runs)];
      && (forall k | 0 <= k < |qs| :: qs[k].run < runs + 1)
      && (forall k | 0 <= k < |qs| && qs[k].run !in closed :: qs[k] == Request(id, runs))
      && Request(id, runs) in qs
      && runs !in closed
  {
    var qs := ps + [Request(id, runs)];
    assert qs[|ps|] == Request(id, runs);
    assert forall k | 0 <= k < |ps| :: qs[k] == ps[k];
  }

  /** Mounting the corrected screen over a keyed cache is faithful. */
  lemma MountFaithful(soundId: Option<string>, c: Cache, now: int)
    requires CacheKeyed(c)
    ensures Faithful(Mount(soundId, c, now))
  {
    if ParseId(soundId).Some? {
      GetSoundKeyed(c, ParseId(soundId).value, now);
    }
    EffectFaithful(Detail(soundId, Initial(soundId, c, now).0, None, false, None, {}, 0, Initial(soundId, c, now).1, []), now);
  }

  /** Every later run of the corrected effect, for any route parameter,
      keeps the screen faithful: the cleanup closes the only open run. */
  lemma RerunFaithful(d: Detail, soundId: Option<string>, now: int)
    requires Faithful(d)
    ensures Faithful(Rerun(d, soundId, now))
  {
    var d1 := Cleanup(d).(soundId := soundId);
    forall k | 0 <= k < |d1.pending|
      ensures d1.pending[k].run < d1.runs && d1.pending[k].run in d1.closed
    {
      assert d1.pending[k] == d.pending[k];
    }
    assert AllClosed(d1);
    EffectFaithful(d1, now);
  }

  /** Every answer the server can give keeps the corrected screen
      faithful: an answer from a closed run changes nothing on show, and
      one from the open run is for the route's id. */
  lemma RespondFaithful(d: Detail, i: nat, answer: Answer, now: int)
    requires Faithful(d) && i < |d.pending| && Answers(answer, d.pending[i])
    ensures Faithful(Respond(d, i, answer, now))
  {
    if d.pending[i].run in d.closed {
      ClosedAnswerFaithful(d, i, answer, now);
    } else {
      OpenAnswerFaithful(d, i, answer, now);
    }
  }

  /** Removing one request keeps the others, in order. */
  lemma RemoveAt(s: seq<Request>, i: nat)
    requires i < |s|
    ensures var r := s[..i] + s[i + 1..];
      && |r| == |s| - 1
      && (forall k | 0 <= k < |r| :: r[k] == s[if k < i then k else k + 1])
      && (forall x | x in s && x != s[i] :: x in r)
  {
    var r := s[..i] + s[i + 1..];
    forall x | x in s && x != s[i] ensures x in r {
      var j :| 0 <= j < |s| && s[j] == x;
      assert x == r[if j < i then j else j - 1];
    }
  }

  lemma ClosedAnswerFaithful(d: Detail, i: nat, answer: Answer, now: int)
    requires Faithful(d) && i < |d.pending| && d.pending[i].run in d.closed
    ensures Faithful(Respond(d, i, answer, now))
  {
    var r := Respond(d, i, answer, now);
    RemoveAt(d.pending, i);
    assert r.view == d.view && r.cache == d.cache && r.cleanup == d.cleanup;
    if d.view.loading {
      assert Request(ParseId(d.soundId).value, d.cleanup.value) != d.pending[i];
    }
  }

  lemma OpenAnswerFaithful(d: Detail, i: nat, answer: Answer, now: int)
    requires Faithful(d) && i < |d.pending| && Answers(answer, d.pending[i])
    requires d.pending[i].run !in d.closed
    ensures Faithful(Respond(d, i, answer, now))
  {
    var r := Respond(d, i, answer, now);
    RemoveAt(d.pending, i);
    assert ParseId(d.soundId) == Some(d.pending[i].id);
    assert !r.view.loading;
    if answer.Delivered? {
      SetSoundKeyed(d.cache, answer.sound, now);
    }
  }

  /** Mounting on an id the cache does not hold sends exactly one request,
      and its answer is shown and stored: the sound is then served from the
      cache for five minutes. */
  lemma MountLoads(soundId: Option<string>, c: Cache, now: int, s: Sound, later: int)
    requires ParseId(soundId).Some? && GetSound(c, ParseId(soundId).value, now).0.None?
    requires s.id == ParseId(soundId).value && now <= later && later - now < ExpiryMs
    ensures var d := Mount(soundId, c, now);
      && d.pending == [Request(s.id, 0)] && d.view == State(None, true, None)
      && Respond(d, 0, Delivered(s), now).view == State(Some(s), false, None)
      && GetSound(Respond(d, 0, Delivered(s), now).cache, s.id, later).0 == Some(Strip(s))
  {
    var d := Mount(soundId, c, now);
    SetThenGet(d.cache, s, now, later);
  }

  // ---------------------------------------------------------------------
  // Scenarios
  // ---------------------------------------------------------------------

  const One: Sound := Sound(1, "one", None)
  const Two: Sound := Sound(2, "two", None)
  const NoCache: Cache := Cache(map[], map[], Absent, Absent)

  /** A cache holding `Two`, stored at time 0. */
  function WithTwo(): (c: Cache)
    ensures GetSound(c, 2, 0) == (Some(Two), c) && GetSound(c, 1, 0) == (None, c)
    ensures GetSound(c, 2, ExpiryMs).0.None?
    ensures CacheKeyed(c)
  {
    SetSound(NoCache, Two, 0)
  }

  /** A one-digit route parameter is read as its digit. */
  lemma ParseDigit(c: char)
    requires '0' <= c <= '9'
    ensures ParseId(Some([c])) == Some(c as int - '0' as int)
  {
    var s := [c];
    assert TrimStart(s) == s && Unsigned(s) == s;
    assert DigitRun(s, 10) == s;
    assert RunValue(s, 10) == RunValue(s[..0], 10) * 10 + DigitValue(c);
  }

  /** A parameter that starts with a letter is rejected. */
  lemma ParseWord()
    ensures ParseId(Some("abc")) == None
  {
    assert Unsigned("abc") == "abc";
    assert DigitRun("abc", 10) == [];
  }

  lemma SmallIds()
    ensures ParseId(Some("1")) == Some(1) && ParseId(Some("2")) == Some(2) && ParseId(Some("7")) == Some(7)
    ensures ParseId(Some("abc")) == None
  {
    ParseDigit('1');
    ParseDigit('2');
    ParseDigit('7');
    ParseWord();
  }

  /** As written, mounting on an id that is not cached shows the loading
      state with no request in flight: no answer can ever end it, and a
      re-render with the same id leaves it as it is. */
  lemma UncachedMountStuck(later: int)
    ensures var d := MountAsWritten(Some("7"), NoCache, 0);
      && d.view == State(None, true, None) && d.pending == []
      && DetailTitle(d.view) == LoadingTitle
      && RerunAsWritten(d, Some("7"), later).view == d.view
      && RerunAsWritten(d, Some("7"), later).pending == []
  {
    SmallIds();
  }

  /** As written: showing sound 2 (cached), the route moves to sound 1
      (not cached: one request) and back to sound 2 (cached). The cleanup
      sets the shared flag, but the run for sound 2 clears it again, so the
      late answer for sound 1 is shown under the route of sound 2. */
  lemma StaleAnswerShown()
    ensures var d0 := MountAsWritten(Some("2"), WithTwo(), 0);
      var d1 := RerunAsWritten(d0, Some("1"), 0);
      var d2 := RerunAsWritten(d1, Some("2"), 0);
      && d2.view.data == Some(Two) && d2.pending == [Request(1, 0)]
      && RespondAsWritten(d2, 0, Delivered(One), 0).soundId == Some("2")
      && RespondAsWritten(d2, 0, Delivered(One), 0).view.data == Some(One)
  {
    var d0 := MountAsWritten(Some("2"), WithTwo(), 0);
    MountAsWrittenOnTwo();
    ParseDigit('1');
    assert Some("2") != Some("1") by { assert "2"[0] != "1"[0]; }
    RerunToMissAsWritten(d0, "1", 1, 0);
    var d1 := RerunAsWritten(d0, Some("1"), 0);
    assert d1.pending == [Request(1, 0)];
    RerunToHitAsWritten(d1);
  }

  lemma MountAsWrittenOnTwo()
    ensures var d := MountAsWritten(Some("2"), WithTwo(), 0);
      && d.view.data == Some(Two) && d.cache == WithTwo() && d.runs == 0
      && d.previous == Some("2") && d.pending == [] && d.cleanup.None?
  {
    ParseDigit('2');
  }

  lemma RerunToHitAsWritten(d: Detail)
    requires d.previous == Some("1") && d.cleanup == Some(0) && d.pending == [Request(1, 0)]
    requires d.cache == WithTwo()
    ensures var r := RerunAsWritten(d, Some("2"), 0);
      && r.view.data == Some(Two) && r.pending == [Request(1, 0)] && !r.cancelled
      && r.soundId == Some("2")
  {
    ParseDigit('2');
    assert Some("1") != Some("2") by { assert "1"[0] != "2"[0]; }
  }

  /** Corrected: the same events leave sound 2 on show, because the answer
      belongs to a run that has been cleaned up. */
  lemma StaleAnswerDropped()
    ensures var d0 := Mount(Some("2"), WithTwo(), 0);
      var d1 := Rerun(d0, Some("1"), 0);
      var d2 := Rerun(d1, Some("2"), 0);
      && d2.pending == [Request(1, 0)]
      && Respond(d2, 0, Delivered(One), 0).view.data == Some(Two)
  {
    SmallIds();
    var d0 := Mount(Some("2"), WithTwo(), 0);
    assert d0.cache == WithTwo() && d0.runs == 0;
    var d1 := Rerun(d0, Some("1"), 0);
    assert d1.pending == [Request(1, 0)] && d1.cleanup == Some(0) && d1.cache == WithTwo();
    var d2 := Rerun(d1, Some("2"), 0);
    assert 0 in d2.closed && d2.view.data == Some(Two);
  }

  /** A cache holding `One`, stored at `ExpiryMs`, and `Two`, stored at 0
      and so expired at `ExpiryMs`: reading `Two` then misses and evicts
      it, which changes the cache, and a second read misses again. */
  function BothStored(): (c: Cache)
    ensures GetSound(c, 1, ExpiryMs) == (Some(One), c)
    ensures GetSound(c, 2, ExpiryMs).0.None? && GetSound(c, 2, ExpiryMs).1 != c
    ensures var e := GetSound(c, 2, ExpiryMs).1; GetSound(e, 2, ExpiryMs) == (None, e)
  {
    var c := SetSound(WithTwo(), One, ExpiryMs);
    assert 2 in c.sounds && c.sounds[2].timestamp == 0;
    assert 2 !in GetSound(c, 2, ExpiryMs).1.sounds;
    c
  }

  /** As written, a run for an unchanged id while a request is in flight
      only cleans up: the shared flag is set, so every answer then arriving
      is dropped and the screen keeps what it shows. */
  lemma SameIdRerunDrops(d: Detail, now: int, i: nat, answer: Answer, later: int)
    requires d.cleanup.Some? && d.previous == d.soundId && i < |d.pending|
    ensures var r := RerunAsWritten(d, d.soundId, now);
      && r.view == d.view && r.pending == d.pending && r.cancelled
      && RespondAsWritten(r, i, answer, later).view == d.view
  {
  }

  /** Mounting on sound 1 (cached) and moving to sound 2 (a miss whose read
      changes the cache) sends one request, as written and corrected. */
  lemma MoveToMissAsWritten(c: Cache, now: int)
    requires GetSound(c, 1, now) == (Some(One), c)
    requires GetSound(c, 2, now).0.None?
    ensures var d := RerunAsWritten(MountAsWritten(Some("1"), c, now), Some("2"), now);
      && d.view == State(None, true, None) && d.pending == [Request(2, 0)]
      && d.cleanup == Some(0) && d.previous == d.soundId == Some("2")
      && d.cache == GetSound(c, 2, now).1
  {
    MountAsWrittenOnHit(c, now);
    ParseDigit('2');
    assert Some("1") != Some("2") by { assert "1"[0] != "2"[0]; }
    RerunToMissAsWritten(MountAsWritten(Some("1"), c, now), "2", 2, now);
  }

  lemma MountAsWrittenOnHit(c: Cache, now: int)
    requires GetSound(c, 1, now) == (Some(One), c)
    ensures var d := MountAsWritten(Some("1"), c, now);
      d.cache == c && d.runs == 0 && d.previous == Some("1") && d.pending == [] && d.cleanup.None?
  {
    ParseDigit('1');
  }

  /** As written, a run for a new id that misses the cache sends one
      request, numbered with the run counter. */
  lemma RerunToMissAsWritten(d: Detail, to: string, id: int, now: int)
    requires ParseId(Some(to)) == Some(id) && d.previous != Some(to)
    requires d.cleanup.None? && GetSound(d.cache, id, now).0.None?
    ensures var r := RerunAsWritten(d, Some(to), now);
      && r.view == State(None, true, None) && r.pending == d.pending + [Request(id, d.runs)]
      && r.cleanup == Some(d.runs) && r.previous == r.soundId == Some(to)
      && r.cache == GetSound(d.cache, id, now).1
  {
  }

  lemma MoveToMiss(c: Cache, now: int)
    requires GetSound(c, 1, now) == (Some(One), c)
    requires GetSound(c, 2, now).0.None?
    ensures var d := Rerun(Mount(Some("1"), c, now), Some("2"), now);
      && d.view == State(None, true, None) && d.pending == [Request(2, 0)]
      && d.cleanup == Some(0) && d.closed == {} && d.runs == 1 && d.soundId == Some("2")
      && d.cache == GetSound(c, 2, now).1
  {
    ParseDigit('1');
    ParseDigit('2');
    var e0 := Mount(Some("1"), c, now);
    assert e0.pending == [] && e0.runs == 0 && e0.cleanup.None? && e0.closed == {} && e0.cache == c;
  }

  /** As written: showing sound 1, the route moves to sound 2, whose cache
      entry has expired (as in `BothStored`). Reading it evicts it, which
      changes the cache, so the effect runs again with the same id: its
      cleanup sets the flag, the run itself is skipped, and the answer for
      sound 2 is dropped. The screen stays in the loading state with
      nothing in flight. */
  lemma EvictionStrandsLoad(c: Cache, now: int)
    requires GetSound(c, 1, now) == (Some(One), c)
    requires GetSound(c, 2, now).0.None? && GetSound(c, 2, now).1 != c
    ensures var d1 := RerunAsWritten(MountAsWritten(Some("1"), c, now), Some("2"), now);
      var d2 := RerunAsWritten(d1, Some("2"), now);
      && d1.cache != c && d1.pending == [Request(2, 0)]
      && d2.pending == [Request(2, 0)]
      && RespondAsWritten(d2, 0, Delivered(Two), now).view == State(None, true, None)
      && RespondAsWritten(d2, 0, Delivered(Two), now).pending == []
  {
    MoveToMissAsWritten(c, now);
    var d1 := RerunAsWritten(MountAsWritten(Some("1"), c, now), Some("2"), now);
    SameIdRerunDrops(d1, now, 0, Delivered(Two), now);
  }

  /** Corrected: after the same events a second request for sound 2 is in
      flight, and answering it shows sound 2. */
  lemma EvictionReloads(c: Cache, now: int)
    requires GetSound(c, 1, now) == (Some(One), c)
    requires GetSound(c, 2, now).0.None?
    requires var e := GetSound(c, 2, now).1; GetSound(e, 2, now) == (None, e)
    ensures var d2 := Rerun(Rerun(Mount(Some("1"), c, now), Some("2"), now), Some("2"), now);
      && d2.pending == [Request(2, 0), Request(2, 1)]
      && Respond(d2, 0, Delivered(Two), now).pending == [Request(2, 1)]
      && Respond(Respond(d2, 0, Delivered(Two), now), 0, Delivered(Two), now).view
         == State(Some(Two), false, None)
  {
    MoveToMiss(c, now);
    SecondRun(Rerun(Mount(Some("1"), c, now), Some("2"), now), now);
  }

  /** Corrected: a second run for an id that still misses closes the first
      request's run and sends another; only the second answer is shown. */
  lemma SecondRun(d: Detail, now: int)
    requires d.pending == [Request(2, 0)] && d.cleanup == Some(0) && d.closed == {} && d.runs == 1
    requires d.soundId == Some("2") && GetSound(d.cache, 2, now) == (None, d.cache)
    ensures var d2 := Rerun(d, Some("2"), now);
      && d2.pending == [Request(2, 0), Request(2, 1)]
      && Respond(d2, 0, Delivered(Two), now).pending == [Request(2, 1)]
      && Respond(Respond(d2, 0, Delivered(Two), now), 0, Delivered(Two), now).view
         == State(Some(Two), false, None)
  {
    RerunAgainMisses(d, now);
    OnlySecondAnswerShown(Rerun(d, Some("2"), now), now);
  }

  lemma RerunAgainMisses(d: Detail, now: int)
    requires d.pending == [Request(2, 0)] && d.cleanup == Some(0) && d.closed == {} && d.runs == 1
    requires GetSound(d.cache, 2, now) == (None, d.cache)
    ensures var d2 := Rerun(d, Some("2"), now);
      d2.pending == [Request(2, 0), Request(2, 1)] && d2.closed == {0}
  {
    ParseDigit('2');
    var c1 := Cleanup(d).(soundId := Some("2"));
    assert c1.closed == {0} && c1.cache == d.cache && c1.runs == 1 && c1.pending == [Request(2, 0)];
  }

  lemma OnlySecondAnswerShown(d2: Detail, now: int)
    requires d2.pending == [Request(2, 0), Request(2, 1)] && d2.closed == {0}
    ensures Respond(d2, 0, Delivered(Two), now).pending == [Request(2, 1)]
    ensures Respond(Respond(d2, 0, Delivered(Two), now), 0, Delivered(Two), now).view
         == State(Some(Two), false, None)
  {
    var d3 := Respond(d2, 0, Delivered(Two), now);
    assert d3.pending == d2.pending[..0] + d2.pending[1..];
    assert d3.pending == [Request(2, 1)];
    assert 1 !in d3.closed;
  }

  /** As written: showing sound 2, the route moves to an id that does not
      parse; the run is skipped after remembering the id, so sound 2 stays
      on show under the invalid route. Corrected, the invalid-id state is
      shown. */
  lemma InvalidRouteKeepsSound()
    ensures var d0 := MountAsWritten(Some("2"), WithTwo(), 0);
      RerunAsWritten(d0, Some("abc"), 0).view.data == Some(Two)
    ensures Rerun(Mount(Some("2"), WithTwo(), 0), Some("abc"), 0).view == Invalid
  {
    SmallIds();
  }
}

=== FILE: SpaRedirect.dfy ===
/** The GitHub Pages route restore run before the application mounts. A
    static host answers a deep link such as `/base/sound/123?x=1` with its
    404 page, which sends the browser to `/base/?/sound/123&x=1`: the route
    moves into the query string, with every `&` written `~and~`. The start
    page must turn that address back into the route. The 404 page is not
    part of the repository; `Redirect` models what it is documented to do. */
module SpaRedirect {
  import opened Base
  import opened Text

  /** The number of leading path segments that name the site (the
      repository's base path). */
  const PathSegmentsToKeep: nat := 1

  /** How the 404 page writes `&` inside the moved route. */
  const EscapedAmpersand: string := "~and~"

  /** `window.location`, as its three parts: the path, the query string
      (empty, or starting with `?`) and the fragment (empty, or starting
      with `#`). */
  datatype Location = Location(pathname: string, search: string, hash: string)

  /** A location as a browser reports it: the path never holds `?` or `#`,
      which start the other two parts. */
  predicate BrowserLocation(l: Location) {
    && '?' !in l.pathname && '#' !in l.pathname
    && (l.search == "" || (l.search[0] == '?' && '#' !in l.search))
    && (l.hash == "" || l.hash[0] == '#')
  }

  /** `s.slice(1)`: everything after the first character. */
  function DropFirst(s: string): (r: string)
    ensures |s| > 0 ==> [s[0]] + r == s
    ensures |s| == 0 ==> r == ""
  {
    if |s| > 0 then s[1..] else ""
  }

  /** `s.slice(0, -1)`: everything but the last character. */
  function DropLast(s: string): (r: string)
    ensures |s| > 0 ==> r + [s[|s| - 1]] == s
    ensures |s| == 0 ==> r == ""
  {
    if |s| > 0 then s[..|s| - 1] else ""
  }

  /** `replace(/&/g, '~and~')`, as the 404 page writes a piece of the
      route. */
  function Escape(s: string): (r: string)
    ensures '&' !in r
    ensures '&' !in s ==> r == s
  {
    if |s| == 0 then ""
    else
      var rest := Escape(s[1..]);
      assert '&' !in s ==> '&' !in s[1..];
      assert s == [s[0]] + s[1..];
      if s[0] == '&' then EscapedAmpersand + rest else [s[0]] + rest
  }

  /** `replace(/~and~/g, '&')`. */
  function Unescape(s: string): (r: string)
    ensures '~' !in s ==> r == s
  {
    NoTildeNoEscape(s);
    ReplaceAll(s, EscapedAmpersand, "&")
  }

  lemma NoTildeNoEscape(s: string)
    ensures '~' !in s ==> !Contains(s, EscapedAmpersand)
  {
    if Contains(s, EscapedAmpersand) {
      var i :| 0 <= i <= |s| - |EscapedAmpersand| && OccursAt(s, EscapedAmpersand, i);
      assert s[i] == s[i..i + 5][0] == '~';
    }
  }

  /** A character that cannot start `~and~` passes through the
      replacement. */
  lemma ReplaceHead(c: char, t: string, pat: string, rep: string)
    requires |pat| > 0 && c != pat[0]
    ensures ReplaceAll([c] + t, pat, rep) == [c] + ReplaceAll(t, pat, rep)
  {
    var s := [c] + t;
    assert s[1..] == t;
    if |s| >= |pat| {
      assert s[..|pat|][0] == c;
    }
  }

  /** An occurrence at the front is replaced, and the rest follows. */
  lemma ReplaceFront(t: string, pat: string, rep: string)
    requires |pat| > 0
    ensures ReplaceAll(pat + t, pat, rep) == rep + ReplaceAll(t, pat, rep)
  {
    var s := pat + t;
    assert s[..|pat|] == pat && s[|pat|..] == t;
  }

  /** Reading a piece back restores it, as long as it held no `~` of its
      own. */
  lemma {:induction false} UnescapeEscape(s: string)
    requires '~' !in s
    ensures Unescape(Escape(s)) == s
  {
    if |s| > 0 {
      assert '~' !in s[1..];
      UnescapeEscape(s[1..]);
      if s[0] == '&' {
        EscapedAmpersandStep(s);
      } else {
        PlainStep(s);
      }
    }
  }

  lemma EscapedAmpersandStep(s: string)
    requires |s| > 0 && s[0] == '&'
    requires Unescape(Escape(s[1..])) == s[1..]
    ensures Unescape(Escape(s)) == s
  {
    var rest := Escape(s[1..]);
    assert Escape(s) == EscapedAmpersand + rest;
    ReplaceFront(rest, EscapedAmpersand, "&");
    assert s == "&" + s[1..];
  }

  lemma PlainStep(s: string)
    requires |s| > 0 && s[0] != '&' && s[0] != '~'
    requires Unescape(Escape(s[1..])) == s[1..]
    ensures Unescape(Escape(s)) == s
  {
    var rest := Escape(s[1..]);
    assert Escape(s) == [s[0]] + rest;
    ReplaceHead(s[0], rest, EscapedAmpersand, "&");
    assert s == [s[0]] + s[1..];
  }

  lemma UnescapeHead(c: char, t: string)
    requires c != '~'
    ensures Unescape([c] + t) == [c] + Unescape(t)
  {
    ReplaceHead(c, t, EscapedAmpersand, "&");
  }

  // ---------------------------------------------------------------------
  // The 404 page
  // ---------------------------------------------------------------------

  /** Where the 404 page sends a request for `/base/rest?query#hash` (the
      query without its `?`, empty when there is none): the base path
      stays, the rest of the route moves into the query string after
      `?/`, the original query follows after `&`, and the fragment is
      kept. */
  function Redirect(base: string, rest: string, query: string, hash: string): (l: Location)
    ensures l.pathname == "/" + base + "/" && l.hash == hash
    ensures StartsWith(l.search, "?/")
  {
    Location("/" + base + "/",
             "?/" + Escape(rest) + (if query != "" then "&" + Escape(query) else ""),
             hash)
  }

  /** The address the browser was first asked for. */
  function Original(base: string, rest: string, query: string, hash: string): string {
    "/" + base + "/" + rest + (if query != "" then "?" + query else "") + hash
  }

  // ---------------------------------------------------------------------
  // The restore as the start page writes it
  // ---------------------------------------------------------------------

  /** The rewrite as written: only when the path contains `/?/`, the path
      loses its first segment and the query string its `?`, both have
      `~and~` turned back into `&`, and the new address is `/`, the path,
      `?` and the query when that is not empty, and the fragment. */
  function RestoreAsWritten(l: Location): (r: Option<string>)
    ensures r.Some? <==> Contains(l.pathname, "/?/")
    ensures r.Some? ==> StartsWith(r.value, "/") && EndsWith(r.value, l.hash)
  {
    if Contains(l.pathname, "/?/") then
      var pieces := Split(DropFirst(l.pathname), '/');
      var path := Unescape(Join(pieces[PathSegmentsToKeep..], "/"));
      var search := Unescape(DropFirst(l.search));
      var r := "/" + path + (if search != "" then "?" + search else "") + l.hash;
      assert r[..1] == "/";
      assert r[|r| - |l.hash|..] == l.hash;
      Some(r)
    else None
  }

  /** What the rewrite would do to a path holding `/?/`: the first segment
      goes, the rest of the path stays, and the query string keeps all but
      its `?`. */
  lemma RestoreAsWrittenDropsFirstSegment(seg: string, rest: string, search: string, hash: string)
    requires '/' !in seg && '~' !in rest && '~' !in search
    requires Contains("/" + seg + "/" + rest, "/?/")
    ensures RestoreAsWritten(Location("/" + seg + "/" + rest, search, hash)) ==
      Some("/" + rest + (if |search| > 1 then "?" + search[1..] else "") + hash)
  {
    var p := "/" + seg + "/" + rest;
    assert DropFirst(p) == seg + ['/'] + rest;
    SplitAfterPiece(seg, rest, '/');
    var pieces := Split(DropFirst(p), '/');
    assert pieces[1..] == Split(rest, '/');
    assert Join(pieces[PathSegmentsToKeep..], "/") == rest;
    assert '~' !in DropFirst(search);
  }

  /** The path a browser reports never holds `?`, so the rewrite as
      written never happens. */
  lemma BrowserPathNeverRestored(l: Location)
    requires BrowserLocation(l)
    ensures RestoreAsWritten(l).None?
  {
    NoQueryMark(l.pathname);
  }

  lemma NoQueryMark(p: string)
    requires '?' !in p
    ensures !Contains(p, "/?/")
  {
    forall i | 0 <= i <= |p| - 3 ensures !OccursAt(p, "/?/", i) {
      assert p[i..i + 3][1] == p[i + 1];
      assert p[i + 1] in p;
    }
  }

  /** In particular, the address the 404 page produces is left as it is,
      so the route it carries is lost. */
  lemma RedirectNotRestoredAsWritten(base: string, rest: string, query: string, hash: string)
    requires '?' !in base
    ensures RestoreAsWritten(Redirect(base, rest, query, hash)).None?
  {
    assert '?' !in "/" + base + "/";
    NoQueryMark("/" + base + "/");
  }

  // ---------------------------------------------------------------------
  // The restore the 404 page is paired with
  // ---------------------------------------------------------------------

  /** The restore the redirect is designed for: when the query string
      starts with `?/`, it is split at `&`, each piece has `~and~` turned
      back into `&`, and the pieces are joined with `?`; the path loses its
      trailing `/` and the fragment is kept. */
  function Restore(l: Location): (r: Option<string>)
    ensures r.Some? <==> StartsWith(l.search, "?/")
    ensures r.Some? ==> StartsWith(r.value, DropLast(l.pathname) + "/") && EndsWith(r.value, l.hash)
  {
    if StartsWith(l.search, "?/") then
      var pieces := Split(DropFirst(l.search), '&');
      var decoded := Join(UnescapeAll(pieces), "?");
      assert DropFirst(l.search)[0] == '/';
      UnescapeAllHead(pieces);
      AddressShape(DropLast(l.pathname), decoded, l.hash);
      Some(DropLast(l.pathname) + decoded + l.hash)
    else None
  }

  lemma AddressShape(path: string, route: string, hash: string)
    requires |route| > 0 && route[0] == '/'
    ensures StartsWith(path + route + hash, path + "/") && EndsWith(path + route + hash, hash)
  {
    var r := path + route + hash;
    assert r[..|path| + 1] == path + "/";
    assert r[|r| - |hash|..] == hash;
  }

  function UnescapeAll(pieces: seq<string>): (r: seq<string>)
    ensures |r| == |pieces|
    ensures forall k :: 0 <= k < |pieces| ==> r[k] == Unescape(pieces[k])
  {
    if |pieces| == 0 then [] else [Unescape(pieces[0])] + UnescapeAll(pieces[1..])
  }

  /** A first piece starting with `/` still does after the replacement, and
      then so does the join. */
  lemma UnescapeAllHead(pieces: seq<string>)
    requires |pieces| >= 1 && |pieces[0]| > 0 && pieces[0][0] == '/'
    ensures |Join(UnescapeAll(pieces), "?")| > 0 && Join(UnescapeAll(pieces), "?")[0] == '/'
  {
    var p := pieces[0];
    assert p == ['/'] + p[1..];
    ReplaceHead('/', p[1..], EscapedAmpersand, "&");
  }

  /** The restore undoes the 404 page: the address the browser was first
      asked for comes back, as long as the route and its query held no `~`
      of their own. */
  lemma RestoreRedirect(base: string, rest: string, query: string, hash: string)
    requires '~' !in rest && '~' !in query
    ensures Restore(Redirect(base, rest, query, hash)) == Some(Original(base, rest, query, hash))
  {
    OriginalParts(base, rest, query, hash);
    if query != "" {
      RestoreWithQuery(base, rest, query, hash);
    } else {
      RestoreRouteOnly(base, rest, hash);
    }
  }

  lemma RestoreWithQuery(base: string, rest: string, query: string, hash: string)
    requires '~' !in rest && '~' !in query && query != ""
    ensures Restore(Redirect(base, rest, query, hash)) == Some("/" + base + ("/" + rest + "?" + query) + hash)
  {
    var l := Redirect(base, rest, query, hash);
    var a, b := Escape(rest), Escape(query);
    assert l.search == "?/" + a + ("&" + b);
    assert DropFirst(l.search) == "/" + a + "&" + b by {
      SearchTail(a, "&" + b);
    }
    DropTrailingSlash("/" + base);
    RestoreUnfold(l);
    DecodedWithQuery(rest, query);
  }

  lemma SearchTail(a: string, b: string)
    ensures DropFirst("?/" + a + b) == "/" + a + b
  {
    assert ("?/" + a + b)[1..] == "/" + a + b;
  }

  lemma DropTrailingSlash(p: string)
    ensures DropLast(p + "/") == p
  {
    assert (p + "/")[..|p|] == p;
  }

  lemma RestoreRouteOnly(base: string, rest: string, hash: string)
    requires '~' !in rest
    ensures Restore(Redirect(base, rest, "", hash)) == Some("/" + base + ("/" + rest) + hash)
  {
    var l := Redirect(base, rest, "", hash);
    var a := Escape(rest);
    assert l.search == "?/" + a + "";
    assert DropFirst(l.search) == "/" + a by {
      SearchTail(a, "");
      assert "/" + a + "" == "/" + a;
    }
    DropTrailingSlash("/" + base);
    RestoreUnfold(l);
    DecodedRouteOnly(rest);
  }

  lemma OriginalParts(base: string, rest: string, query: string, hash: string)
    ensures query != "" ==> Original(base, rest, query, hash) == "/" + base + ("/" + rest + "?" + query) + hash
    ensures query == "" ==> Original(base, rest, query, hash) == "/" + base + ("/" + rest) + hash
  {
  }

  lemma RestoreUnfold(l: Location)
    requires StartsWith(l.search, "?/")
    ensures Restore(l) == Some(DropLast(l.pathname) + Join(UnescapeAll(Split(DropFirst(l.search), '&')), "?") + l.hash)
  {
  }

  /** The moved route and query, split at `&` and read back piece by
      piece, join into the route and query as they were. */
  lemma DecodedWithQuery(rest: string, query: string)
    requires '~' !in rest && '~' !in query && query != ""
    ensures Join(UnescapeAll(Split("/" + Escape(rest) + "&" + Escape(query), '&')), "?") == "/" + rest + "?" + query
  {
    var first := "/" + Escape(rest);
    var second := Escape(query);
    assert '&' !in first;
    assert first + "&" + second == Join([first, second], ['&']);
    SplitJoin([first, second], '&');
    FirstPiece(rest);
    UnescapeEscape(query);
    assert UnescapeAll([first, second]) == ["/" + rest, query];
  }

  lemma DecodedRouteOnly(rest: string)
    requires '~' !in rest
    ensures Join(UnescapeAll(Split("/" + Escape(rest), '&')), "?") == "/" + rest
  {
    var first := "/" + Escape(rest);
    assert '&' !in first;
    SplitNoSeparator(first, '&');
    FirstPiece(rest);
    assert UnescapeAll([first]) == ["/" + rest];
  }

  lemma FirstPiece(rest: string)
    requires '~' !in rest
    ensures Unescape("/" + Escape(rest)) == "/" + rest
  {
    UnescapeHead('/', Escape(rest));
    UnescapeEscape(rest);
  }
}

=== FILE: Text.dfy ===
/** The JavaScript string built-ins the application leans on, written out:
    `trim`, `toLowerCase` (ASCII letters only), `includes`, `split`/`join` on a
    one-character separator, global literal replacement, number-to-string and
    `parseInt`. */
module Text {
  import opened Base

  /** JavaScript's WhiteSpace and LineTerminator code points, the set `trim`
      and `parseInt` skip. */
  predicate IsJsSpace(c: char) {
    var n := c as int;
    (9 <= n <= 13) || n == 0x20 || n == 0xA0 || n == 0x1680 || (0x2000 <= n <= 0x200A)
    || n == 0x2028 || n == 0x2029 || n == 0x202F || n == 0x205F || n == 0x3000 || n == 0xFEFF
  }

  predicate IsUpperAscii(c: char) { 'A' <= c <= 'Z' }

  function LowerChar(c: char): (r: char)
    ensures !IsUpperAscii(r)
    ensures IsJsSpace(r) <==> IsJsSpace(c)
    ensures !IsUpperAscii(c) ==> r == c
  {
    if IsUpperAscii(c) then (c as int + 32) as char else c
  }

  /** `s.toLowerCase()` restricted to ASCII letters. */
  function Lower(s: string): (r: string)
    ensures |r| == |s|
    ensures forall i :: 0 <= i < |s| ==> r[i] == LowerChar(s[i])
  {
    if |s| == 0 then [] else [LowerChar(s[0])] + Lower(s[1..])
  }

  /** Leading white space removed: the result is a suffix of `s`, everything
      cut off is white space, and the result does not start with white space. */
  function TrimStart(s: string): (r: string)
    ensures |r| <= |s| && r == s[|s| - |r|..]
    ensures forall k :: 0 <= k < |s| - |r| ==> IsJsSpace(s[k])
    ensures |r| > 0 ==> !IsJsSpace(r[0])
  {
    if |s| > 0 && IsJsSpace(s[0]) then TrimStart(s[1..]) else s
  }

  /** Trailing white space removed, symmetrically. */
  function TrimEnd(s: string): (r: string)
    ensures |r| <= |s| && r == s[..|r|]
    ensures forall k :: |r| <= k < |s| ==> IsJsSpace(s[k])
    ensures |r| > 0 ==> !IsJsSpace(r[|r| - 1])
  {
    if |s| > 0 && IsJsSpace(s[|s| - 1]) then TrimEnd(s[..|s| - 1]) else s
  }

  /** `s.trim()`. */
  function Trim(s: string): (r: string)
    ensures |r| <= |s|
    ensures |r| > 0 ==> !IsJsSpace(r[0]) && !IsJsSpace(r[|r| - 1])
    ensures (forall k :: 0 <= k < |s| ==> IsJsSpace(s[k])) <==> r == []
  {
    TrimFacts(s);
    TrimEnd(TrimStart(s))
  }

  lemma TrimFacts(s: string)
    ensures var r := TrimEnd(TrimStart(s));
      (|r| > 0 ==> !IsJsSpace(r[0]))
      && ((forall k :: 0 <= k < |s| ==> IsJsSpace(s[k])) <==> r == [])
  {
    var t := TrimStart(s);
    var r := TrimEnd(t);
    if r == [] {
      assert t == [];
    } else {
      assert r[0] == t[0];
      assert !IsJsSpace(t[0]);
      assert t[0] == s[|s| - |t|];
    }
  }

  /** Lower-casing does not move white space, so it commutes with trimming. */
  lemma {:induction false} TrimStartLower(s: string)
    ensures TrimStart(Lower(s)) == Lower(TrimStart(s))
  {
    if |s| > 0 {
      assert Lower(s)[1..] == Lower(s[1..]);
      if IsJsSpace(s[0]) {
        TrimStartLower(s[1..]);
      }
    }
  }

  lemma {:induction false} TrimEndLower(s: string)
    ensures TrimEnd(Lower(s)) == Lower(TrimEnd(s))
  {
    if |s| > 0 {
      assert Lower(s)[..|s| - 1] == Lower(s[..|s| - 1]);
      if IsJsSpace(s[|s| - 1]) {
        TrimEndLower(s[..|s| - 1]);
      }
    }
  }

  lemma TrimLower(s: string)
    ensures Trim(Lower(s)) == Lower(Trim(s))
  {
    TrimStartLower(s);
    TrimEndLower(TrimStart(s));
  }

  function StartsWith(s: string, p: string): bool {
    |p| <= |s| && s[..|p|] == p
  }

  function EndsWith(s: string, p: string): bool {
    |p| <= |s| && s[|s| - |p|..] == p
  }

  /** `s.includes(sub)`. */
  predicate Contains(s: string, sub: string) {
    exists i | 0 <= i <= |s| - |sub| :: OccursAt(s, sub, i)
  }

  /** `sub` occurs in `s` starting at index `i`. */
  predicate OccursAt(s: string, sub: string, i: int) {
    0 <= i && i + |sub| <= |s| && s[i..i + |sub|] == sub
  }

  /** An occurrence inside the right operand of a concatenation is an
      occurrence of the whole. */
  lemma ContainsRight(a: string, b: string, sub: string)
    requires Contains(b, sub)
    ensures Contains(a + b, sub)
  {
    var i :| 0 <= i <= |b| - |sub| && OccursAt(b, sub, i);
    assert (a + b)[|a| + i..|a| + i + |sub|] == sub;
    assert OccursAt(a + b, sub, |a| + i);
  }

  /** `parts.join(sep)`. */
  function Join(parts: seq<string>, sep: string): string {
    if |parts| == 0 then ""
    else if |parts| == 1 then parts[0]
    else parts[0] + sep + Join(parts[1..], sep)
  }

  /** `s.split(c)` for a one-character separator: always at least one piece,
      none containing `c`, and joining them back gives `s`. */
  function Split(s: string, c: char): (r: seq<string>)
    ensures |r| >= 1
    ensures forall k :: 0 <= k < |r| ==> c !in r[k]
    ensures Join(r, [c]) == s
  {
    if |s| == 0 then [""]
    else
      var rest := Split(s[1..], c);
      if s[0] == c then
        assert s == [c] + s[1..];
        [""] + rest
      else
        var r := [[s[0]] + rest[0]] + rest[1..];
        JoinConsHead(s[0], rest, [c]);
        assert s == [s[0]] + s[1..];
        r
  }

  /** Prepending a character to the first piece prepends it to the join. */
  lemma JoinConsHead(x: char, parts: seq<string>, sep: string)
    requires |parts| >= 1
    ensures Join([[x] + parts[0]] + parts[1..], sep) == [x] + Join(parts, sep)
  {
    var r := [[x] + parts[0]] + parts[1..];
    assert r[1..] == parts[1..];
  }

  /** Splitting undoes joining when no piece holds the separator. */
  lemma {:induction false} SplitJoin(parts: seq<string>, c: char)
    requires |parts| >= 1
    requires forall k :: 0 <= k < |parts| ==> c !in parts[k]
    ensures Split(Join(parts, [c]), c) == parts
  {
    if |parts| == 1 {
      SplitNoSeparator(parts[0], c);
    } else {
      SplitJoin(parts[1..], c);
      SplitAfterPiece(parts[0], Join(parts[1..], [c]), c);
    }
  }

  lemma {:induction false} SplitNoSeparator(s: string, c: char)
    requires c !in s
    ensures Split(s, c) == [s]
  {
    if |s| > 0 {
      assert c !in s[1..];
      SplitNoSeparator(s[1..], c);
    }
  }

  lemma {:induction false} SplitAfterPiece(a: string, b: string, c: char)
    requires c !in a
    ensures Split(a + [c] + b, c) == [a] + Split(b, c)
  {
    if |a| == 0 {
      assert a + [c] + b == [c] + b;
      assert ([c] + b)[1..] == b;
    } else {
      assert (a + [c] + b)[0] == a[0];
      assert (a + [c] + b)[1..] == a[1..] + [c] + b;
      assert c !in a[1..];
      SplitAfterPiece(a[1..], b, c);
      var rest := Split(a[1..] + [c] + b, c);
      assert rest[0] == a[1..] && rest[1..] == Split(b, c);
      assert [a[0]] + a[1..] == a;
    }
  }

  /** `s.replace(/pat/g, rep)` for a literal pattern: occurrences are found
      left to right and never overlap. */
  function ReplaceAll(s: string, pat: string, rep: string): (r: string)
    requires |pat| > 0
    ensures !Contains(s, pat) ==> r == s
    decreases |s|
  {
    if |s| < |pat| then
      s
    else if s[..|pat|] == pat then
      assert OccursAt(s, pat, 0);
      rep + ReplaceAll(s[|pat|..], pat, rep)
    else
      NoOccurrenceTail(s, pat);
      assert s == [s[0]] + s[1..];
      [s[0]] + ReplaceAll(s[1..], pat, rep)
  }

  /** An occurrence in the tail is an occurrence in the whole. */
  lemma NoOccurrenceTail(s: string, pat: string)
    requires |s| > 0
    ensures !Contains(s, pat) ==> !Contains(s[1..], pat)
  {
    if Contains(s[1..], pat) {
      var i :| 0 <= i <= |s[1..]| - |pat| && OccursAt(s[1..], pat, i);
      assert s[i + 1..i + 1 + |pat|] == pat;
      assert OccursAt(s, pat, i + 1);
    }
  }

  /** The decimal digit for 0..9. */
  function DigitChar(d: int): (c: char)
    requires 0 <= d < 10
    ensures '0' <= c <= '9' && c as int - '0' as int == d
  {
    ('0' as int + d) as char
  }

  predicate IsDecimalDigit(c: char) { '0' <= c <= '9' }

  function DigitOf(c: char): (d: nat)
    requires IsDecimalDigit(c)
    ensures d < 10 && DigitChar(d) == c
  {
    c as int - '0' as int
  }

  /** The numeric value of a digit string, most significant first. */
  function DecimalValue(ds: string): nat
    requires forall k :: 0 <= k < |ds| ==> IsDecimalDigit(ds[k])
  {
    if |ds| == 0 then 0
    else DecimalValue(ds[..|ds| - 1]) * 10 + DigitOf(ds[|ds| - 1])
  }

  /** `String(n)` for a natural number: decimal digits, no leading zero. */
  function NatToString(n: nat): (r: string)
    ensures |r| >= 1
    ensures forall k :: 0 <= k < |r| ==> IsDecimalDigit(r[k])
    ensures DecimalValue(r) == n
  {
    if n < 10 then [DigitChar(n)]
    else
      var r := NatToString(n / 10) + [DigitChar(n % 10)];
      assert r[..|r| - 1] == NatToString(n / 10);
      r
  }

  /** `String(i)` / template-literal interpolation of an integer. */
  function IntToString(i: int): (r: string)
    ensures |r| >= 1
    ensures ':' !in r && '&' !in r && '=' !in r && ' ' !in r
  {
    if i < 0 then "-" + NatToString(-i) else NatToString(i)
  }

  /** A printed integer is made of decimal digits and the minus sign. */
  lemma IntToStringChars(i: int)
    ensures forall k :: 0 <= k < |IntToString(i)| ==> IsDecimalDigit(IntToString(i)[k]) || IntToString(i)[k] == '-'
  {
    if i < 0 {
      var ds := NatToString(-i);
      assert forall k :: 1 <= k < |IntToString(i)| ==> IntToString(i)[k] == ds[k - 1];
    }
  }

  /** Distinct integers print differently. */
  lemma IntToStringInjective(a: int, b: int)
    requires IntToString(a) == IntToString(b)
    ensures a == b
  {
    var sa := IntToString(a);
    if a < 0 && b < 0 {
      assert NatToString(-a) == sa[1..] == NatToString(-b);
      assert DecimalValue(NatToString(-a)) == -a;
    } else if a >= 0 && b >= 0 {
      assert DecimalValue(NatToString(a)) == a;
      assert DecimalValue(NatToString(b)) == b;
    } else {
      SignCharacter(a);
      SignCharacter(b);
      assert false;
    }
  }

  /** A printed integer starts with '-' exactly when it is negative. */
  lemma SignCharacter(i: int)
    ensures (IntToString(i)[0] == '-') <==> i < 0
  {
    if i >= 0 {
      assert IsDecimalDigit(NatToString(i)[0]);
    }
  }

  /** How `parseInt` was called: with radix 10, or with no radix (which also
      accepts a `0x` hexadecimal prefix). */
  datatype Radix = Decimal | Auto

  /** The value of `c` as a digit in base 16, or 16 when it is no such digit. */
  function DigitValue(c: char): (v: int)
    ensures 0 <= v <= 16
  {
    if '0' <= c <= '9' then c as int - '0' as int
    else if 'a' <= c <= 'f' then c as int - 'a' as int + 10
    else if 'A' <= c <= 'F' then c as int - 'A' as int + 10
    else 16
  }

  /** The longest prefix of digits valid in base `base`. */
  function DigitRun(s: string, base: int): (r: string)
    ensures |r| <= |s| && r == s[..|r|]
    ensures forall k :: 0 <= k < |r| ==> DigitValue(r[k]) < base
    ensures |r| < |s| ==> DigitValue(s[|r|]) >= base
  {
    if |s| > 0 && DigitValue(s[0]) < base then [s[0]] + DigitRun(s[1..], base) else []
  }

  function RunValue(ds: string, base: int): int
    requires forall k :: 0 <= k < |ds| ==> DigitValue(ds[k]) < base
  {
    if |ds| == 0 then 0 else RunValue(ds[..|ds| - 1], base) * base + DigitValue(ds[|ds| - 1])
  }

  /** What follows the leading white space and an optional sign. */
  function Unsigned(s: string): string {
    var t := TrimStart(s);
    if |t| > 0 && (t[0] == '-' || t[0] == '+') then t[1..] else t
  }

  /** A minus sign follows the leading white space. */
  predicate Negative(s: string) {
    var t := TrimStart(s);
    |t| > 0 && t[0] == '-'
  }

  /** Without a radix, `parseInt` reads a `0x`/`0X` prefix as base 16. */
  predicate HexPrefixed(s: string, radix: Radix) {
    var u := Unsigned(s);
    radix == Auto && |u| >= 2 && u[0] == '0' && (u[1] == 'x' || u[1] == 'X')
  }

  function Digits(s: string, radix: Radix): string {
    var u := Unsigned(s);
    if HexPrefixed(s, radix) then DigitRun(u[2..], 16) else DigitRun(u, 10)
  }

  /** `parseInt(s)` or `parseInt(s, 10)`: `None` stands for `NaN`, which is
      the outcome exactly when no digit follows the white space, sign and
      prefix. */
  function ParseInt(s: string, radix: Radix): (r: Option<int>)
    ensures r.None? <==> |Digits(s, radix)| == 0
  {
    var ds := Digits(s, radix);
    if |ds| == 0 then None
    else
      var v := if HexPrefixed(s, radix) then RunValue(ds, 16) else RunValue(ds, 10);
      Some(if Negative(s) then -v else v)
  }

  /** A string made only of valid digits is its own digit run. */
  lemma AllDigitsRun(s: string, base: int)
    requires forall k :: 0 <= k < |s| ==> DigitValue(s[k]) < base
    ensures DigitRun(s, base) == s
  {
  }

  /** `parseInt(String(n), 10) == n`: printing and reading back an integer
      are inverse. */
  lemma ParseIntToString(n: int)
    ensures ParseInt(IntToString(n), Decimal) == Some(n)
  {
    if n < 0 {
      var ds := NatToString(-n);
      assert IntToString(n) == ['-'] + ds;
      ParseSignedDigits(true, ds);
    } else {
      ParseSignedDigits(false, NatToString(n));
    }
  }

  /** Without a radix, `parseInt(String(n))` is still `n`: a printed
      integer never carries a `0x` prefix. */
  lemma ParseIntToStringAuto(n: int)
    ensures ParseInt(IntToString(n), Auto) == Some(n)
  {
    ParseIntToString(n);
    var ds := if n < 0 then NatToString(-n) else NatToString(n);
    assert IntToString(n) == if n < 0 then ['-'] + ds else ds;
    NoHexPrefix(n < 0, ds);
    assert Digits(IntToString(n), Auto) == Digits(IntToString(n), Decimal);
  }

  lemma NoHexPrefix(negative: bool, ds: string)
    requires |ds| > 0 && forall k :: 0 <= k < |ds| ==> IsDecimalDigit(ds[k])
    ensures !HexPrefixed(if negative then ['-'] + ds else ds, Auto)
  {
    var s := if negative then ['-'] + ds else ds;
    assert s[0] == if negative then '-' else ds[0];
    assert !IsJsSpace(s[0]);
    assert TrimStart(s) == s;
    if negative {
      assert s[1..] == ds;
    }
    assert Unsigned(s) == ds;
  }

  /** An optional minus sign followed by decimal digits reads back as their
      value, negated after the sign. */
  lemma ParseSignedDigits(negative: bool, ds: string)
    requires |ds| > 0 && forall k :: 0 <= k < |ds| ==> IsDecimalDigit(ds[k])
    ensures var v: int := DecimalValue(ds);
      ParseInt(if negative then ['-'] + ds else ds, Decimal) == Some(if negative then -v else v)
  {
    SignedDigits(negative, ds);
    RunValueDecimal(ds);
  }

  /** Past an optional leading minus sign, a run of decimal digits is read
      whole, in base 10. */
  lemma SignedDigits(negative: bool, ds: string)
    requires |ds| > 0 && forall k :: 0 <= k < |ds| ==> IsDecimalDigit(ds[k])
    ensures var s := if negative then ['-'] + ds else ds;
      && Digits(s, Decimal) == ds && !HexPrefixed(s, Decimal) && (Negative(s) <==> negative)
  {
    var s := if negative then ['-'] + ds else ds;
    assert s[0] == if negative then '-' else ds[0];
    assert !IsJsSpace(s[0]);
    assert TrimStart(s) == s;
    if negative {
      assert s[1..] == ds;
    }
    assert Unsigned(s) == ds;
    AllDigitsRun(ds, 10);
  }

  lemma {:induction false} RunValueDecimal(ds: string)
    requires forall k :: 0 <= k < |ds| ==> IsDecimalDigit(ds[k])
    ensures forall k :: 0 <= k < |ds| ==> DigitValue(ds[k]) < 10
    ensures RunValue(ds, 10) == DecimalValue(ds)
  {
    if |ds| > 0 {
      RunValueDecimal(ds[..|ds| - 1]);
    }
  }
}
